=== FILE: README.md ===
# NoxTube core, modelled in Dafny

NoxTube is a desktop YouTube client. It finds videos through yt-dlp,
decodes them with two ffmpeg processes (raw RGB frames and raw PCM audio),
and paces the frames against a clock derived from the audio played. This
project models the parts of NoxTube that hold its logic:

- **Text** (`text.dfy`): Python behaviour that the other modules share.
  - `dict.get` with a default, and Python truthiness.
  - `int()` on a float, which truncates toward zero.
  - `divmod`-based hours/minutes/seconds and `:02d` padding.
  - POSIX `os.path.join`.
- **AvPipeline** (`av_pipeline.dfy`): the logic of test.py's AVWorker as values.
  - The audio clock.
  - Frame numbering and presentation times.
  - Framing a pipe's reads into frames.
  - The staleness test.
  - Resolving the stream with its fallbacks.
  - The start-up sequence of the two decoders and three loops.
  - What one pass of the render loop emits.
  - The worker invariant `WorkerOk`, and a lemma per step that keeps it.
- **AvWorker** (`av_worker.dfy`): the AVWorker object as a class.
  - Fields that the methods update in place.
  - Loop methods (reader, audio with a device, clock-only audio, render) proved against AvPipeline.
  - `stop()`.
  - The resolve/spawn sequence of `_run_inner`.
- **PlayerSession** (`video_player.dfy`): the VideoPlayer widget's session logic.
  - The `_fmt` clock text and its read-back.
  - The seek slider's bounding.
  - Replacing the worker on seek and on resume.
  - Pausing, and closing.
- **InvidiousSearch** (`invidious.dfy`): the yt-dlp plugin.
  - `_parse_entry`: fallbacks and the `M:SS`/`H:MM:SS` duration text.
  - `_run_flat`'s failure cases: a missing `yt-dlp` raises out of the spawn, while every later failure gives no entries.
  - `search`'s filter of channel entries.
  - `get_trending`.
- **CacheManagement** (`cache_manager.dfy`): the thumbnail cache.
  - Per-host request headers.
  - At most one download per URL, pending exactly while scheduled.
  - Write to a temporary file, then move it into place.
  - The synchronous lookup.
- **SidebarNav** (`sidebar.dfy`): the navigation sidebar.
  - Its section table.
  - A button's look from its active and hovered flags.
  - At most one highlighted button: the active key's.
  - Folding between 220 and 72 pixels.
- **Plugins** (`plugin_manager.dfy`): the plugin manager.
  - Which files are imported.
  - Registration of plugin classes by name, where the last one wins.
  - Loading that stops at the first import that raises.
  - Selecting the active plugin.
- **Resources** (`resources.dfy`): `resource_path` and its fallback to the `fonts` directory.

Processes, pipes, devices, clocks, the network and the file system are not
executed; what they yield is a parameter. The read sizes a pipe returns,
whether a process spawns, whether PyAudio and the device are there, and
the elapsed monotonic time are examples. Python floats are modelled as
Dafny `real`s. Python's `int()` truncation and `divmod` are written out.

`test.py` does not implement:

- rational frame rates such as `30000/1001` (such a string is not a number to `float()`, so the resolution fails and falls back to the defaults);
- a volume gain on the samples;
- clamping of the seek position to the duration;
- a clock-only fallback when the audio device fails to open.

In the code, a device that fails to open ends the audio thread, and the
clock stays at the start offset. Only a missing PyAudio
module selects the clock-only path. The frame rate is not parsed from the
stream at all: `_resolve_url` takes `fps` from yt-dlp's JSON.

## Model

| member | source | states |
|---|---|---|
| Text.GetOr | plugins/invidious_plugin.py:74-78 | `e.get(k, d)` gives the default only for an absent key, None for a null value, and the stored value for a present one |
| Text.Trunc | test.py:464 | `int()` of a float truncates toward zero: the result lies within one of the argument, on the side of zero |
| Text.Hms | test.py:465-466 | the two `divmod`s split t into h, m, s with h*3600 + m*60 + s == t and 0 <= m, s < 60 (h >= 0 for t >= 0) |
| Text.Pad2 | test.py:467 | `:02d` of 0..99 is two digits that read back as the number |
| Text.PathJoin | utils/resources.py:15 | POSIX `os.path.join`: the result ends with the second part; an absolute second part replaces the first; otherwise it is the first part, then one `/` unless the first part is empty or already ends in one, then the second part (`InDir`) |
| Text.PathJoinNested | utils/resources.py:17 | joining `a` with a relative `b` and then with a relative `c` gives the same path as joining `a` with `b/c` once |
| Text.ParseNatToString | test.py:467 | decimal digits read back as the number they print |
| AvPipeline.AudioClock | test.py:68-71 | the clock is never before the start offset and advances by exactly one second per 176400 bytes played |
| AvPipeline.AudioClockMonotone | test.py:219-223 | playing more bytes never moves the clock back |
| AvPipeline.FramePtsFormula | test.py:179 | the pts of frame i, one frame duration after frame i-1, is start + i/fps |
| AvPipeline.FramePtsIncreasing | test.py:179-187 | for a positive frame rate, a later frame index has a strictly later pts |
| AvPipeline.FramePtsFromStart | test.py:179 | for a positive frame rate no frame is presented before the start offset |
| AvPipeline.StaleWindow | test.py:270-272 | for a positive frame rate a frame is dropped exactly when it is more than two frame durations (2/fps) behind the clock |
| AvPipeline.StaleLater | test.py:270-272 | a frame dropped against one clock reading would be dropped against any later reading, and so would any earlier frame |
| AvPipeline.ElapsedBytes | test.py:250-252 | the clock-only byte count is the floor of elapsed × 176400 |
| AvPipeline.Terminated | test.py:309-317 | stop() terminates each decoder that exists and leaves an absent one absent |
| AvPipeline.Framed | test.py:174-187 | the reader makes at most one frame per read |
| AvPipeline.ResolveUrl | test.py:151-165 | a failed yt-dlp run, unusable JSON, an absent url, a null or non-numeric duration, or an fps, width or height that `float()`/`int()` rejects gives (None, 0, 30, 1280, 720); the fps, width and height are never zero; a URL comes back exactly when none of these happens and the url is not null |
| AvPipeline.ResolveDefaults | test.py:157-162 | a missing duration is 0 and a present one is taken as is; fps, width and height are the JSON number or else 30, 1280 and 720, and a non-zero number is always taken |
| AvPipeline.FramedElements | test.py:174-187 | each frame is a full read of the pipe, in order, with the pts of its number |
| AvPipeline.FramedStopsAtShortRead | test.py:175-178 | the read after the last frame, if any, is short: it ended the stream |
| AvPipeline.FramedAllFull | test.py:174-187 | when every read is full, every read becomes a frame |
| AvPipeline.FramedSnoc | test.py:174-187 | one more read appends one frame when it is full and nothing when it is short |
| AvPipeline.SpacedApart | test.py:286-288 | any two time updates are at least as many seconds apart as their distance in the log |
| AvPipeline.Ticks | test.py:284-288 | the time updates a run of emitted frames sends: no more than the frames; last_ts stays when none is sent and is otherwise the latest one sent |
| AvPipeline.TicksAreShown | test.py:284-288 | every time update carries the pts of a frame that was emitted |
| AvPipeline.TimeOkSnoc | test.py:284-288 | an update a second or more past last_ts keeps the updates a second apart |
| AvPipeline.TicksKeepTimeOk | test.py:284-288 | whatever frames are emitted, the updates they send keep the log a second apart, with last_ts the latest |
| AvPipeline.TickedNone | test.py:259 | no frame emitted, no update sent |
| AvPipeline.TickedSnoc | test.py:284-288 | emitting one more frame sends an update exactly when its pts is a second or more past last_ts, and then moves last_ts to it |
| AvPipeline.InOrderPairwise | test.py:257-291 | frames are shown in strictly increasing pts order |
| AvPipeline.PendingTake | test.py:266 | the queue is FIFO: the frame taken is the oldest frame not yet popped |
| AvPipeline.StartDecoders | test.py:113-140 | the audio decoder exists only beside a video decoder on the same URL; a failed audio spawn terminates the video decoder; the loops start exactly when both decoders exist; a stopped worker's loops exit at once |
| AvPipeline.StopKeepsWorkerOk | test.py:295-317 | stop() keeps the worker invariant, with no decoder left unterminated |
| AvPipeline.ResolvedKeepsWorkerOk | test.py:84-90 | storing the resolved geometry keeps the invariant |
| AvPipeline.LaunchKeepsCoreOk | test.py:113-140 | the start-up sequence keeps the core invariant |
| AvPipeline.ReadKeepsWorkerOk | test.py:169-190 | a reader step keeps the invariant: a bounded queue of numbered full frames |
| AvPipeline.AudioKeepsWorkerOk | test.py:194-253 | an audio step keeps the invariant |
| AvPipeline.RenderKeepsWorkerOk | test.py:257-291 | a render pass keeps the invariant: shown frames are in order, none is stale, and time updates stay a second apart |
| AvPipeline.TakeKeepsWorkerOk | test.py:264-291 | taking frames from the queue's front and replacing the renderer's state keeps the invariant, when the new state is itself consistent |
| AvWorker.AVWorker.constructor | test.py:38-56 | a fresh worker runs, has fps 30 and 0×0 geometry, no decoders, an empty queue, and a clock at the start offset |
| AvWorker.AVWorker.AudioPosition | test.py:68-71 | `_audio_clock` is never before the start offset |
| AvWorker.AVWorker.Stop | test.py:295-317 | afterwards the worker is stopped, the event is set, the queue is drained, and every decoder is terminated |
| AvWorker.AVWorker.Drain | test.py:303-307 | get_nowait until Empty takes every queued frame |
| AvWorker.AVWorker.Resolve | test.py:84-90 | the URL and geometry are those of `_resolve_url`; "yt-dlp failed" is reported exactly when the run fails; duration_found is emitted only with a URL |
| AvWorker.AVWorker.Launch | test.py:113-140 | the decoders and loop states are those of the start-up sequence, and the invariant holds afterwards |
| AvWorker.AVWorker.RunInner | test.py:81-140 | corrected `_run_inner`: nothing is spawned without a URL or once stopped; otherwise the start-up sequence runs, and the invariant holds |
| AvWorker.AVWorker.RunInnerAsWritten | test.py:81-140 | `_run_inner` as written: with a URL, the decoders are spawned even when stop() came during resolution |
| AvWorker.AVWorker.ReaderLoop | test.py:169-190 | the reader's loop, proved against Framed: it puts the frames of the full reads in order, blocks on a full queue, gives up when stopped, and ends at a short read |
| AvWorker.AVWorker.ReadVideo | test.py:169-190 | `_read_video`: while running, the frames put (or being put) grow by exactly the frames Framed gives for the reads consumed, numbered on from those before; the invariant is kept |
| AvWorker.AVWorker.DeviceLoop | test.py:212-223 | the device loop adds each chunk's length to the bytes played, stops at an empty read or a stop, and never decreases the count |
| AvWorker.AVWorker.PlayAudio | test.py:194-241 | `_play_audio` with a device: the clock never goes back, and the bytes played grow by the total length of the chunks written |
| AvWorker.AVWorker.ClockLoop | test.py:243-253 | the clock-only loop sets the byte count from the elapsed time of the last non-empty read, and never decreases it |
| AvWorker.AVWorker.DrainAudioNoDevice | test.py:243-253 | `_drain_audio_no_pyaudio`: the clock never goes back and follows the elapsed time |
| AvWorker.AVWorker.Emit | test.py:284-288 | frame_ready for every frame; time_update exactly when a second of pts has passed since the last one, which keeps updates a second apart |
| AvWorker.AVWorker.RenderSteps | test.py:257-291 | a pass of at most `budget` steps takes frames from the front of the queue and shows, in order, exactly the fresh frames it took; the time updates it sends are Ticks of the frames it showed; unless the budget cut it, it ends with the queue empty, a frame ahead of the clock, or exited; a stopped worker shows nothing; a budget above twice the queue never cuts |
| AvWorker.AVWorker.RenderLoop | test.py:257-291 | `_render_loop` for at most `budget` steps against the current audio clock: the fields become a render pass from their old values (frames shown, time updates as Ticks, queue taken from the front), the invariant is kept, and a long enough budget never cuts |
| AvWorker.AVWorker.StoreRendered | test.py:257-291 | storing a render pass computed from the current fields keeps the invariant |
| AvWorker.StopDuringResolveAsWritten | test.py:81-134 | a stop() while yt-dlp runs, with a URL resolved, leaves both decoders running after the worker has stopped |
| AvWorker.StopDuringResolve | test.py:81-134 | with the running check, a stop() while yt-dlp runs spawns nothing |
| PlayerSession.FmtRoundTrip | test.py:462-467 | `_fmt` gives `MM:SS` under an hour and `HH:MM:SS` from an hour on, and the text reads back as the truncated seconds |
| PlayerSession.FmtSeconds | test.py:462-467 | the clock text always ends with a colon and the two digits of the seconds within the minute |
| PlayerSession.TimeLabelRoundTrip | test.py:459-460 | below 100 hours the label `position / duration` reads back as the truncated position and duration |
| PlayerSession.PlayGlyph | test.py:476-483 | the button shows pause exactly while playing and play exactly while paused |
| PlayerSession.SetValue | test.py:456 | the slider value is bounded to its range; nothing else changes |
| PlayerSession.SetRange | test.py:450 | `setRange(0, m)` with a negative m collapses to 0, and the value is bounded again |
| PlayerSession.SetValueIdempotent | test.py:456 | setting the value a slider already holds changes nothing |
| PlayerSession.VideoPlayer.constructor | test.py:322-333 | the player starts playing at 0 with the label `00:00 / 00:00` (test.py:392), a 0..99 slider, and a fresh running worker for its URL |
| PlayerSession.TimeLabelAtStart | test.py:392 | the time label at zero seconds of zero duration is `00:00 / 00:00` |
| PlayerSession.VideoPlayer.StartWorker | test.py:408-435 | the old worker is stopped (flag cleared, event set, queue drained, each existing ffmpeg decoder terminated) and retired, and a fresh worker for the same URL starts at the offset |
| PlayerSession.VideoPlayer.Retire | test.py:412-425 | the old worker is stopped: flag cleared, event set, queue drained, and each existing decoder terminated |
| PlayerSession.VideoPlayer.Replace | test.py:427-434 | a fresh worker at the offset takes its place, and the position jumps to it |
| PlayerSession.VideoPlayer.SetDuration | test.py:448-451 | the slider's range becomes 0..int(d), and the label shows the new duration |
| PlayerSession.VideoPlayer.SyncTime | test.py:453-457 | time updates are ignored while the slider is held; otherwise the position, slider and label follow |
| PlayerSession.VideoPlayer.OnTimeUpdate | test.py:432 | only the current worker's time_update reaches the player; it changes nothing while the slider is held, and otherwise sets the position, the slider value (clamped to the range) and the label |
| PlayerSession.VideoPlayer.OnDurationFound | test.py:431 | only the current worker's duration_found reaches the player; it sets the duration, the slider's range to 0..whole seconds (value clamped) and the label |
| PlayerSession.VideoPlayer.PressSlider | test.py:383 | grabbing the handle holds the slider |
| PlayerSession.VideoPlayer.DragSlider | test.py:381 | dragging keeps the value inside the range |
| PlayerSession.VideoPlayer.ReleaseSlider | test.py:472-474 | releasing lifts the slider with its value and range unchanged, stops the old worker, terminating its decoders, retires it, and starts a fresh worker for the same URL at the slider's value; duration, label, flag and glyph are kept |
| PlayerSession.VideoPlayer.TogglePlay | test.py:476-483 | pausing stops the worker, terminating its decoders, and keeps the position; resuming stops the old worker again, terminating any decoders it spawned meanwhile, retires it and starts a fresh one for the same URL from the slider's value; the flag and glyph flip either way; slider, duration and label are kept |
| PlayerSession.VideoPlayer.Close | test.py:515-527 | closing stops the worker and terminates each decoder it has |
| InvidiousSearch.ParseEntry | plugins/invidious_plugin.py:68-79 | the channel is never empty: the uploader if truthy, else the channel if truthy, else "Unknown" |
| InvidiousSearch.ParseEntryDuration | plugins/invidious_plugin.py:69-72 | the duration text reads back as the entry's whole seconds |
| InvidiousSearch.ParseEntryDefaults | plugins/invidious_plugin.py:69-79 | the defaults: id "", title "No Title", thumbnail "", duration "0:00", channel "Unknown" |
| InvidiousSearch.DurationRoundTrip | plugins/invidious_plugin.py:69-72 | every duration text reads back as its seconds; it is `M:SS` (no colon before the seconds' one) exactly below an hour, so `60:00` is never produced; only zero gives `0:00` |
| InvidiousSearch.DurationForm | plugins/invidious_plugin.py:69-72 | the text before the seconds' colon is a bare run of digits exactly when the duration is under an hour |
| InvidiousSearch.ZeroDuration | plugins/invidious_plugin.py:69-72 | a zero duration, which a missing or null one becomes, is written `0:00` and reads back as zero |
| InvidiousSearch.ClockTextRoundTrip | plugins/invidious_plugin.py:72 | any split with minutes and seconds below 60 reads back as its seconds |
| InvidiousSearch.HoursRoundTrip | plugins/invidious_plugin.py:72 | the `H:MM:SS` form reads back as its seconds |
| InvidiousSearch.MinutesRoundTrip | plugins/invidious_plugin.py:72 | the `M:SS` form reads back as its seconds |
| InvidiousSearch.ParseHms | plugins/invidious_plugin.py:72 | hours, two minute digits and two second digits joined by colons read back as seconds |
| InvidiousSearch.ChannelOf | plugins/invidious_plugin.py:76 | `uploader or channel or "Unknown"`: never empty, the uploader if truthy, else the channel if truthy, else "Unknown" |
| InvidiousSearch.SearchTarget | plugins/invidious_plugin.py:83 | the target is `ytsearch20:` followed by the query, unchanged |
| InvidiousSearch.FlatEntries | plugins/invidious_plugin.py:42-66 | a failed spawn (`FileNotFoundError`, not caught) is an error and the only one; a timeout, non-JSON output, or a non-object gives no entries; an object gives its entries list |
| InvidiousSearch.FlatCommand | plugins/invidious_plugin.py:34-41 | yt-dlp is run with flat-playlist JSON options on the target |
| InvidiousSearch.KeepVideos | plugins/invidious_plugin.py:84-87 | the filter succeeds exactly when no id is null, keeps no channel id, and yields at most as many items as entries |
| InvidiousSearch.KeepVideosAppend | plugins/invidious_plugin.py:84-87 | filtering works entry by entry: a concatenation filters to the concatenation |
| InvidiousSearch.KeepVideosSingle | plugins/invidious_plugin.py:84-87 | a video entry is parsed, a channel entry skipped, and a null id raises |
| InvidiousSearch.KeepVideosNoChannels | plugins/invidious_plugin.py:84-87 | without channels, every entry is parsed, in order |
| InvidiousSearch.ParseAll | plugins/invidious_plugin.py:87 | every entry is parsed, in order |
| InvidiousSearch.Search | plugins/invidious_plugin.py:81-89 | the target is `ytsearch20:` followed by the query; a failed spawn raises out of the search; otherwise the results are exactly the parsed non-channel entries (`KeepVideos` of the entries), so a timeout or bad output gives none |
| InvidiousSearch.GetTrending | plugins/invidious_plugin.py:91-93 | trending is the search for "trending today": it raises when the spawn fails, and otherwise gives the kept entries |
| CacheManagement.HeadersFor | core/cache_manager.py:80-93 | Google image hosts get a browser User-Agent, a YouTube Referer and Origin, and an Accept; every other URL only a plain User-Agent |
| CacheManagement.GoogleHostsGetReferer | core/cache_manager.py:82 | any URL containing either host name gets the Referer |
| CacheManagement.CacheManager.constructor | core/cache_manager.py:22-32 | the cache starts empty, with nothing pending |
| CacheManagement.CacheManager.RequestDownload | core/cache_manager.py:65-76 | nothing for an empty, pending or cached URL; otherwise one download is scheduled, or none without a running loop; a URL is pending exactly while its single download is scheduled |
| CacheManagement.CacheManager.RunDownload | core/cache_manager.py:97-112 | the cache file appears only after a complete fetch, via the temporary file; image_ready is emitted only then; the URL stops being pending whatever happened |
| CacheManagement.CacheManager.Download | core/cache_manager.py:99-108 | the cache file is written only by moving a complete temporary file into place, and image_ready follows only that; a failed fetch leaves the files alone, and a failed write or replace leaves at most the temporary file |
| CacheManagement.CacheManager.Finish | core/cache_manager.py:111-112 | the URL stops being pending and its one task ends, which keeps pending and scheduled in step |
| CacheManagement.CacheManager.GetImageSync | core/cache_manager.py:53-61 | an image is returned exactly when the URL is non-empty and its file exists and decodes |
| CacheManagement.CacheFileNames | core/cache_manager.py:47-49 | a URL's cache file is its digest name with `.jpg`, inside the cache directory (joined with one `/`) unless that name is absolute; its temporary file (line 103) is that path with `.tmp` added |
| CacheManagement.CacheNameParts | core/cache_manager.py:47-49 | the same for any directory and `.jpg` file name: `os.path.join` adds one `/` unless the directory ends in one, and the `.tmp` name strips back to the path |
| CacheManagement.TmpIsNotCacheFile | core/cache_manager.py:103-106 | a temporary file never has the name of a cache file |
| CacheManagement.MoveIntoPlace | core/cache_manager.py:104-106 | writing the temporary file and then `os.replace` onto another path leaves the target with the contents written and no temporary file |
| SidebarNav.StyleOf | ui/sidebar.py:101-114 | an active button is highlighted and bold; a hovered one is shaded; any other is transparent |
| SidebarNav.StylesDistinct | ui/sidebar.py:101-114 | hover does not change an active button; the three looks are distinct |
| SidebarNav.SectionsShape | ui/sidebar.py:18-35 | the table holds ten keys in order, starting with "home", and four labels (two headers, two dividers) |
| SidebarNav.BuiltKeys | ui/sidebar.py:199-219 | the buttons are keyed by the table's keys: "home" is among them, and no key is empty |
| SidebarNav.SidebarButton.constructor | ui/sidebar.py:46-78 | a new button is inactive, unhovered and expanded, with its text shown |
| SidebarNav.SidebarButton.SetActive | ui/sidebar.py:82-84 | the active flag is set, and the look is refreshed |
| SidebarNav.SidebarButton.SetExpanded | ui/sidebar.py:86-97 | the text is shown exactly when expanded; the margin is 12 or 0 |
| SidebarNav.SidebarButton.SetHovered | ui/sidebar.py:116-126 | hovering changes the look of an inactive button only |
| SidebarNav.Sidebar.ActiveIsUnique | ui/sidebar.py:231-236 | at most one button is highlighted: the one under the active key |
| SidebarNav.Sidebar.constructor | ui/sidebar.py:160-223 | the sidebar is expanded at 220 pixels, with one button per table key, and "home" active and highlighted |
| SidebarNav.Sidebar.Build | ui/sidebar.py:199-219 | one button per table key, in table order, "home" among them and no key empty; four labels, one per header and divider, all shown |
| SidebarNav.Sidebar.AddSection | ui/sidebar.py:200-219 | a section adds a divider unless it is first, a label if its title is non-empty (`if section_title:`), and its buttons |
| SidebarNav.Sidebar.AddButtons | ui/sidebar.py:215-219 | each item gets an inactive expanded button under its key |
| SidebarNav.Sidebar.SetActive | ui/sidebar.py:231-236 | afterwards exactly the button under the new key is highlighted; the key becomes active even without a button; no fold or hover state changes |
| SidebarNav.Sidebar.Deactivate | ui/sidebar.py:232-233 | no button is highlighted afterwards; folds and hovers are untouched |
| SidebarNav.Sidebar.OnClick | ui/sidebar.py:227-229 | the clicked key becomes active and is announced on nav_changed; hovers are untouched |
| SidebarNav.Sidebar.Toggle | ui/sidebar.py:240-256 | the fold flips, the width aims at 220 or 72, every button and label follows, and the highlight and hovers stay |
| SidebarNav.Sidebar.ExpandButtons | ui/sidebar.py:253-254 | every button is folded or unfolded, and the highlight and hovers stay |
| SidebarNav.Sidebar.IsExpanded | ui/sidebar.py:258-260 | expanded exactly when the width target is 220 |
| SidebarNav.ShowAll | ui/sidebar.py:255-256 | every section label is shown or hidden |
| SidebarNav.ToggleTwice | ui/sidebar.py:240-243 | toggling twice restores the fold and the width |
| Plugins.ModuleName | core/plugin_manager.py:23 | `filename[:-3]` of a `.py` file is its module name |
| Plugins.ModuleNameRoundTrip | core/plugin_manager.py:17-23 | a file named after a module gives that module back, and is imported unless it starts with `__` |
| Plugins.IsPluginFile | core/plugin_manager.py:18 | an imported file ends in `.py`, and its module name is the file name without it |
| Plugins.Register | core/plugin_manager.py:29-32 | registration keeps every name already registered, and leaves the plugin of a name no member reports as it was |
| Plugins.LoadAll | core/plugin_manager.py:13-19 | loading keeps every name already registered; a load raises exactly when some plugin file of the listing raises on import (`SomeImportRaises`) |
| Plugins.SomeImportRaisesCons | core/plugin_manager.py:13-19 | a listing holds a plugin file whose import raises exactly when its first file is one or the rest holds one |
| Plugins.RegisterOnlyPlugins | core/plugin_manager.py:25-32 | registration removes nothing, and adds only names that plugin classes report |
| Plugins.RegisterLastWins | core/plugin_manager.py:25-32 | the last plugin class of a module reporting a name is the one registered |
| Plugins.LoadIgnoresOtherFiles | core/plugin_manager.py:17-19 | files other than plugin files are never imported |
| Plugins.LoadWithoutPluginFiles | core/plugin_manager.py:17-19 | a folder without plugin files registers nothing |
| Plugins.PluginManager.constructor | core/plugin_manager.py:8-11 | no plugins, and none active |
| Plugins.PluginManager.LoadPlugins | core/plugin_manager.py:13-19 | a missing folder loads nothing; otherwise plugin files load in listing order until an import raises, and the error is reported |
| Plugins.PluginManager.LoadFile | core/plugin_manager.py:21-33 | each plugin class is registered under its name, later ones overwriting |
| Plugins.PluginManager.SetActivePlugin | core/plugin_manager.py:35-40 | a registered name becomes active; any other raises "Plugin … not found", and the active plugin stays |
| Resources.Basename | utils/resources.py:17 | the base name has no slash, ends the path, and follows its last slash |
| Resources.BasenameLast | utils/resources.py:17 | the base name of `dir/name` is name |
| Resources.BasePath | utils/resources.py:10-13 | the base is `sys._MEIPASS` when the program is frozen and the working directory otherwise |
| Resources.FullPath | utils/resources.py:15 | the resource's path ends with its relative path; unless that is absolute, it is the base, one `/` unless the base ends in one, then the relative path |
| Resources.FontsPath | utils/resources.py:17 | the fallback path is the resource's file name joined with one `/` to `base/fonts`, itself `fonts` joined to the base |
| Resources.ResourcePath | utils/resources.py:8-21 | the path under the base directory, unless it is missing, is not under `fonts/`, and the fonts directory has a file of that name |
| Resources.ResourcePathFound | utils/resources.py:15-21 | when the resource exists under its own path, or may fall back to an existing fonts file, the path returned exists |
| Resources.FontFallback | utils/resources.py:15-19 | a font missing from `dir/x` resolves to `fonts/x` when that exists |

## Left out

- Threads and their interleaving are modelled one step at a time:
  - A loop method runs from where its thread stands, against the inputs it would see.
  - The scheduler, and the `join`/`wait`/`terminate` timeouts in `_run_inner`, `_start_worker` and `closeEvent`, are not modelled.
- Processes, pipes and PyAudio are not executed:
  - A spawn is a boolean.
  - A pipe's reads are a sequence of byte strings.
  - A device is present or not.
  - The ffmpeg command lines are reduced to the decoder kind, the input and the seek offset.
- The render loop's sleep until a frame is due is the pass ending with that frame in hand. The next pass emits it against a new clock reading.
- AvWorker.AVWorker.RenderLoop: one call reads the audio clock and `running` once, at its start. `_render_loop` reads the clock at every iteration; a budget of one step per call gives that granularity.
- Exceptions that `run()`, the reader and the render loop catch and only log are not modelled. Neither is `log` output, nor the error_signal lambda.
- QImage construction: a frame's image is its raw RGB bytes.
- The fullscreen toggle, the fading controls and the hide timer, resize, and pixmap scaling are outside the session logic modelled. So are the other widgets and stylesheets of the player and the sidebar.
- The sidebar:
  - The width animation: only its target width is modelled.
  - Tooltips, and the left-button filter of `mousePressEvent`: a click is OnClick.
- Python floats are modelled as reals, and IEEE rounding is not captured.
- InvidiousPlugin's `initialize` and `get_stream_url` are not modelled: the version probe and the stream lookup call yt-dlp. So is its `name` constant.
- The cache:
  - The httpx client (`_get_client`), `get_image` and `close` are not modelled. They wrap the network.
  - MD5 is the `nameOf` parameter, and QPixmap decoding the `decodes` parameter.
  - The constructor's `rmtree`/`makedirs` is modelled as an empty file map.
- The plugin manager:
  - `initialize()`, which `set_active_plugin` awaits, is plugin code: its result and exceptions are not modelled.
  - An exception raised while instantiating a plugin class is not modelled.
  - The "Loaded" print is not modelled.
- Resources: Windows path rules are not modelled; paths follow POSIX. `sys._MEIPASS` and the working directory are parameters.
- PlayerSession.FmtRoundTrip: stated below 100 hours. At 100 hours or more the hour field has three digits, and the fixed-width reader used here does not parse it.
- PlayerSession.TimeLabelRoundTrip: stated below 100 hours, for the same reason.
- InvidiousSearch.ParseEntryDuration: stated for non-negative durations. A negative one is printed as a signed field and not read back.
- AvWorker.AVWorker.DrainAudioNoDevice: takes elapsed times that never fall behind the byte count already published as a precondition, since `time.monotonic` does not go back.
- AvWorker.AVWorker.ReadVideo: takes reads of at most the frame size as a precondition, as `read(n)` never returns more than n bytes. AvWorker.AVWorker.PlayAudio does the same for chunks.

## Findings

| source | as written | input that shows it | evidently intended | confidence | as-written member | corrected member |
|---|---|---|---|---|---|---|
| test.py:81-134 | `_run_inner` spawns both ffmpeg decoders after `_resolve_url` returns, without looking at `running` | stop() from a seek or a close while yt-dlp is still resolving, then a successful resolution and both spawns: stop() found no process to terminate, and the decoders start after it, with no one left to terminate them (after a pause they live on only until the resume or close calls stop() again) | a worker stopped before the spawn spawns nothing | not executed | AvWorker.StopDuringResolveAsWritten | AvWorker.StopDuringResolve |

=== FILE: av_pipeline.dfy ===
/**
 * The prototype audio/video worker of test.py (class AVWorker).
 *
 * The worker resolves a page URL to a direct media URL, starts two ffmpeg
 * decoders (raw RGB24 video, raw s16le stereo audio at 44.1 kHz) and runs
 * three loops: a video reader that turns fixed-size reads into timestamped
 * frames and puts them into a bounded queue, an audio player whose byte
 * counter is the master clock, and a render loop that drops stale frames,
 * waits for frames that are ahead of the clock and emits the rest.
 *
 * Threads are abstracted as resumable loops. Each loop is a method that runs
 * until the thread would block (its pipe has no more data in the given
 * input, the queue is full, the renderer sleeps until a frame is due) or
 * until the thread exits; where it stopped is kept in ReaderState,
 * AudioState and RenderState, together with the loop locals that survive
 * (frame_index, last_ts). The render loop also takes a step budget, so a
 * call can stop after any step of its own. Any interleaving of these calls
 * and of Stop() is a run of the worker. Reads are whole calls: the reader
 * and the audio loop see one input sequence per call and the running flag
 * as it was when the call began, and the render loop sees one clock
 * reading per call. Emitted Qt signals are kept as logs (durationFound,
 * errors, shown, timeUpdates).
 */
module AvPipeline {
  import opened Text

  const AudioRate: nat := 44100
  const AudioChannels: nat := 2
  const AudioChunk: nat := 4096
  const BytesPerSample: nat := 2
  const BytesPerFrame: nat := BytesPerSample * AudioChannels
  const QueueCapacity: nat := 30

  /** Playback position derived from the number of PCM bytes handed to the device. */
  function AudioClock(startTime: real, bytesPlayed: nat): (t: real)
    ensures t >= startTime
    ensures (t - startTime) * (AudioRate * BytesPerFrame) as real == bytesPlayed as real
  {
    startTime + bytesPlayed as real / (AudioRate * BytesPerFrame) as real
  }

  lemma AudioClockMonotone(startTime: real, b1: nat, b2: nat)
    requires b1 <= b2
    ensures AudioClock(startTime, b1) <= AudioClock(startTime, b2)
  {
  }

  /** Presentation time of the frame with the given index: each frame is one frame duration (1/fps) after the previous. */
  function FramePts(startTime: real, fps: real, index: nat): real
    requires fps != 0.0
    decreases index
  {
    if index == 0 then startTime else FramePts(startTime, fps, index - 1) + 1.0 / fps
  }

  /** For a positive frame rate no frame is presented before the start offset. */
  lemma {:induction false} FramePtsFromStart(startTime: real, fps: real, index: nat)
    requires fps > 0.0
    ensures FramePts(startTime, fps, index) >= startTime
    decreases index
  {
    if index > 0 {
      FramePtsFromStart(startTime, fps, index - 1);
      assert 1.0 / fps > 0.0;
    }
  }

  /** The closed form the reader computes: start + index / fps. */
  lemma {:induction false} FramePtsFormula(startTime: real, fps: real, index: nat)
    requires fps != 0.0
    ensures FramePts(startTime, fps, index) == startTime + index as real / fps
    decreases index
  {
    if index > 0 {
      FramePtsFormula(startTime, fps, index - 1);
      assert (index - 1) as real / fps + 1.0 / fps == index as real / fps;
    }
  }

  lemma {:induction false} FramePtsIncreasing(startTime: real, fps: real, i: nat, j: nat)
    requires fps > 0.0 && i < j
    ensures FramePts(startTime, fps, i) < FramePts(startTime, fps, j)
    decreases j
  {
    assert 1.0 / fps > 0.0;
    if i < j - 1 {
      FramePtsIncreasing(startTime, fps, i, j - 1);
    }
  }

  /** The render loop's staleness test: more than two frame durations behind the clock. */
  predicate Stale(pts: real, audioPos: real, fps: real)
    requires fps != 0.0
  {
    pts < audioPos - (1.0 / fps) * 2.0
  }

  /** A frame stale against a clock reading stays stale as the clock advances, and so does any earlier frame. */
  lemma StaleLater(pts: real, audioPos: real, earlier: real, later: real, fps: real)
    requires fps != 0.0 && Stale(pts, audioPos, fps) && earlier <= pts && audioPos <= later
    ensures Stale(earlier, later, fps)
  {
  }

  /** For a positive frame rate, a frame is stale exactly when it is more than two frame durations behind the clock. */
  lemma StaleWindow(pts: real, audioPos: real, fps: real)
    requires fps > 0.0
    ensures Stale(pts, audioPos, fps) <==> audioPos - pts > 2.0 / fps
  {
    assert (1.0 / fps) * 2.0 == 2.0 / fps;
  }

  /** Byte count the clock-only audio path derives from wall-clock time. */
  function ElapsedBytes(elapsed: real): (b: nat)
    requires elapsed >= 0.0
    ensures b as real <= elapsed * (AudioRate * BytesPerFrame) as real < b as real + 1.0
  {
    Trunc(elapsed * AudioRate as real * BytesPerFrame as real)
  }

  datatype Frame = Frame(pts: real, pixels: seq<bv8>)

  /** A frame_ready emission, with the clock reading the frame was checked against. */
  datatype Shown = Shown(frame: Frame, audioPos: real)

  /** One read of the audio pipe in the clock-only path, with the monotonic time elapsed since the loop began. */
  datatype TimedChunk = TimedChunk(data: seq<bv8>, elapsed: real)

  datatype DecodeKind = RawVideo | RawAudio

  /** An ffmpeg decoder process: what it decodes, from which input, from which offset. */
  datatype Proc = Proc(kind: DecodeKind, input: string, seek: real, terminated: bool)

  predicate Settled(p: Option<Proc>)
  {
    p.None? || p.value.terminated
  }

  function Terminated(p: Option<Proc>): (q: Option<Proc>)
    ensures Settled(q) && q.None? == p.None?
    ensures q.Some? ==> q.value == p.value.(terminated := true)
  {
    if p.Some? then Some(p.value.(terminated := true)) else None
  }

  /**
   * A JSON value handed to float() or int(): a number (a numeric string
   * converts to the same), or a value the conversion rejects, such as the
   * string "30000/1001". A falsy one (an empty string or list) is replaced
   * by the default before conversion wherever the code writes `or`.
   */
  datatype Scalar<T> = Number(n: T) | NotANumber(truthy: bool)

  /** The fields of yt-dlp's --print-json output that the worker reads. */
  datatype Metadata = Metadata(url: Field<string>, duration: Field<Scalar<real>>, fps: Field<Scalar<real>>,
                               width: Field<Scalar<int>>, height: Field<Scalar<int>>)

  /** A value that float() or int() raises on after the `or` fallback: a truthy non-number. */
  predicate Unconvertible<T>(f: Field<Scalar<T>>)
  {
    f.Val? && f.value.NotANumber? && f.value.truthy
  }

  /** What running the resolver produced. */
  datatype ProbeOutput = ToolFailed | Undecodable | NotAnObject | Decoded(meta: Metadata)

  datatype Resolution = Resolution(url: Option<string>, duration: real, fps: real, width: int, height: int)

  const FailedResolution := Resolution(None, 0.0, 30.0, 1280, 720)

  /**
   * The resolver raises: it is missing or exits non-zero, its output is not
   * JSON or not an object, `url` is absent, `duration` is null (float(None))
   * or not a number (it has no `or` fallback), or `fps`, `width` or
   * `height` is a truthy value that float() or int() rejects.
   */
  predicate ResolveFails(out: ProbeOutput)
  {
    || !out.Decoded?
    || out.meta.url.Missing?
    || out.meta.duration.Null?
    || (out.meta.duration.Val? && out.meta.duration.value.NotANumber?)
    || Unconvertible(out.meta.fps)
    || Unconvertible(out.meta.width)
    || Unconvertible(out.meta.height)
  }

  /** _resolve_url: the direct URL and geometry, with the defaults of the `or` fallbacks. */
  function ResolveUrl(out: ProbeOutput): (r: Resolution)
    ensures ResolveFails(out) ==> r == FailedResolution
    ensures r.fps != 0.0 && r.width != 0 && r.height != 0
    ensures r.url.Some? <==> !ResolveFails(out) && out.meta.url.Val?
    ensures r.url.Some? ==> out.meta.url == Val(r.url.value)
  {
    if ResolveFails(out) then FailedResolution
    else
      var m := out.meta;
      Resolution(
        if m.url.Val? then Some(m.url.value) else None,
        if m.duration.Val? then m.duration.value.n else 0.0,
        if m.fps.Val? && m.fps.value.Number? && m.fps.value.n != 0.0 then m.fps.value.n else 30.0,
        if m.width.Val? && m.width.value.Number? && m.width.value.n != 0 then m.width.value.n else 1280,
        if m.height.Val? && m.height.value.Number? && m.height.value.n != 0 then m.height.value.n else 720)
  }

  /** The defaults applied to a successful probe. */
  lemma ResolveDefaults(out: ProbeOutput)
    requires out.Decoded? && !ResolveFails(out)
    ensures out.meta.duration.Missing? ==> ResolveUrl(out).duration == 0.0
    ensures out.meta.duration.Val? ==> ResolveUrl(out).duration == out.meta.duration.value.n
    ensures (out.meta.fps.Val? && out.meta.fps.value == Number(ResolveUrl(out).fps)) || ResolveUrl(out).fps == 30.0
    ensures out.meta.fps.Val? && out.meta.fps.value.Number? && out.meta.fps.value.n != 0.0
            ==> ResolveUrl(out).fps == out.meta.fps.value.n
    ensures (out.meta.width.Val? && out.meta.width.value == Number(ResolveUrl(out).width)) || ResolveUrl(out).width == 1280
    ensures (out.meta.height.Val? && out.meta.height.value == Number(ResolveUrl(out).height)) || ResolveUrl(out).height == 720
  {
  }

  datatype AudioMode = Device | ClockOnly

  /** Where the video reader thread is: not started, blocked reading the pipe, blocked putting a frame, exited. */
  datatype ReaderState = ReaderIdle | ReadBlocked | PutBlocked(frame: Frame) | ReaderExited

  /** Where the audio thread is: not started, blocked reading the pipe, exited. */
  datatype AudioState = AudioIdle | AudioReadBlocked | AudioExited

  /**
   * Where the render loop is: not started, polling the queue, holding a
   * fresh frame taken against the clock reading `audioPos` (sleeping while
   * it is ahead of that clock, then emitting it), exited.
   */
  datatype RenderState = RenderIdle | WaitingForFrame | Pacing(frame: Frame, audioPos: real) | RenderExited

  /** Frames for the leading full reads of `rawReads`, numbered from `first`; the first short read ends the stream. */
  function Framed(rawReads: seq<seq<bv8>>, frameSize: int, startTime: real, fps: real, first: nat): (fs: seq<Frame>)
    requires fps != 0.0
    ensures |fs| <= |rawReads|
  {
    if rawReads == [] || |rawReads[0]| < frameSize then []
    else [Frame(FramePts(startTime, fps, first), rawReads[0])] + Framed(rawReads[1..], frameSize, startTime, fps, first + 1)
  }

  /** Each frame is a full read, in order, with the presentation time of its number counted from `first`. */
  lemma {:induction false} FramedElements(rawReads: seq<seq<bv8>>, frameSize: int, startTime: real, fps: real, first: nat)
    requires fps != 0.0
    ensures var fs := Framed(rawReads, frameSize, startTime, fps, first);
            forall i :: 0 <= i < |fs| ==>
              fs[i] == Frame(FramePts(startTime, fps, first + i), rawReads[i]) && |rawReads[i]| >= frameSize
    decreases |rawReads|
  {
    if rawReads != [] && |rawReads[0]| >= frameSize {
      FramedElements(rawReads[1..], frameSize, startTime, fps, first + 1);
    }
  }

  /** The read after the frames, if there is one, is short: it ended the stream. */
  lemma {:induction false} FramedStopsAtShortRead(rawReads: seq<seq<bv8>>, frameSize: int, startTime: real, fps: real, first: nat)
    requires fps != 0.0
    ensures var fs := Framed(rawReads, frameSize, startTime, fps, first);
            |fs| < |rawReads| ==> |rawReads[|fs|]| < frameSize
    decreases |rawReads|
  {
    if rawReads != [] && |rawReads[0]| >= frameSize {
      FramedStopsAtShortRead(rawReads[1..], frameSize, startTime, fps, first + 1);
    }
  }

  /** When every read is full, every read becomes a frame. */
  lemma {:induction false} FramedAllFull(rawReads: seq<seq<bv8>>, frameSize: int, startTime: real, fps: real, first: nat)
    requires fps != 0.0
    requires forall i :: 0 <= i < |rawReads| ==> |rawReads[i]| >= frameSize
    ensures |Framed(rawReads, frameSize, startTime, fps, first)| == |rawReads|
    decreases |rawReads|
  {
    if rawReads != [] {
      assert forall i :: 0 <= i < |rawReads[1..]| ==> rawReads[1..][i] == rawReads[i + 1];
      FramedAllFull(rawReads[1..], frameSize, startTime, fps, first + 1);
    }
  }

  lemma {:induction false} FramedSnoc(rawReads: seq<seq<bv8>>, r: seq<bv8>, frameSize: int, startTime: real, fps: real, first: nat)
    requires fps != 0.0
    requires forall i :: 0 <= i < |rawReads| ==> |rawReads[i]| >= frameSize
    ensures Framed(rawReads + [r], frameSize, startTime, fps, first)
         == Framed(rawReads, frameSize, startTime, fps, first)
            + (if |r| < frameSize then [] else [Frame(FramePts(startTime, fps, first + |rawReads|), r)])
    decreases |rawReads|
  {
    if rawReads != [] {
      assert (rawReads + [r])[1..] == rawReads[1..] + [r];
      FramedSnoc(rawReads[1..], r, frameSize, startTime, fps, first + 1);
    }
  }

  /** Total number of bytes in a sequence of chunks. */
  function TotalLength(chunks: seq<seq<bv8>>): nat
  {
    if chunks == [] then 0 else TotalLength(chunks[..|chunks| - 1]) + |chunks[|chunks| - 1]|
  }

  /** The frames of `frames` that are not stale against `audioPos`, in order. */
  function Fresh(frames: seq<Frame>, audioPos: real, fps: real): (fs: seq<Frame>)
    requires fps != 0.0
    ensures |fs| <= |frames|
  {
    if frames == [] then []
    else
      var f := frames[|frames| - 1];
      Fresh(frames[..|frames| - 1], audioPos, fps) + (if Stale(f.pts, audioPos, fps) then [] else [f])
  }

  function PacingFrames(r: RenderState): seq<Frame>
  {
    if r.Pacing? then [r.frame] else []
  }

  function ShownFrames(s: seq<Shown>): (fs: seq<Frame>)
    ensures |fs| == |s|
  {
    if s == [] then [] else ShownFrames(s[..|s| - 1]) + [s[|s| - 1].frame]
  }

  /** Consecutive time updates are at least one second apart. */
  ghost predicate Spaced(ts: seq<real>)
    decreases |ts|
  {
    |ts| < 2 || (Spaced(ts[..|ts| - 1]) && ts[|ts| - 2] + 1.0 <= ts[|ts| - 1])
  }

  /** Any two time updates are at least as many seconds apart as their distance in the log. */
  lemma {:induction false} SpacedApart(ts: seq<real>, i: nat, j: nat)
    requires Spaced(ts) && i <= j < |ts|
    ensures ts[i] + (j - i) as real <= ts[j]
    decreases |ts|
  {
    if i < j {
      var init := ts[..|ts| - 1];
      if j < |ts| - 1 {
        SpacedApart(init, i, j);
      } else if i < j - 1 {
        SpacedApart(init, i, j - 1);
      }
    }
  }

  /** Consecutive shown frames have increasing presentation times. */
  ghost predicate InOrder(s: seq<Shown>)
    decreases |s|
  {
    |s| < 2 || (InOrder(s[..|s| - 1]) && s[|s| - 2].frame.pts < s[|s| - 1].frame.pts)
  }

  /** Shown frames are in strictly increasing presentation order. */
  lemma {:induction false} InOrderPairwise(s: seq<Shown>, i: nat, j: nat)
    requires InOrder(s) && i < j < |s|
    ensures s[i].frame.pts < s[j].frame.pts
    decreases |s|
  {
    var init := s[..|s| - 1];
    if j < |s| - 1 {
      InOrderPairwise(init, i, j);
    } else if i < j - 1 {
      InOrderPairwise(init, i, j - 1);
    }
  }

  /** The frames are numbered from 0, spaced 1/fps apart from startTime, and frameSize bytes each. */
  ghost predicate Numbered(frames: seq<Frame>, startTime: real, fps: real, frameSize: int)
    requires fps != 0.0
  {
    forall i {:trigger frames[i]} :: 0 <= i < |frames| ==> frames[i].pts == FramePts(startTime, fps, i) && |frames[i].pixels| == frameSize
  }

  /** Frames produced by the reader: those put into the queue and the one it is blocked putting. */
  function Produced(enqueued: seq<Frame>, reader: ReaderState): seq<Frame>
  {
    enqueued + (if reader.PutBlocked? then [reader.frame] else [])
  }

  /** `q` is what is left of `s` once some of its leading elements are taken away. */
  ghost predicate SuffixOf<T>(q: seq<T>, s: seq<T>)
  {
    |q| <= |s| && s == s[..|s| - |q|] + q
  }

  /** The queue holds the produced frames that have not left it yet: all but the first `popped`. */
  ghost predicate Pending(queue: seq<Frame>, enqueued: seq<Frame>, popped: nat, startTime: real, fps: real, frameSize: int)
  {
    fps != 0.0 && popped <= |enqueued| && enqueued == enqueued[..popped] + queue && Numbered(enqueued, startTime, fps, frameSize)
  }

  /** The reader's side of the worker: a bounded queue, and frame_index counting every frame read. */
  ghost predicate QueueOk(queue: seq<Frame>, enqueued: seq<Frame>, popped: nat, frameIndex: nat, reader: ReaderState,
                          startTime: real, fps: real, frameSize: int)
  {
    && Pending(queue, enqueued, popped, startTime, fps, frameSize)
    && |queue| <= QueueCapacity
    && |enqueued| <= frameIndex
    && (reader.ReadBlocked? || reader.PutBlocked? ==> |enqueued| == frameIndex)
    && (reader.PutBlocked? ==>
          reader.frame.pts == FramePts(startTime, fps, frameIndex) && |reader.frame.pixels| == frameSize)
    && (reader.ReaderIdle? ==> enqueued == [] && frameIndex == 0)
  }

  /**
   * The renderer's side: every emitted frame and the frame in hand passed
   * the staleness check, and (for a
   * positive frame rate) frames are emitted in presentation order, each
   * before the next frame to leave the queue.
   */
  ghost predicate ShowOk(shown: seq<Shown>, render: RenderState, popped: nat, startTime: real, fps: real, frameSize: int)
  {
    && fps != 0.0
    && (render.RenderIdle? ==> shown == [])
    && (forall i :: 0 <= i < |shown| ==>
          |shown[i].frame.pixels| == frameSize && !Stale(shown[i].frame.pts, shown[i].audioPos, fps))
    && (render.Pacing? ==>
          |render.frame.pixels| == frameSize && !Stale(render.frame.pts, render.audioPos, fps))
    && (fps > 0.0 ==>
          && InOrder(shown)
          && (render.Pacing? ==> render.frame.pts < FramePts(startTime, fps, popped)
                                 && (shown != [] ==> shown[|shown| - 1].frame.pts < render.frame.pts))
          && (!render.Pacing? && shown != [] ==> shown[|shown| - 1].frame.pts < FramePts(startTime, fps, popped)))
  }

  /** Time updates are at least a second apart, the first is not negative, and last_ts is the latest (-1 before any). */
  ghost predicate TimeOk(timeUpdates: seq<real>, lastTs: real)
  {
    && Spaced(timeUpdates)
    && (timeUpdates == [] ==> lastTs == -1.0)
    && (timeUpdates != [] ==> lastTs == timeUpdates[|timeUpdates| - 1] && timeUpdates[0] >= 0.0)
  }

  /**
   * The time_update signals of the render loop for frames emitted in this
   * order from last_ts `lastTs`: the timestamps sent and last_ts after them.
   */
  function Ticks(fs: seq<Frame>, lastTs: real): (t: (seq<real>, real))
    ensures |t.0| <= |fs|
    ensures t.0 == [] ==> t.1 == lastTs
    ensures t.0 != [] ==> t.1 == t.0[|t.0| - 1]
  {
    if fs == [] then ([], lastTs)
    else
      var (u, l) := Ticks(fs[..|fs| - 1], lastTs);
      var pts := fs[|fs| - 1].pts;
      if pts - l >= 1.0 then (u + [pts], pts) else (u, l)
  }

  /** Every time update carries the presentation time of an emitted frame. */
  lemma {:induction false} TicksAreShown(fs: seq<Frame>, lastTs: real, i: nat)
    requires i < |Ticks(fs, lastTs).0|
    ensures exists j :: 0 <= j < |fs| && fs[j].pts == Ticks(fs, lastTs).0[i]
    decreases |fs|
  {
    var init := fs[..|fs| - 1];
    var u := Ticks(init, lastTs).0;
    if i < |u| {
      TicksAreShown(init, lastTs, i);
      var j :| 0 <= j < |init| && init[j].pts == u[i];
      assert fs[j] == init[j];
    } else {
      assert Ticks(fs, lastTs).0[i] == fs[|fs| - 1].pts;
    }
  }

  /** One more update, a second or more past last_ts, keeps the log well spaced. */
  lemma TimeOkSnoc(timeUpdates: seq<real>, lastTs: real, pts: real)
    requires TimeOk(timeUpdates, lastTs) && pts - lastTs >= 1.0
    ensures TimeOk(timeUpdates + [pts], pts)
  {
    var after := timeUpdates + [pts];
    assert after[..|after| - 1] == timeUpdates;
  }

  /** Updates sent after a well-spaced log keep it well spaced, with last_ts the latest. */
  lemma {:induction false} TicksKeepTimeOk(fs: seq<Frame>, timeUpdates: seq<real>, lastTs: real)
    requires TimeOk(timeUpdates, lastTs)
    ensures TimeOk(timeUpdates + Ticks(fs, lastTs).0, Ticks(fs, lastTs).1)
    decreases |fs|
  {
    if fs == [] {
      assert timeUpdates + [] == timeUpdates;
    } else {
      var init := fs[..|fs| - 1];
      var t := Ticks(init, lastTs);
      TicksKeepTimeOk(init, timeUpdates, lastTs);
      var pts := fs[|fs| - 1].pts;
      if pts - t.1 >= 1.0 {
        TimeOkSnoc(timeUpdates + t.0, t.1, pts);
        assert timeUpdates + (t.0 + [pts]) == (timeUpdates + t.0) + [pts];
      }
    }
  }

  /** `tu` and `lt` are what the frames emitted after `shown` in `sh` add to (timeUpdates, lastTs). */
  ghost predicate Ticked(shown: seq<Shown>, timeUpdates: seq<real>, lastTs: real, sh: seq<Shown>, tu: seq<real>, lt: real)
  {
    && |sh| >= |shown|
    && tu == timeUpdates + Ticks(ShownFrames(sh[|shown|..]), lastTs).0
    && lt == Ticks(ShownFrames(sh[|shown|..]), lastTs).1
  }

  /** Nothing emitted, nothing sent. */
  lemma TickedNone(shown: seq<Shown>, timeUpdates: seq<real>, lastTs: real)
    ensures Ticked(shown, timeUpdates, lastTs, shown, timeUpdates, lastTs)
  {
    assert shown[|shown|..] == [];
  }

  /** Emitting one more frame sends a time update exactly when it is a second past last_ts. */
  lemma TickedSnoc(shown: seq<Shown>, timeUpdates: seq<real>, lastTs: real, sh: seq<Shown>, tu: seq<real>, lt: real, x: Shown)
    requires Ticked(shown, timeUpdates, lastTs, sh, tu, lt)
    ensures x.frame.pts - lt >= 1.0 ==> Ticked(shown, timeUpdates, lastTs, sh + [x], tu + [x.frame.pts], x.frame.pts)
    ensures x.frame.pts - lt < 1.0 ==> Ticked(shown, timeUpdates, lastTs, sh + [x], tu, lt)
  {
    var a := sh[|shown|..];
    assert (sh + [x])[|shown|..] == a + [x];
    ShownSnoc(a, x);
    var fa := ShownFrames(a);
    assert (fa + [x.frame])[..|fa|] == fa;
    var u := Ticks(fa, lastTs).0;
    assert timeUpdates + (u + [x.frame.pts]) == tu + [x.frame.pts];
  }

  /** A full read becomes the frame numbered frame_index, which the reader then tries to put. */
  lemma FrameReadKeepsQueueOk(q: seq<Frame>, e: seq<Frame>, popped: nat, fi: nat, raw: seq<bv8>,
                              startTime: real, fps: real, fs: int)
    requires QueueOk(q, e, popped, fi, ReadBlocked, startTime, fps, fs) && |raw| == fs
    ensures QueueOk(q, e, popped, fi, PutBlocked(Frame(FramePts(startTime, fps, fi), raw)), startTime, fps, fs)
  {
  }

  /** A put into a queue with room appends the frame and counts it. */
  lemma PutKeepsQueueOk(q: seq<Frame>, e: seq<Frame>, popped: nat, fi: nat, f: Frame, startTime: real, fps: real, fs: int)
    requires QueueOk(q, e, popped, fi, PutBlocked(f), startTime, fps, fs) && |q| < QueueCapacity
    ensures QueueOk(q + [f], e + [f], popped, fi + 1, ReadBlocked, startTime, fps, fs)
  {
    assert (e + [f])[..popped] == e[..popped];
  }

  /** Giving up a put on stop still counts the frame. */
  lemma AbandonKeepsQueueOk(q: seq<Frame>, e: seq<Frame>, popped: nat, fi: nat, f: Frame, startTime: real, fps: real, fs: int)
    requires QueueOk(q, e, popped, fi, PutBlocked(f), startTime, fps, fs)
    ensures QueueOk(q, e, popped, fi + 1, ReaderExited, startTime, fps, fs)
  {
  }

  /** One more read extends the frames read so far by at most the frame numbered after them. */
  lemma FramedNext(rawReads: seq<seq<bv8>>, used: nat, fs: int, startTime: real, fps: real, first: nat)
    requires fps != 0.0 && used < |rawReads|
    requires forall i :: 0 <= i < used ==> |rawReads[i]| >= fs
    ensures |Framed(rawReads[..used], fs, startTime, fps, first)| == used
    ensures Framed(rawReads[..used + 1], fs, startTime, fps, first)
            == Framed(rawReads[..used], fs, startTime, fps, first)
               + (if |rawReads[used]| < fs then [] else [Frame(FramePts(startTime, fps, first + used), rawReads[used])])
  {
    FramedAllFull(rawReads[..used], fs, startTime, fps, first);
    FramedSnoc(rawReads[..used], rawReads[used], fs, startTime, fps, first);
    assert rawReads[..used + 1] == rawReads[..used] + [rawReads[used]];
  }

  /** The frames produced after one more read of the video pipe. */
  lemma ProducedAfterRead(rawReads: seq<seq<bv8>>, used: nat, fs: int, startTime: real, fps: real,
                          h0: seq<Frame>, e: seq<Frame>, fi: nat)
    requires fps != 0.0 && used < |rawReads|
    requires forall i :: 0 <= i < used ==> |rawReads[i]| >= fs
    requires e == h0 + Framed(rawReads[..used], fs, startTime, fps, |h0|) && |e| == fi
    ensures |rawReads[used]| < fs ==> e == h0 + Framed(rawReads[..used + 1], fs, startTime, fps, |h0|)
    ensures |rawReads[used]| >= fs ==>
              e + [Frame(FramePts(startTime, fps, fi), rawReads[used])] == h0 + Framed(rawReads[..used + 1], fs, startTime, fps, |h0|)
  {
    FramedNext(rawReads, used, fs, startTime, fps, |h0|);
  }

  /** Frames leaving the queue without being shown keep the renderer's invariant. */
  lemma ShowOkLater(shown: seq<Shown>, render: RenderState, popped: nat, later: nat, startTime: real, fps: real, fs: int)
    requires ShowOk(shown, render, popped, startTime, fps, fs) && popped <= later
    ensures ShowOk(shown, render, later, startTime, fps, fs)
  {
    if fps > 0.0 && popped < later {
      FramePtsIncreasing(startTime, fps, popped, later);
    }
  }

  /** Frames taken off the front of the queue keep the reader's side of the invariant. */
  lemma QueueOkAfterTake(queue: seq<Frame>, q: seq<Frame>, enqueued: seq<Frame>, popped: nat, p: nat, frameIndex: nat,
                         reader: ReaderState, startTime: real, fps: real, fs: int)
    requires QueueOk(queue, enqueued, popped, frameIndex, reader, startTime, fps, fs)
    requires Pending(q, enqueued, p, startTime, fps, fs) && |q| <= |queue|
    ensures QueueOk(q, enqueued, p, frameIndex, reader, startTime, fps, fs)
  {
  }

  /** Emitting the frame the renderer was pacing. */
  lemma ShowAfterPace(sh: seq<Shown>, f: Frame, pos: real, p: nat, startTime: real, fps: real, fs: int)
    requires ShowOk(sh, Pacing(f, pos), p, startTime, fps, fs)
    ensures ShowOk(sh + [Shown(f, pos)], WaitingForFrame, p, startTime, fps, fs)
  {
  }

  /** The frame at the front of the queue is the next one after those that left it. */
  lemma PendingTake(q: seq<Frame>, enqueued: seq<Frame>, p: nat, startTime: real, fps: real, fs: int)
    requires Pending(q, enqueued, p, startTime, fps, fs) && q != []
    ensures q[0] == enqueued[p] && q[0].pts == FramePts(startTime, fps, p) && |q[0].pixels| == fs
    ensures Pending(q[1..], enqueued, p + 1, startTime, fps, fs)
  {
    assert enqueued[p] == (enqueued[..p] + q)[p] == q[0];
    assert enqueued[..p + 1] == enqueued[..p] + [q[0]];
    assert q == [q[0]] + q[1..];
    assert enqueued[..p + 1] + q[1..] == enqueued[..p] + ([q[0]] + q[1..]);
  }

  /** A stale frame taken off the queue is dropped. */
  lemma ShowAfterDrop(sh: seq<Shown>, f: Frame, p: nat, startTime: real, fps: real, fs: int)
    requires ShowOk(sh, WaitingForFrame, p, startTime, fps, fs)
    ensures ShowOk(sh, WaitingForFrame, p + 1, startTime, fps, fs)
  {
    ShowOkLater(sh, WaitingForFrame, p, p + 1, startTime, fps, fs);
  }

  /** A fresh frame taken off the queue is held until it is due. */
  lemma ShowAfterTake(sh: seq<Shown>, f: Frame, audioPos: real, p: nat, startTime: real, fps: real, fs: int)
    requires ShowOk(sh, WaitingForFrame, p, startTime, fps, fs)
    requires f.pts == FramePts(startTime, fps, p) && |f.pixels| == fs
    requires !Stale(f.pts, audioPos, fps)
    ensures ShowOk(sh, Pacing(f, audioPos), p + 1, startTime, fps, fs)
  {
    if fps > 0.0 {
      FramePtsIncreasing(startTime, fps, p, p + 1);
    }
  }

  /** Leaving the render loop keeps the renderer's invariant. */
  lemma ShowAfterExit(sh: seq<Shown>, r: RenderState, p: nat, startTime: real, fps: real, fs: int)
    requires ShowOk(sh, r, p, startTime, fps, fs) && !r.RenderIdle?
    ensures ShowOk(sh, RenderExited, p, startTime, fps, fs)
  {
  }

  lemma ShownSnoc(sh: seq<Shown>, x: Shown)
    ensures ShownFrames(sh + [x]) == ShownFrames(sh) + [x.frame]
  {
    assert (sh + [x])[..|sh|] == sh;
  }

  lemma FreshSnoc(taken: seq<Frame>, f: Frame, audioPos: real, fps: real)
    requires fps != 0.0
    ensures Fresh(taken + [f], audioPos, fps) == Fresh(taken, audioPos, fps) + (if Stale(f.pts, audioPos, fps) then [] else [f])
  {
    assert (taken + [f])[..|taken|] == taken;
  }

  /** Decoders and loop states right after the start-up part of _run_inner. */
  datatype Launch = Launch(videoProc: Option<Proc>, audioProc: Option<Proc>, reader: ReaderState,
                           audio: AudioState, render: RenderState, audioMode: AudioMode)

  /**
   * What any launch leaves: each decoder of its own kind, started at the
   * start offset, the audio decoder only beside a video decoder on the same
   * input, the loops only once both decoders exist, and no frame yet in hand.
   */
  ghost predicate LaunchFits(startTime: real, l: Launch)
  {
    && (l.videoProc.Some? ==> l.videoProc.value.kind == RawVideo && l.videoProc.value.seek == startTime)
    && (l.audioProc.Some? ==> l.audioProc.value.kind == RawAudio && l.audioProc.value.seek == startTime
                              && l.videoProc.Some? && l.videoProc.value.input == l.audioProc.value.input)
    && (!l.reader.ReaderIdle? ==> l.videoProc.Some? && l.audioProc.Some?)
    && !l.reader.PutBlocked? && !l.render.Pacing?
  }

  /**
   * Spawning the video decoder, then the audio decoder (terminating the
   * video decoder when that fails), then starting the reader, the audio
   * thread and the render loop. `running` is the flag as the new threads
   * see it; without PyAudio the audio thread takes the clock-only path,
   * and a device that fails to open ends the audio thread.
   */
  function StartDecoders(direct: string, startTime: real, running: bool, videoSpawns: bool, audioSpawns: bool,
                         pyaudioAvailable: bool, deviceOpens: bool): (l: Launch)
    ensures l.audioProc.Some? ==> l.videoProc.Some? && l.videoProc.value.input == l.audioProc.value.input == direct
    ensures l.videoProc.Some? && !l.videoProc.value.terminated ==> l.audioProc.Some?
    ensures l.reader.ReaderIdle? <==> l.audioProc.None?
    ensures l.reader.ReaderIdle? <==> l.render.RenderIdle?
    ensures !running ==> l.reader.ReaderIdle? || (l.reader.ReaderExited? && l.render.RenderExited? && l.audio.AudioExited?)
    ensures LaunchFits(startTime, l)
  {
    if !videoSpawns then
      Launch(None, None, ReaderIdle, AudioIdle, RenderIdle, Device)
    else if !audioSpawns then
      Launch(Some(Proc(RawVideo, direct, startTime, true)), None, ReaderIdle, AudioIdle, RenderIdle, Device)
    else
      Launch(Some(Proc(RawVideo, direct, startTime, false)), Some(Proc(RawAudio, direct, startTime, false)),
             if running then ReadBlocked else ReaderExited,
             if running && (!pyaudioAvailable || deviceOpens) then AudioReadBlocked else AudioExited,
             if running then WaitingForFrame else RenderExited,
             if pyaudioAvailable then Device else ClockOnly)
  }

  /** Bytes in one RGB24 frame of the given geometry. */
  function FrameBytes(width: int, height: int): int
  {
    width * height * 3
  }

  /**
   * What one pass of the render loop against the clock reading
   * `audioPos` does, from (render, queue, shown, timeUpdates, lastTs) to
   * (r, q, sh, tu, lt): frames leave the queue from the front, emissions
   * only grow, each emitted frame sends a time update exactly when it is a
   * second past the previous one (Ticks), a loop not yet started or
   * already exited does nothing, a stopped worker emits nothing and the
   * loop exits unless the pass was cut, and a running loop that was not
   * cut stops when the queue is empty or a frame is ahead of the clock.
   * Cut or not, it has emitted (or is about to emit) exactly the fresh
   * frames it took, in order, after the frame it was pacing. A pass is cut
   * when it ran out of its step budget while still waiting for a frame or
   * pacing one.
   */
  ghost predicate RenderOutcome(running: bool, audioPos: real, fps: real, cut: bool,
                                       render: RenderState, queue: seq<Frame>, shown: seq<Shown>,
                                       timeUpdates: seq<real>, lastTs: real,
                                       r: RenderState, q: seq<Frame>, sh: seq<Shown>, tu: seq<real>, lt: real)
    requires fps != 0.0
  {
    && SuffixOf(q, queue)
    && |sh| >= |shown| && sh[..|shown|] == shown
    && Ticked(shown, timeUpdates, lastTs, sh, tu, lt)
    && (render.RenderIdle? || render.RenderExited? ==>
          r == render && q == queue && sh == shown && tu == timeUpdates && lt == lastTs && !cut)
    && (cut ==> r.WaitingForFrame? || r.Pacing?)
    && (!running ==> sh == shown && q == queue && (cut || r.RenderIdle? || r.RenderExited?))
    && (running && (render.WaitingForFrame? || render.Pacing?) ==>
          && (cut || (r.WaitingForFrame? && q == []) || (r.Pacing? && r.frame.pts > r.audioPos))
          && ShownFrames(sh) + PacingFrames(r)
             == ShownFrames(shown) + PacingFrames(render) + Fresh(queue[..|queue| - |q|], audioPos, fps))
  }

  /**
   * One pass of the render loop as RenderSteps computes it: the reader's
   * and renderer's invariants hold after it, it did what RenderOutcome
   * says, and `p` counts the frames it took.
   */
  ghost predicate RenderPass(enqueued: seq<Frame>, startTime: real, fps: real, fs: int, running: bool, audioPos: real,
                            cut: bool, render: RenderState, queue: seq<Frame>, popped: nat,
                            shown: seq<Shown>, timeUpdates: seq<real>, lastTs: real,
                            r: RenderState, q: seq<Frame>, p: nat, sh: seq<Shown>, tu: seq<real>, lt: real)
  {
    && Pending(q, enqueued, p, startTime, fps, fs)
    && ShowOk(sh, r, p, startTime, fps, fs) && TimeOk(tu, lt)
    && RenderOutcome(running, audioPos, fps, cut, render, queue, shown, timeUpdates, lastTs, r, q, sh, tu, lt)
    && p == popped + (|queue| - |q|)
  }

  /** The fields of a worker that its invariant speaks about, as one value. */
  datatype WorkerState = WorkerState(
    startTime: real, width: int, height: int, fps: real, running: bool, stopEvent: bool,
    videoProc: Option<Proc>, audioProc: Option<Proc>, queue: seq<Frame>, bytesPlayed: nat,
    audioMode: AudioMode, ran: bool, shown: seq<Shown>, timeUpdates: seq<real>,
    frameIndex: nat, lastTs: real, reader: ReaderState, audio: AudioState, render: RenderState,
    enqueued: seq<Frame>, popped: nat)

  /** `running` and the stop event agree; once stopped the queue is empty. */
  ghost predicate StopOk(s: WorkerState)
  {
    (s.stopEvent <==> !s.running) && (!s.running ==> s.queue == [])
  }

  /** Nothing has been played before the audio thread starts. */
  ghost predicate ClockOk(s: WorkerState)
  {
    s.audio.AudioIdle? ==> s.bytesPlayed == 0
  }

  /** Both decoders read the same input from the same offset; the loops run only once both exist. */
  ghost predicate ProcOk(s: WorkerState)
  {
    && (s.videoProc.Some? ==> s.videoProc.value.kind == RawVideo && s.videoProc.value.seek == s.startTime)
    && (s.audioProc.Some? ==> s.audioProc.value.kind == RawAudio && s.audioProc.value.seek == s.startTime
                              && s.videoProc.Some? && s.videoProc.value.input == s.audioProc.value.input)
    && (!s.reader.ReaderIdle? ==> s.videoProc.Some? && s.audioProc.Some?)
  }

  /** Before _run_inner nothing has been spawned, read, queued or emitted. */
  ghost predicate StartOk(s: WorkerState)
  {
    !s.ran ==> && s.reader.ReaderIdle? && s.render.RenderIdle? && s.audio.AudioIdle?
               && s.enqueued == [] && s.shown == [] && s.videoProc.None? && s.audioProc.None?
  }

  ghost predicate CoreOk(s: WorkerState)
  {
    && QueueOk(s.queue, s.enqueued, s.popped, s.frameIndex, s.reader, s.startTime, s.fps, FrameBytes(s.width, s.height))
    && ShowOk(s.shown, s.render, s.popped, s.startTime, s.fps, FrameBytes(s.width, s.height))
    && TimeOk(s.timeUpdates, s.lastTs)
    && StopOk(s) && ClockOk(s) && ProcOk(s) && StartOk(s)
  }

  /** The worker's invariant: CoreOk, and once stopped no decoder is left running. */
  ghost predicate WorkerOk(s: WorkerState)
  {
    match s.running
    case true => CoreOk(s)
    case false => CoreOk(s) && Settled(s.videoProc) && Settled(s.audioProc)
  }

  /** stop() with the queue drained keeps the invariant. */
  lemma StopKeepsWorkerOk(s: WorkerState, p: nat)
    requires WorkerOk(s) && p == |s.enqueued|
    ensures WorkerOk(s.(running := false, stopEvent := true, queue := [], popped := p,
                        videoProc := Terminated(s.videoProc), audioProc := Terminated(s.audioProc)))
  {
    ShowOkLater(s.shown, s.render, s.popped, p, s.startTime, s.fps, FrameBytes(s.width, s.height));
  }

  /** Recording the resolved geometry before anything was read keeps the invariant. */
  lemma ResolvedKeepsWorkerOk(s: WorkerState, fps: real, width: int, height: int)
    requires WorkerOk(s) && !s.ran && fps != 0.0
    ensures WorkerOk(s.(ran := true, fps := fps, width := width, height := height))
  {
  }

  /** Nothing has been spawned and no loop has started. */
  ghost predicate Unlaunched(s: WorkerState)
  {
    s.videoProc.None? && s.audioProc.None? && s.reader.ReaderIdle? && s.audio.AudioIdle? && s.render.RenderIdle?
  }

  /** Starting the decoders and the loops keeps the invariant (all of it while the worker runs). */
  lemma LaunchKeepsCoreOk(s: WorkerState, l: Launch)
    requires WorkerOk(s) && s.ran && Unlaunched(s) && LaunchFits(s.startTime, l)
    ensures CoreOk(s.(videoProc := l.videoProc, audioProc := l.audioProc, reader := l.reader, audio := l.audio,
                      render := l.render, audioMode := l.audioMode))
    ensures s.running ==>
              WorkerOk(s.(videoProc := l.videoProc, audioProc := l.audioProc, reader := l.reader, audio := l.audio,
                          render := l.render, audioMode := l.audioMode))
  {
  }

  /** Storing what the reader loop computed keeps the invariant. */
  lemma ReadKeepsWorkerOk(s: WorkerState, r: ReaderState, q: seq<Frame>, fi: nat, e: seq<Frame>)
    requires WorkerOk(s)
    requires QueueOk(q, e, s.popped, fi, r, s.startTime, s.fps, FrameBytes(s.width, s.height))
    requires s.reader.ReaderIdle? ==> r == s.reader
    requires !s.reader.ReaderIdle? ==> !r.ReaderIdle?
    requires !s.running ==> q == s.queue
    ensures WorkerOk(s.(reader := r, queue := q, frameIndex := fi, enqueued := e))
  {
  }

  /** Storing what either audio path computed keeps the invariant. */
  lemma AudioKeepsWorkerOk(s: WorkerState, a: AudioState, b: nat)
    requires WorkerOk(s)
    requires !s.audio.AudioReadBlocked? ==> a == s.audio && b == s.bytesPlayed
    requires s.audio.AudioReadBlocked? ==> a.AudioReadBlocked? || a.AudioExited?
    ensures WorkerOk(s.(audio := a, bytesPlayed := b))
  {
  }

  /** Storing what one pass of the render loop computed keeps the invariant. */
  lemma RenderKeepsWorkerOk(s: WorkerState, pos: real, cut: bool, r: RenderState, q: seq<Frame>, p: nat, sh: seq<Shown>,
                            tu: seq<real>, lt: real)
    requires WorkerOk(s)
    requires RenderPass(s.enqueued, s.startTime, s.fps, FrameBytes(s.width, s.height), s.running, pos, cut,
                        s.render, s.queue, s.popped, s.shown, s.timeUpdates, s.lastTs, r, q, p, sh, tu, lt)
    ensures WorkerOk(s.(render := r, queue := q, popped := p, shown := sh, timeUpdates := tu, lastTs := lt))
  {
    RenderPassFacts(s.enqueued, s.startTime, s.fps, FrameBytes(s.width, s.height), s.running, pos, cut,
                    s.render, s.queue, s.popped, s.shown, s.timeUpdates, s.lastTs, r, q, p, sh, tu, lt);
    TakeKeepsWorkerOk(s, r, q, p, sh, tu, lt);
  }

  /** What storing a render pass needs from it: the frames it left and emitted, and what it keeps when it does nothing. */
  lemma RenderPassFacts(enqueued: seq<Frame>, startTime: real, fps: real, fs: int, running: bool, audioPos: real,
                        cut: bool, render: RenderState, queue: seq<Frame>, popped: nat,
                        shown: seq<Shown>, timeUpdates: seq<real>, lastTs: real,
                        r: RenderState, q: seq<Frame>, p: nat, sh: seq<Shown>, tu: seq<real>, lt: real)
    requires RenderPass(enqueued, startTime, fps, fs, running, audioPos, cut, render, queue, popped,
                        shown, timeUpdates, lastTs, r, q, p, sh, tu, lt)
    ensures Pending(q, enqueued, p, startTime, fps, fs) && ShowOk(sh, r, p, startTime, fps, fs) && TimeOk(tu, lt)
    ensures |q| <= |queue| && (!running ==> q == queue)
    ensures render.RenderIdle? ==> r == render && sh == shown
  {
  }

  /** Replacing the renderer's state and taking frames off the queue keeps the invariant. */
  lemma TakeKeepsWorkerOk(s: WorkerState, r: RenderState, q: seq<Frame>, p: nat, sh: seq<Shown>, tu: seq<real>, lt: real)
    requires WorkerOk(s)
    requires Pending(q, s.enqueued, p, s.startTime, s.fps, FrameBytes(s.width, s.height))
    requires ShowOk(sh, r, p, s.startTime, s.fps, FrameBytes(s.width, s.height)) && TimeOk(tu, lt)
    requires |q| <= |s.queue| && (!s.running ==> q == s.queue)
    requires s.render.RenderIdle? ==> r == s.render && sh == s.shown
    ensures WorkerOk(s.(render := r, queue := q, popped := p, shown := sh, timeUpdates := tu, lastTs := lt))
  {
    QueueOkAfterTake(s.queue, q, s.enqueued, s.popped, p, s.frameIndex, s.reader, s.startTime, s.fps,
                     FrameBytes(s.width, s.height));
  }
}

=== FILE: av_worker.dfy ===
/**
 * The AVWorker object of test.py: its fields, and its methods as
 * operations that store what the loops of AvPipeline compute.
 */
module AvWorker {
  import opened Text
  import opened AvPipeline

  class AVWorker {
    const url: string
    const startTime: real
    var width: int
    var height: int
    var fps: real
    var running: bool
    var stopEvent: bool
    var videoProc: Option<Proc>
    var audioProc: Option<Proc>
    var queue: seq<Frame>
    var bytesPlayed: nat
    var audioMode: AudioMode
    var ran: bool

    // Signal emissions, in order.
    var durationFound: seq<real>
    var errors: seq<string>
    var shown: seq<Shown>
    var timeUpdates: seq<real>

    // Loop state that survives the points where a worker thread blocks.
    var frameIndex: nat
    var lastTs: real
    var reader: ReaderState
    var audio: AudioState
    var render: RenderState

    // Every frame ever put into the queue, and how many have left it (taken by the renderer or drained).
    ghost var enqueued: seq<Frame>
    ghost var popped: nat

    function FrameSize(): int
      reads this`width, this`height
    {
      FrameBytes(width, height)
    }

    /** _audio_clock */
    function AudioPosition(): (t: real)
      reads this`bytesPlayed
      ensures t >= startTime
    {
      AudioClock(startTime, bytesPlayed)
    }

    ghost function State(): WorkerState
      reads this
    {
      WorkerState(startTime, width, height, fps, running, stopEvent, videoProc, audioProc, queue, bytesPlayed,
                  audioMode, ran, shown, timeUpdates, frameIndex, lastTs, reader, audio, render,
                  enqueued, popped)
    }

    ghost predicate Core()
      reads this
    {
      CoreOk(State())
    }

    ghost predicate Valid()
      reads this
    {
      WorkerOk(State())
    }
    /** AVWorker.__init__ */
    constructor (url: string, startTime: real)
      ensures Valid()
      ensures this.url == url && this.startTime == startTime
      ensures width == 0 && height == 0 && fps == 30.0
      ensures running && !stopEvent && !ran
      ensures videoProc.None? && audioProc.None? && queue == [] && bytesPlayed == 0
      ensures reader.ReaderIdle? && audio.AudioIdle? && render.RenderIdle?
      ensures durationFound == [] && errors == [] && shown == [] && timeUpdates == []
    {
      this.url := url;
      this.startTime := startTime;
      width, height, fps := 0, 0, 30.0;
      running, stopEvent := true, false;
      videoProc, audioProc := None, None;
      queue, bytesPlayed := [], 0;
      audioMode := Device;
      ran := false;
      durationFound, errors, shown, timeUpdates := [], [], [], [];
      frameIndex, lastTs := 0, -1.0;
      reader, audio, render := ReaderIdle, AudioIdle, RenderIdle;
      enqueued, popped := [], 0;
    }

    /**
     * stop(): clear `running`, set the stop event, drain the queue and
     * terminate every decoder that was spawned.
     */
    method Stop()
      requires Valid()
      modifies this`running, this`stopEvent, this`queue, this`popped, this`videoProc, this`audioProc
      ensures Valid()
      ensures !running && stopEvent && queue == [] && popped == |enqueued|
      ensures videoProc == Terminated(old(videoProc)) && audioProc == Terminated(old(audioProc))
    {
      var q;
      ghost var p;
      q, p := Drain(enqueued, queue, popped);
      SetStopped(q, p, Terminated(videoProc), Terminated(audioProc));
      StoppedValid(this);
    }

    /** The stores of stop(): the flag, the event, the drained queue and the decoders. */
    method SetStopped(q: seq<Frame>, ghost p: nat, vp: Option<Proc>, ap: Option<Proc>)
      modifies this`running, this`stopEvent, this`queue, this`popped, this`videoProc, this`audioProc
      ensures !running && stopEvent && queue == q && popped == p && videoProc == vp && audioProc == ap
    {
      running, stopEvent, queue, popped, videoProc, audioProc := false, true, q, p, vp, ap;
    }

    /** Taking frames off the queue with get_nowait until it is empty. */
    static method Drain(ghost enqueued: seq<Frame>, queue: seq<Frame>, ghost popped: nat) returns (q: seq<Frame>, ghost p: nat)
      requires popped <= |enqueued| && enqueued == enqueued[..popped] + queue
      ensures q == [] && p == |enqueued|
    {
      q, p := queue, popped;
      while q != []
        invariant p <= |enqueued| && enqueued == enqueued[..p] + q
        decreases |q|
      {
        assert enqueued[..p + 1] == enqueued[..p] + [q[0]] && q == [q[0]] + q[1..];
        q, p := q[1..], p + 1;
      }
    }

    /**
     * The first part of _run_inner: _resolve_url, which reports a failure
     * on the error signal; with a direct URL, the geometry is stored and
     * the duration published.
     */
    method Resolve(probe: ProbeOutput) returns (direct: Option<string>)
      requires Valid() && !ran
      modifies this`ran, this`errors, this`fps, this`width, this`height, this`durationFound
      ensures Valid() && ran
      ensures direct == ResolveUrl(probe).url
      ensures errors == old(errors) + (if ResolveFails(probe) then ["yt-dlp failed"] else [])
      ensures direct.None? ==>
                durationFound == old(durationFound) && fps == old(fps) && width == old(width) && height == old(height)
      ensures direct.Some? ==>
                var r := ResolveUrl(probe);
                && fps == r.fps && width == r.width && height == r.height
                && durationFound == old(durationFound) + [r.duration]
    {
      var r := ResolveUrl(probe);
      direct := r.url;
      var errs := errors + (if ResolveFails(probe) then ["yt-dlp failed"] else []);
      if r.url.None? {
        SetResolved(fps, width, height, errs, durationFound);
      } else {
        SetResolved(r.fps, r.width, r.height, errs, durationFound + [r.duration]);
      }
      ResolvedValid(this);
    }

    /** The stores of the resolution step. */
    method SetResolved(f: real, w: int, h: int, errs: seq<string>, durations: seq<real>)
      modifies this`ran, this`errors, this`fps, this`width, this`height, this`durationFound
      ensures ran && fps == f && width == w && height == h && errors == errs && durationFound == durations
    {
      ran, fps, width, height, errors, durationFound := true, f, w, h, errs, durations;
    }

    /**
     * The rest of _run_inner: spawn the video decoder, then the audio
     * decoder (terminating the video decoder when that fails), then start
     * the reader thread, the audio thread and the render loop. Nothing
     * here looks at `running`: on a stopped worker the loops exit at once
     * but the decoders stay alive, so only the core of the invariant holds.
     */
    method Launch(direct: string, videoSpawns: bool, audioSpawns: bool, pyaudioAvailable: bool, deviceOpens: bool)
      requires Valid() && ran
      requires videoProc.None? && audioProc.None? && reader.ReaderIdle? && audio.AudioIdle? && render.RenderIdle?
      modifies this`videoProc, this`audioProc, this`reader, this`audio, this`render, this`audioMode
      ensures Core() && (running ==> Valid())
      ensures var l := StartDecoders(direct, startTime, running, videoSpawns, audioSpawns, pyaudioAvailable, deviceOpens);
              && videoProc == l.videoProc && audioProc == l.audioProc
              && reader == l.reader && audio == l.audio && render == l.render
    {
      var l := StartDecoders(direct, startTime, running, videoSpawns, audioSpawns, pyaudioAvailable, deviceOpens);
      SetLaunched(l);
      LaunchedCore(this);
    }

    /** The stores of the spawning step. */
    method SetLaunched(l: Launch)
      modifies this`videoProc, this`audioProc, this`reader, this`audio, this`render, this`audioMode
      ensures videoProc == l.videoProc && audioProc == l.audioProc && audioMode == l.audioMode
      ensures reader == l.reader && audio == l.audio && render == l.render
    {
      videoProc, audioProc, reader, audio, render, audioMode := l.videoProc, l.audioProc, l.reader, l.audio, l.render, l.audioMode;
    }

    /**
     * _run_inner up to the start of the loops, with a check of `running`
     * between the resolution and the spawning that test.py does not make
     * (see RunInnerAsWritten): a worker stopped meanwhile spawns nothing.
     */
    method RunInner(probe: ProbeOutput, videoSpawns: bool, audioSpawns: bool, pyaudioAvailable: bool, deviceOpens: bool)
      requires Valid() && !ran
      modifies this`ran, this`errors, this`fps, this`width, this`height, this`durationFound
      modifies this`videoProc, this`audioProc, this`reader, this`audio, this`render, this`audioMode
      ensures Valid() && ran
      ensures ResolveUrl(probe).url.None? || !running ==> videoProc.None? && audioProc.None? && reader.ReaderIdle?
      ensures ResolveUrl(probe).url.Some? && running ==>
                var l := StartDecoders(ResolveUrl(probe).url.value, startTime, true, videoSpawns, audioSpawns, pyaudioAvailable, deviceOpens);
                && videoProc == l.videoProc && audioProc == l.audioProc
                && reader == l.reader && audio == l.audio && render == l.render
    {
      var direct := Resolve(probe);
      if direct.Some? && running {
        Launch(direct.value, videoSpawns, audioSpawns, pyaudioAvailable, deviceOpens);
      }
    }

    /**
     * _run_inner as test.py writes it: nothing between the resolution and
     * Popen looks at `running`, so a stop() that lands while yt-dlp runs is
     * followed by decoders that no one terminates.
     */
    method RunInnerAsWritten(probe: ProbeOutput, videoSpawns: bool, audioSpawns: bool, pyaudioAvailable: bool, deviceOpens: bool)
      requires Valid() && !ran
      modifies this`ran, this`errors, this`fps, this`width, this`height, this`durationFound
      modifies this`videoProc, this`audioProc, this`reader, this`audio, this`render, this`audioMode
      ensures Core() && ran
      ensures ResolveUrl(probe).url.Some? ==>
                var l := StartDecoders(ResolveUrl(probe).url.value, startTime, running, videoSpawns, audioSpawns, pyaudioAvailable, deviceOpens);
                && videoProc == l.videoProc && audioProc == l.audioProc
                && reader == l.reader && audio == l.audio && render == l.render
    {
      var direct := Resolve(probe);
      if direct.Some? {
        Launch(direct.value, videoSpawns, audioSpawns, pyaudioAvailable, deviceOpens);
      }
    }

    /**
     * What the reader loop keeps while it runs from (reader, queue,
     * frameIndex, enqueued): the queue invariant, the queue only grows, and
     * while running the frames produced are those produced before followed
     * by the frames of the reads consumed so far.
     */
    static ghost predicate ReaderInv(rawReads: seq<seq<bv8>>, fs: int, startTime: real, fps: real, running: bool, popped: nat,
                                     reader: ReaderState, queue: seq<Frame>, enqueued: seq<Frame>, h0: seq<Frame>,
                                     used: nat, r: ReaderState, q: seq<Frame>, fi: nat, e: seq<Frame>)
    {
      && QueueOk(q, e, popped, fi, r, startTime, fps, fs)
      && used <= |rawReads|
      && |q| >= |queue| && q[..|queue|] == queue
      && (reader.ReaderIdle? || reader.ReaderExited? ==> r == reader && used == 0)
      && (!reader.ReaderIdle? ==> !r.ReaderIdle?)
      && (running && r.ReaderExited? && !reader.ReaderExited? ==> used > 0 && |rawReads[used - 1]| < fs)
      && (running && (r.ReadBlocked? || r.PutBlocked?) ==> forall i :: 0 <= i < used ==> |rawReads[i]| >= fs)
      && (running ==> Produced(e, r) == h0 + Framed(rawReads[..used], fs, startTime, fps, |h0|))
      && (!running ==> e == enqueued)
    }

    /** One read of the video pipe by a reader blocked in it. */
    static method ReadStep(rawReads: seq<seq<bv8>>, fs: int, startTime: real, fps: real, running: bool, ghost popped: nat,
                           reader: ReaderState, queue: seq<Frame>, ghost enqueued: seq<Frame>, ghost h0: seq<Frame>,
                           used: nat, r: ReaderState, q: seq<Frame>, fi: nat, ghost e: seq<Frame>)
      returns (used': nat, r': ReaderState)
      requires ReaderInv(rawReads, fs, startTime, fps, running, popped, reader, queue, enqueued, h0, used, r, q, fi, e)
      requires r.ReadBlocked? && used < |rawReads| && |rawReads[used]| <= fs
      ensures ReaderInv(rawReads, fs, startTime, fps, running, popped, reader, queue, enqueued, h0, used', r', q, fi, e)
      ensures used' == used + 1 && (r'.ReaderExited? || r'.PutBlocked?)
    {
      var raw := rawReads[used];
      if running {
        ProducedAfterRead(rawReads, used, fs, startTime, fps, h0, e, fi);
      }
      used' := used + 1;
      if |raw| < fs {
        r' := ReaderExited;
      } else {
        FrameReadKeepsQueueOk(q, e, popped, fi, raw, startTime, fps, fs);
        r' := PutBlocked(Frame(FramePts(startTime, fps, fi), raw));
      }
    }

    /** The put of a reader blocked putting a frame: into the queue while running, given up once stopped. */
    static method PutStep(rawReads: seq<seq<bv8>>, fs: int, startTime: real, fps: real, running: bool, ghost popped: nat,
                          reader: ReaderState, queue: seq<Frame>, ghost enqueued: seq<Frame>, ghost h0: seq<Frame>,
                          used: nat, r: ReaderState, q: seq<Frame>, fi: nat, ghost e: seq<Frame>)
      returns (r': ReaderState, q': seq<Frame>, fi': nat, ghost e': seq<Frame>)
      requires ReaderInv(rawReads, fs, startTime, fps, running, popped, reader, queue, enqueued, h0, used, r, q, fi, e)
      requires r.PutBlocked? && (!running || |q| < QueueCapacity)
      ensures ReaderInv(rawReads, fs, startTime, fps, running, popped, reader, queue, enqueued, h0, used, r', q', fi', e')
      ensures r'.ReadBlocked? || r'.ReaderExited?
    {
      if running {
        PutKeepsQueueOk(q, e, popped, fi, r.frame, startTime, fps, fs);
        assert (q + [r.frame])[..|queue|] == q[..|queue|];
        r', q', fi', e' := ReadBlocked, q + [r.frame], fi + 1, e + [r.frame];
      } else {
        AbandonKeepsQueueOk(q, e, popped, fi, r.frame, startTime, fps, fs);
        r', q', fi', e' := ReaderExited, q, fi + 1, e;
      }
    }

    /**
     * The reader thread's loop over its own state: a short read ends the
     * stream; a full read becomes the frame (start + index/fps, bytes); the
     * frame is put into the queue, retrying while the queue is full and
     * the worker runs; a stopped worker gives the frame up.
     */
    static method ReaderLoop(rawReads: seq<seq<bv8>>, fs: int, startTime: real, fps: real, running: bool, ghost popped: nat,
                             reader: ReaderState, queue: seq<Frame>, frameIndex: nat, ghost enqueued: seq<Frame>)
      returns (used: nat, r: ReaderState, q: seq<Frame>, fi: nat, ghost e: seq<Frame>)
      requires QueueOk(queue, enqueued, popped, frameIndex, reader, startTime, fps, fs)
      requires forall i :: 0 <= i < |rawReads| ==> |rawReads[i]| <= fs
      ensures QueueOk(q, e, popped, fi, r, startTime, fps, fs)
      ensures used <= |rawReads|
      ensures |q| >= |queue| && q[..|queue|] == queue
      ensures reader.ReaderIdle? || reader.ReaderExited? ==> r == reader && used == 0
      ensures !reader.ReaderIdle? ==> !r.ReaderIdle?
      ensures !running ==> e == enqueued && q == queue && !r.PutBlocked?
      ensures running ==>
                Produced(e, r) == Produced(enqueued, reader) + Framed(rawReads[..used], fs, startTime, fps, |Produced(enqueued, reader)|)
      ensures running && (reader.ReadBlocked? || reader.PutBlocked?) ==>
                || (r.ReaderExited? && used > 0 && |rawReads[used - 1]| < fs)
                || (r.ReadBlocked? && used == |rawReads|)
                || (r.PutBlocked? && |q| == QueueCapacity)
    {
      r, q, fi, e := reader, queue, frameIndex, enqueued;
      used := 0;
      ghost var h0 := Produced(enqueued, reader);
      assert q[..|queue|] == queue;
      while (r.ReadBlocked? && used < |rawReads|) || (r.PutBlocked? && (!running || |q| < QueueCapacity))
        invariant ReaderInv(rawReads, fs, startTime, fps, running, popped, reader, queue, enqueued, h0, used, r, q, fi, e)
        decreases 2 * (|rawReads| - used) + (if r.PutBlocked? then 1 else 0)
      {
        if r.ReadBlocked? {
          used, r := ReadStep(rawReads, fs, startTime, fps, running, popped, reader, queue, enqueued, h0, used, r, q, fi, e);
        } else {
          r, q, fi, e := PutStep(rawReads, fs, startTime, fps, running, popped, reader, queue, enqueued, h0, used, r, q, fi, e);
        }
      }
    }

    /**
     * _read_video from where the reader thread stands. `rawReads` are the
     * results of successive reads of the video pipe (each at most one frame
     * long); when they run out the thread is blocked in the next read.
     */
    method ReadVideo(rawReads: seq<seq<bv8>>) returns (used: nat)
      requires Valid()
      requires forall i :: 0 <= i < |rawReads| ==> |rawReads[i]| <= FrameSize()
      modifies this`reader, this`queue, this`enqueued, this`frameIndex
      ensures Valid()
      ensures used <= |rawReads|
      ensures |queue| >= |old(queue)| && queue[..|old(queue)|] == old(queue)
      ensures old(reader).ReaderIdle? || old(reader).ReaderExited? ==> reader == old(reader) && used == 0
      ensures !running ==> enqueued == old(enqueued) && !reader.PutBlocked?
      ensures running ==>
                Produced(enqueued, reader)
                == Produced(old(enqueued), old(reader))
                   + Framed(rawReads[..used], FrameSize(), startTime, fps, |Produced(old(enqueued), old(reader))|)
      ensures running && (old(reader).ReadBlocked? || old(reader).PutBlocked?) ==>
                || (reader.ReaderExited? && used > 0 && |rawReads[used - 1]| < FrameSize())
                || (reader.ReadBlocked? && used == |rawReads|)
                || (reader.PutBlocked? && |queue| == QueueCapacity)
    {
      var r, q, fi;
      ghost var e;
      used, r, q, fi, e := ReaderLoop(rawReads, FrameSize(), startTime, fps, running, popped, reader, queue, frameIndex, enqueued);
      SetRead(r, q, fi, e);
      ReadValid(this);
    }

    /** The stores of the reader thread. */
    method SetRead(r: ReaderState, q: seq<Frame>, fi: nat, ghost e: seq<Frame>)
      modifies this`reader, this`queue, this`enqueued, this`frameIndex
      ensures reader == r && queue == q && frameIndex == fi && enqueued == e
    {
      reader, queue, frameIndex, enqueued := r, q, fi, e;
    }

    /**
     * The device path of the audio thread over its own state: an empty read
     * ends the stream; a stop that arrived during the read ends the loop
     * without writing; otherwise the chunk is written and counted.
     */
    static method DeviceLoop(chunks: seq<seq<bv8>>, live: bool, audio: AudioState, bytesPlayed: nat)
      returns (used: nat, a: AudioState, b: nat)
      ensures used <= |chunks| && b >= bytesPlayed
      ensures !audio.AudioReadBlocked? ==> a == audio && b == bytesPlayed && used == 0
      ensures audio.AudioReadBlocked? ==> a.AudioReadBlocked? || a.AudioExited?
      ensures !live ==> b == bytesPlayed
      ensures live && audio.AudioReadBlocked? ==>
                && b == bytesPlayed + TotalLength(chunks[..used])
                && ((a.AudioExited? && used > 0 && chunks[used - 1] == []) || (a.AudioReadBlocked? && used == |chunks|))
    {
      used, a, b := 0, audio, bytesPlayed;
      while a.AudioReadBlocked? && used < |chunks|
        invariant used <= |chunks| && b >= bytesPlayed
        invariant !audio.AudioReadBlocked? ==> a == audio && used == 0
        invariant audio.AudioReadBlocked? ==> a.AudioReadBlocked? || a.AudioExited?
        invariant !live ==> b == bytesPlayed
        invariant live ==> b == bytesPlayed + TotalLength(chunks[..used])
        invariant live && audio.AudioReadBlocked? && a.AudioExited? ==> used > 0 && chunks[used - 1] == []
        decreases |chunks| - used
      {
        var data := chunks[used];
        assert chunks[..used + 1][..used] == chunks[..used];
        used := used + 1;
        if data == [] || !live {
          a := AudioExited;
        } else {
          b := b + |data|;
        }
      }
    }

    /** _play_audio with an output device, from where the audio thread stands. */
    method PlayAudio(chunks: seq<seq<bv8>>) returns (used: nat)
      requires Valid() && audioMode.Device?
      requires forall i :: 0 <= i < |chunks| ==> |chunks[i]| <= AudioChunk
      modifies this`audio, this`bytesPlayed
      ensures Valid()
      ensures used <= |chunks|
      ensures AudioPosition() >= old(AudioPosition())
      ensures !old(audio).AudioReadBlocked? ==> audio == old(audio) && bytesPlayed == old(bytesPlayed)
      ensures !running ==> bytesPlayed == old(bytesPlayed)
      ensures running && old(audio).AudioReadBlocked? ==>
                && bytesPlayed == old(bytesPlayed) + TotalLength(chunks[..used])
                && ((audio.AudioExited? && used > 0 && chunks[used - 1] == []) || (audio.AudioReadBlocked? && used == |chunks|))
    {
      var a, b;
      used, a, b := DeviceLoop(chunks, running && !stopEvent, audio, bytesPlayed);
      AudioClockMonotone(startTime, bytesPlayed, b);
      SetPlayed(a, b);
      PlayedValid(this);
    }

    /**
     * The clock-only path of the audio thread over its own state: read and
     * discard chunks; after each nonempty read the byte count becomes
     * int(elapsed * 44100 * 4); an empty read ends the stream. Each read
     * comes with the monotonic time elapsed since the loop began, which is
     * never behind the byte count already published.
     */
    static method ClockLoop(rawReads: seq<TimedChunk>, live: bool, audio: AudioState, bytesPlayed: nat)
      returns (used: nat, a: AudioState, b: nat)
      requires forall i :: 0 <= i < |rawReads| ==> rawReads[i].elapsed >= 0.0 && ElapsedBytes(rawReads[i].elapsed) >= bytesPlayed
      ensures b >= bytesPlayed && used <= |rawReads|
      ensures !audio.AudioReadBlocked? ==> a == audio && b == bytesPlayed && used == 0
      ensures audio.AudioReadBlocked? ==> a.AudioReadBlocked? || a.AudioExited?
      ensures live && audio.AudioReadBlocked? ==>
                && ((a.AudioExited? && used > 0 && rawReads[used - 1].data == []) || (a.AudioReadBlocked? && used == |rawReads|))
                && (forall i :: 0 <= i < used - 1 ==> rawReads[i].data != [])
      ensures live && audio.AudioReadBlocked? && used > 0 && rawReads[used - 1].data != [] ==>
                b == ElapsedBytes(rawReads[used - 1].elapsed)
      ensures live && audio.AudioReadBlocked? && used > 1 && rawReads[used - 1].data == [] ==>
                b == ElapsedBytes(rawReads[used - 2].elapsed)
    {
      used, a, b := 0, audio, bytesPlayed;
      while a.AudioReadBlocked? && used < |rawReads|
        invariant b >= bytesPlayed && used <= |rawReads|
        invariant !audio.AudioReadBlocked? ==> a == audio && b == bytesPlayed && used == 0
        invariant audio.AudioReadBlocked? ==> a.AudioReadBlocked? || a.AudioExited?
        invariant live && audio.AudioReadBlocked? ==>
                    && (forall i :: 0 <= i < used - 1 ==> rawReads[i].data != [])
                    && (a.AudioExited? ==> used > 0 && rawReads[used - 1].data == [])
                    && (a.AudioReadBlocked? && used > 0 ==> rawReads[used - 1].data != [])
                    && (used > 0 && rawReads[used - 1].data != [] ==> b == ElapsedBytes(rawReads[used - 1].elapsed))
                    && (used > 1 && rawReads[used - 1].data == [] ==> b == ElapsedBytes(rawReads[used - 2].elapsed))
        decreases |rawReads| - used
      {
        var r := rawReads[used];
        used := used + 1;
        if r.data == [] {
          a := AudioExited;
        } else {
          b := ElapsedBytes(r.elapsed);
          if !live {
            a := AudioExited;
          }
        }
      }
    }

    /** _drain_audio_no_pyaudio, from where the audio thread stands. */
    method DrainAudioNoDevice(rawReads: seq<TimedChunk>) returns (used: nat)
      requires Valid() && audioMode.ClockOnly?
      requires forall i :: 0 <= i < |rawReads| ==>
                 && |rawReads[i].data| <= AudioChunk && rawReads[i].elapsed >= 0.0
                 && ElapsedBytes(rawReads[i].elapsed) >= bytesPlayed
      modifies this`audio, this`bytesPlayed
      ensures Valid()
      ensures used <= |rawReads|
      ensures AudioPosition() >= old(AudioPosition())
      ensures !old(audio).AudioReadBlocked? ==> audio == old(audio) && bytesPlayed == old(bytesPlayed)
      ensures running && old(audio).AudioReadBlocked? ==>
                && ((audio.AudioExited? && used > 0 && rawReads[used - 1].data == []) || (audio.AudioReadBlocked? && used == |rawReads|))
                && (forall i :: 0 <= i < used - 1 ==> rawReads[i].data != [])
      ensures running && old(audio).AudioReadBlocked? && used > 0 && rawReads[used - 1].data != [] ==>
                bytesPlayed == ElapsedBytes(rawReads[used - 1].elapsed)
      ensures running && old(audio).AudioReadBlocked? && used > 1 && rawReads[used - 1].data == [] ==>
                bytesPlayed == ElapsedBytes(rawReads[used - 2].elapsed)
    {
      var a, b;
      used, a, b := ClockLoop(rawReads, running && !stopEvent, audio, bytesPlayed);
      AudioClockMonotone(startTime, bytesPlayed, b);
      SetPlayed(a, b);
      PlayedValid(this);
    }

    /** The stores of the audio thread. */
    method SetPlayed(a: AudioState, b: nat)
      modifies this`audio, this`bytesPlayed
      ensures audio == a && bytesPlayed == b
    {
      audio, bytesPlayed := a, b;
    }

    /** frame_ready for a frame, then time_update when a second has passed since last_ts. */
    static method Emit(f: Frame, audioPos: real, shown: seq<Shown>, timeUpdates: seq<real>, lastTs: real)
      returns (sh: seq<Shown>, tu: seq<real>, lt: real)
      requires TimeOk(timeUpdates, lastTs)
      ensures TimeOk(tu, lt)
      ensures sh == shown + [Shown(f, audioPos)]
      ensures f.pts - lastTs >= 1.0 ==> tu == timeUpdates + [f.pts] && lt == f.pts
      ensures f.pts - lastTs < 1.0 ==> tu == timeUpdates && lt == lastTs
    {
      sh, tu, lt := shown + [Shown(f, audioPos)], timeUpdates, lastTs;
      if f.pts - lastTs >= 1.0 {
        tu, lt := timeUpdates + [f.pts], f.pts;
      }
    }

    /**
     * What the render loop keeps while it runs from (render, queue, popped,
     * shown, timeUpdates, lastTs): the renderer's invariants, `taken` is
     * what it took off the queue, emissions only grow, and while running
     * the frames emitted or being paced are those paced before followed by
     * the fresh frames taken.
     */
    static ghost predicate RenderInv(enqueued: seq<Frame>, startTime: real, fps: real, fs: int, running: bool, audioPos: real,
                                     render: RenderState, queue: seq<Frame>, popped: nat, shown: seq<Shown>, timeUpdates: seq<real>,
                                     lastTs: real, r: RenderState, q: seq<Frame>, p: nat, sh: seq<Shown>, tu: seq<real>,
                                     lt: real, taken: seq<Frame>, done: bool)
    {
      && Pending(q, enqueued, p, startTime, fps, fs)
      && ShowOk(sh, r, p, startTime, fps, fs) && TimeOk(tu, lt)
      && queue == taken + q && p == popped + |taken|
      && |sh| >= |shown| && sh[..|shown|] == shown
      && |tu| >= |timeUpdates| && tu[..|timeUpdates|] == timeUpdates
      && (render.RenderIdle? || render.RenderExited? ==>
            r == render && taken == [] && sh == shown && tu == timeUpdates && lt == lastTs && done)
      && (!running ==> sh == shown && taken == [])
      && (!running && done ==> r.RenderIdle? || r.RenderExited?)
      && (!done ==> r.WaitingForFrame? || r.Pacing?)
      && (running && (render.WaitingForFrame? || render.Pacing?) ==>
            && (done ==> (r.WaitingForFrame? && q == []) || (r.Pacing? && r.frame.pts > r.audioPos))
            && ShownFrames(sh) + PacingFrames(r) == ShownFrames(shown) + PacingFrames(render) + Fresh(taken, audioPos, fps))
    }

    /** The renderer emits the frame it holds once it is due, while the worker runs. */
    static method PaceStep(ghost enqueued: seq<Frame>, startTime: real, fps: real, fs: int, running: bool, audioPos: real,
                           render: RenderState, queue: seq<Frame>, ghost popped: nat, shown: seq<Shown>,
                           timeUpdates: seq<real>, lastTs: real, r: RenderState, q: seq<Frame>, ghost p: nat,
                           sh: seq<Shown>, tu: seq<real>, lt: real, ghost taken: seq<Frame>)
      returns (r': RenderState, sh': seq<Shown>, tu': seq<real>, lt': real)
      requires RenderInv(enqueued, startTime, fps, fs, running, audioPos, render, queue, popped, shown, timeUpdates, lastTs,
                         r, q, p, sh, tu, lt, taken, false)
      requires running && r.Pacing? && Ticked(shown, timeUpdates, lastTs, sh, tu, lt)
      ensures RenderInv(enqueued, startTime, fps, fs, running, audioPos, render, queue, popped, shown, timeUpdates, lastTs,
                        r', q, p, sh', tu', lt', taken, false)
      ensures r'.WaitingForFrame? && Ticked(shown, timeUpdates, lastTs, sh', tu', lt')
    {
      var f, pos := r.frame, r.audioPos;
      ShowAfterPace(sh, f, pos, p, startTime, fps, fs);
      ShownSnoc(sh, Shown(f, pos));
      TickedSnoc(shown, timeUpdates, lastTs, sh, tu, lt, Shown(f, pos));
      assert (sh + [Shown(f, pos)])[..|shown|] == sh[..|shown|];
      r' := WaitingForFrame;
      sh', tu', lt' := Emit(f, pos, sh, tu, lt);
      assert tu'[..|timeUpdates|] == tu[..|timeUpdates|];
    }

    /** The renderer takes a stale frame off the queue and drops it. */
    static method DropStep(ghost enqueued: seq<Frame>, startTime: real, fps: real, fs: int, running: bool, audioPos: real,
                           render: RenderState, queue: seq<Frame>, ghost popped: nat, shown: seq<Shown>,
                           timeUpdates: seq<real>, lastTs: real, r: RenderState, q: seq<Frame>, ghost p: nat,
                           sh: seq<Shown>, tu: seq<real>, lt: real, ghost taken: seq<Frame>)
      returns (q': seq<Frame>, ghost p': nat, ghost taken': seq<Frame>)
      requires RenderInv(enqueued, startTime, fps, fs, running, audioPos, render, queue, popped, shown, timeUpdates, lastTs,
                         r, q, p, sh, tu, lt, taken, false)
      requires running && r.WaitingForFrame? && q != []
      requires Stale(q[0].pts, audioPos, fps)
      ensures RenderInv(enqueued, startTime, fps, fs, running, audioPos, render, queue, popped, shown, timeUpdates, lastTs,
                        r, q', p', sh, tu, lt, taken', false)
      ensures |q'| < |q|
    {
      var f := q[0];
      PendingTake(q, enqueued, p, startTime, fps, fs);
      ShowAfterDrop(sh, f, p, startTime, fps, fs);
      FreshSnoc(taken, f, audioPos, fps);
      assert queue == (taken + [f]) + q[1..];
      q', p', taken' := q[1..], p + 1, taken + [f];
      assert Fresh(taken', audioPos, fps) == Fresh(taken, audioPos, fps);
    }

    /**
     * The renderer takes a fresh frame off the queue and holds it; when it
     * is ahead of the clock the thread sleeps and the pass ends, otherwise
     * the next pass emits it.
     */
    static method TakeStep(ghost enqueued: seq<Frame>, startTime: real, fps: real, fs: int, running: bool, audioPos: real,
                           render: RenderState, queue: seq<Frame>, ghost popped: nat, shown: seq<Shown>,
                           timeUpdates: seq<real>, lastTs: real, r: RenderState, q: seq<Frame>, ghost p: nat,
                           sh: seq<Shown>, tu: seq<real>, lt: real, ghost taken: seq<Frame>)
      returns (r': RenderState, q': seq<Frame>, ghost p': nat, ghost taken': seq<Frame>, done': bool)
      requires RenderInv(enqueued, startTime, fps, fs, running, audioPos, render, queue, popped, shown, timeUpdates, lastTs,
                         r, q, p, sh, tu, lt, taken, false)
      requires running && r.WaitingForFrame? && q != []
      requires !Stale(q[0].pts, audioPos, fps)
      ensures RenderInv(enqueued, startTime, fps, fs, running, audioPos, render, queue, popped, shown, timeUpdates, lastTs,
                        r', q', p', sh, tu, lt, taken', done')
      ensures r' == Pacing(q[0], audioPos) && q' == q[1..]
      ensures done' <==> q[0].pts - audioPos > 0.0
    {
      var f := q[0];
      PendingTake(q, enqueued, p, startTime, fps, fs);
      ShowAfterTake(sh, f, audioPos, p, startTime, fps, fs);
      FreshSnoc(taken, f, audioPos, fps);
      assert queue == (taken + [f]) + q[1..];
      r', q', p', taken' := Pacing(f, audioPos), q[1..], p + 1, taken + [f];
      done' := f.pts - audioPos > 0.0;
      ghost var before := ShownFrames(shown) + PacingFrames(render);
      assert (before + Fresh(taken, audioPos, fps)) + [f] == before + (Fresh(taken, audioPos, fps) + [f]);
    }

    /** The render loop's invariant holds before its first pass. */
    static lemma RenderInvStart(enqueued: seq<Frame>, startTime: real, fps: real, fs: int, running: bool, audioPos: real,
                            render: RenderState, queue: seq<Frame>, popped: nat, shown: seq<Shown>,
                            timeUpdates: seq<real>, lastTs: real)
      requires Pending(queue, enqueued, popped, startTime, fps, fs)
      requires ShowOk(shown, render, popped, startTime, fps, fs) && TimeOk(timeUpdates, lastTs)
      ensures RenderInv(enqueued, startTime, fps, fs, running, audioPos, render, queue, popped, shown, timeUpdates, lastTs,
                        render, queue, popped, shown, timeUpdates, lastTs, [], !(render.WaitingForFrame? || render.Pacing?))
    {
      assert shown[..|shown|] == shown && timeUpdates[..|timeUpdates|] == timeUpdates && [] + queue == queue;
      assert ShownFrames(shown) + PacingFrames(render) + [] == ShownFrames(shown) + PacingFrames(render);
    }

    /** A stop seen at the top of the loop ends it. */
    static lemma RenderInvExit(enqueued: seq<Frame>, startTime: real, fps: real, fs: int, running: bool, audioPos: real,
                            render: RenderState, queue: seq<Frame>, popped: nat, shown: seq<Shown>,
                            timeUpdates: seq<real>, lastTs: real,
                               r: RenderState, q: seq<Frame>, p: nat, sh: seq<Shown>, tu: seq<real>, lt: real, taken: seq<Frame>)
      requires RenderInv(enqueued, startTime, fps, fs, running, audioPos, render, queue, popped, shown, timeUpdates, lastTs, r, q, p, sh, tu, lt, taken, false)
      requires !running
      ensures RenderInv(enqueued, startTime, fps, fs, running, audioPos, render, queue, popped, shown, timeUpdates, lastTs, RenderExited, q, p, sh, tu, lt, taken, true)
    {
      ShowAfterExit(sh, r, p, startTime, fps, fs);
    }

    /** An empty queue ends the pass: the get() times out and the loop polls again. */
    static lemma RenderInvEmpty(enqueued: seq<Frame>, startTime: real, fps: real, fs: int, running: bool, audioPos: real,
                            render: RenderState, queue: seq<Frame>, popped: nat, shown: seq<Shown>,
                            timeUpdates: seq<real>, lastTs: real,
                                r: RenderState, q: seq<Frame>, p: nat, sh: seq<Shown>, tu: seq<real>, lt: real, taken: seq<Frame>)
      requires RenderInv(enqueued, startTime, fps, fs, running, audioPos, render, queue, popped, shown, timeUpdates, lastTs, r, q, p, sh, tu, lt, taken, false)
      requires running && r.WaitingForFrame? && q == []
      ensures RenderInv(enqueued, startTime, fps, fs, running, audioPos, render, queue, popped, shown, timeUpdates, lastTs, r, q, p, sh, tu, lt, taken, true)
    {
    }

    /** What the invariant says once the pass has ended, or was cut while it had not. */
    static lemma RenderInvDone(enqueued: seq<Frame>, startTime: real, fps: real, fs: int, running: bool, audioPos: real,
                            render: RenderState, queue: seq<Frame>, popped: nat, shown: seq<Shown>,
                            timeUpdates: seq<real>, lastTs: real,
                               r: RenderState, q: seq<Frame>, p: nat, sh: seq<Shown>, tu: seq<real>, lt: real, taken: seq<Frame>,
                               cut: bool)
      requires RenderInv(enqueued, startTime, fps, fs, running, audioPos, render, queue, popped, shown, timeUpdates, lastTs, r, q, p, sh, tu, lt, taken, !cut)
      requires Ticked(shown, timeUpdates, lastTs, sh, tu, lt)
      ensures RenderOutcome(running, audioPos, fps, cut, render, queue, shown, timeUpdates, lastTs, r, q, sh, tu, lt)
      ensures p == popped + (|queue| - |q|)
    {
      assert queue[..|queue| - |q|] == taken;
    }

    /** One pass of the render loop's body. */
    static method RenderStep(ghost enqueued: seq<Frame>, startTime: real, fps: real, fs: int, running: bool, audioPos: real,
                             render: RenderState, queue: seq<Frame>, ghost popped: nat, shown: seq<Shown>,
                             timeUpdates: seq<real>, lastTs: real, r: RenderState, q: seq<Frame>, ghost p: nat,
                             sh: seq<Shown>, tu: seq<real>, lt: real, ghost taken: seq<Frame>)
      returns (r': RenderState, q': seq<Frame>, ghost p': nat, sh': seq<Shown>, tu': seq<real>, lt': real,
               ghost taken': seq<Frame>, done': bool)
      requires RenderInv(enqueued, startTime, fps, fs, running, audioPos, render, queue, popped, shown, timeUpdates, lastTs,
                         r, q, p, sh, tu, lt, taken, false)
      requires Ticked(shown, timeUpdates, lastTs, sh, tu, lt)
      ensures RenderInv(enqueued, startTime, fps, fs, running, audioPos, render, queue, popped, shown, timeUpdates, lastTs,
                        r', q', p', sh', tu', lt', taken', done')
      ensures Ticked(shown, timeUpdates, lastTs, sh', tu', lt')
      ensures done' || 2 * |q'| + (if r'.Pacing? then 1 else 0) < 2 * |q| + (if r.Pacing? then 1 else 0)
    {
      r', q', p', sh', tu', lt', taken', done' := r, q, p, sh, tu, lt, taken, false;
      if !running {
        RenderInvExit(enqueued, startTime, fps, fs, running, audioPos, render, queue, popped, shown, timeUpdates, lastTs,
                      r, q, p, sh, tu, lt, taken);
        r', done' := RenderExited, true;
      } else if r.Pacing? {
        r', sh', tu', lt' := PaceStep(enqueued, startTime, fps, fs, running, audioPos, render, queue, popped, shown,
                                      timeUpdates, lastTs, r, q, p, sh, tu, lt, taken);
      } else if q == [] {
        RenderInvEmpty(enqueued, startTime, fps, fs, running, audioPos, render, queue, popped, shown, timeUpdates, lastTs,
                       r, q, p, sh, tu, lt, taken);
        done' := true;
      } else if Stale(q[0].pts, audioPos, fps) {
        q', p', taken' := DropStep(enqueued, startTime, fps, fs, running, audioPos, render, queue, popped,
                                   shown, timeUpdates, lastTs, r, q, p, sh, tu, lt, taken);
      } else {
        r', q', p', taken', done' := TakeStep(enqueued, startTime, fps, fs, running, audioPos, render, queue, popped,
                                              shown, timeUpdates, lastTs, r, q, p, sh, tu, lt, taken);
      }
    }

    /**
     * The render loop over its own state, against one clock reading, for
     * at most `budget` steps: take the next frame, drop it when it is
     * stale, sleep while it is ahead of the clock, and emit it unless the
     * worker stopped meanwhile. Returns when the queue is empty (the get()
     * times out and the loop polls again), when a frame is ahead of the
     * clock, when the loop exits, or, `cut`, when the budget runs out
     * first. A budget of one step per call lets a new clock reading and a
     * stop() come between any two steps, as they can between the
     * iterations of _render_loop; a budget above twice the queue length
     * never cuts.
     */
    static method RenderSteps(ghost enqueued: seq<Frame>, startTime: real, fps: real, fs: int, running: bool, audioPos: real,
                              budget: nat, render: RenderState, queue: seq<Frame>, ghost popped: nat,
                              shown: seq<Shown>, timeUpdates: seq<real>, lastTs: real)
      returns (r: RenderState, q: seq<Frame>, ghost p: nat, sh: seq<Shown>, tu: seq<real>, lt: real, cut: bool)
      requires Pending(queue, enqueued, popped, startTime, fps, fs)
      requires ShowOk(shown, render, popped, startTime, fps, fs) && TimeOk(timeUpdates, lastTs)
      ensures RenderPass(enqueued, startTime, fps, fs, running, audioPos, cut, render, queue, popped, shown, timeUpdates, lastTs,
                         r, q, p, sh, tu, lt)
      ensures budget > 2 * |queue| + 1 ==> !cut
    {
      r, q, p, sh, tu, lt := render, queue, popped, shown, timeUpdates, lastTs;
      var done := !(r.WaitingForFrame? || r.Pacing?);
      var steps := 0;
      ghost var taken: seq<Frame> := [];
      RenderInvStart(enqueued, startTime, fps, fs, running, audioPos, render, queue, popped, shown, timeUpdates, lastTs);
      TickedNone(shown, timeUpdates, lastTs);
      while !done && steps < budget
        invariant RenderInv(enqueued, startTime, fps, fs, running, audioPos, render, queue, popped, shown, timeUpdates, lastTs,
                            r, q, p, sh, tu, lt, taken, done)
        invariant Ticked(shown, timeUpdates, lastTs, sh, tu, lt)
        invariant steps <= budget
        invariant !done ==> steps + 2 * |q| + (if r.Pacing? then 1 else 0) <= 2 * |queue| + (if render.Pacing? then 1 else 0)
        decreases budget - steps
      {
        r, q, p, sh, tu, lt, taken, done := RenderStep(enqueued, startTime, fps, fs, running, audioPos, render, queue, popped,
                                                       shown, timeUpdates, lastTs, r, q, p, sh, tu, lt, taken);
        steps := steps + 1;
      }
      cut := !done;
      RenderInvDone(enqueued, startTime, fps, fs, running, audioPos, render, queue, popped, shown, timeUpdates, lastTs,
                    r, q, p, sh, tu, lt, taken, cut);
    }

    /**
     * _render_loop, from where the render loop stands, for at most `budget`
     * steps against the current audio clock, which it returns. It stores
     * what RenderSteps computes; which frames it emitted and which time
     * updates it sent is stated there (RenderOutcome).
     */
    method RenderLoop(budget: nat) returns (pos: real, cut: bool)
      requires Valid()
      modifies this`render, this`queue, this`popped, this`shown, this`timeUpdates, this`lastTs
      ensures Valid()
      ensures pos == AudioPosition()
      ensures RenderPass(enqueued, startTime, fps, FrameSize(), running, pos, cut, old(render), old(queue), old(popped),
                         old(shown), old(timeUpdates), old(lastTs), render, queue, popped, shown, timeUpdates, lastTs)
      ensures budget > 2 * |old(queue)| + 1 ==> !cut
    {
      pos := AudioPosition();
      var r, q, sh, tu, lt;
      ghost var p;
      r, q, p, sh, tu, lt, cut := RenderSteps(enqueued, startTime, fps, FrameSize(), running, pos, budget,
                                              render, queue, popped, shown, timeUpdates, lastTs);
      StoreRendered(pos, cut, r, q, p, sh, tu, lt);
    }

    /** Stores a render pass computed from the current fields, which keeps the invariant. */
    method StoreRendered(ghost pos: real, ghost cut: bool, r: RenderState, q: seq<Frame>, ghost p: nat, sh: seq<Shown>,
                         tu: seq<real>, lt: real)
      requires Valid()
      requires RenderPass(enqueued, startTime, fps, FrameSize(), running, pos, cut, render, queue, popped, shown,
                          timeUpdates, lastTs, r, q, p, sh, tu, lt)
      modifies this`render, this`queue, this`popped, this`shown, this`timeUpdates, this`lastTs
      ensures Valid()
      ensures render == r && queue == q && popped == p && shown == sh && timeUpdates == tu && lastTs == lt
    {
      RenderKeepsWorkerOk(State(), pos, cut, r, q, p, sh, tu, lt);
      SetRendered(r, q, p, sh, tu, lt);
      RenderedValid(this);
    }

    /** The stores of the render loop. */
    method SetRendered(r: RenderState, q: seq<Frame>, ghost p: nat, sh: seq<Shown>, tu: seq<real>, lt: real)
      modifies this`render, this`queue, this`popped, this`shown, this`timeUpdates, this`lastTs
      ensures render == r && queue == q && popped == p && shown == sh && timeUpdates == tu && lastTs == lt
    {
      render, queue, popped, shown, timeUpdates, lastTs := r, q, p, sh, tu, lt;
    }
  }

  /*
   * Each operation of AVWorker computes its new fields, stores them, and
   * then relates the stored fields to the WorkerState lemmas of AvPipeline
   * with one of the two-state lemmas below.
   */

  twostate lemma StoppedValid(w: AVWorker)
    requires old(w.Valid())
    requires !w.running && w.stopEvent && w.queue == [] && w.popped == |w.enqueued|
    requires w.videoProc == Terminated(old(w.videoProc)) && w.audioProc == Terminated(old(w.audioProc))
    requires unchanged(w`width, w`height, w`fps, w`bytesPlayed, w`audioMode, w`ran, w`shown, w`timeUpdates)
    requires unchanged(w`frameIndex, w`lastTs, w`reader, w`audio, w`render, w`enqueued)
    ensures w.Valid()
  {
    StopKeepsWorkerOk(old(w.State()), w.popped);
    assert w.State() == old(w.State()).(running := false, stopEvent := true, queue := [], popped := w.popped,
                                          videoProc := w.videoProc, audioProc := w.audioProc);
  }

  twostate lemma ResolvedValid(w: AVWorker)
    requires old(w.Valid()) && !old(w.ran) && w.ran && w.fps != 0.0
    requires unchanged(w`running, w`stopEvent, w`videoProc, w`audioProc, w`queue, w`bytesPlayed, w`audioMode, w`shown)
    requires unchanged(w`timeUpdates, w`frameIndex, w`lastTs, w`reader, w`audio, w`render, w`enqueued, w`popped)
    ensures w.Valid()
  {
    ResolvedKeepsWorkerOk(old(w.State()), w.fps, w.width, w.height);
    assert w.State() == old(w.State()).(ran := true, fps := w.fps, width := w.width, height := w.height);
  }

  twostate lemma LaunchedCore(w: AVWorker)
    requires old(w.Valid()) && old(w.ran)
    requires old(w.videoProc).None? && old(w.audioProc).None?
    requires old(w.reader).ReaderIdle? && old(w.audio).AudioIdle? && old(w.render).RenderIdle?
    requires LaunchFits(w.startTime, Launch(w.videoProc, w.audioProc, w.reader, w.audio, w.render, w.audioMode))
    requires unchanged(w`width, w`height, w`fps, w`running, w`stopEvent, w`queue, w`bytesPlayed, w`ran)
    requires unchanged(w`shown, w`timeUpdates, w`frameIndex, w`lastTs, w`enqueued, w`popped)
    ensures w.Core() && (w.running ==> w.Valid())
  {
    var l := Launch(w.videoProc, w.audioProc, w.reader, w.audio, w.render, w.audioMode);
    LaunchKeepsCoreOk(old(w.State()), l);
    assert w.State() == old(w.State()).(videoProc := l.videoProc, audioProc := l.audioProc, reader := l.reader,
                                          audio := l.audio, render := l.render, audioMode := l.audioMode);
  }

  twostate lemma ReadValid(w: AVWorker)
    requires old(w.Valid())
    requires QueueOk(w.queue, w.enqueued, w.popped, w.frameIndex, w.reader, w.startTime, w.fps, w.FrameSize())
    requires old(w.reader).ReaderIdle? ==> w.reader == old(w.reader)
    requires !old(w.reader).ReaderIdle? ==> !w.reader.ReaderIdle?
    requires !w.running ==> w.queue == old(w.queue)
    requires unchanged(w`width, w`height, w`fps, w`running, w`stopEvent, w`videoProc, w`audioProc, w`bytesPlayed)
    requires unchanged(w`audioMode, w`ran, w`shown, w`timeUpdates, w`lastTs, w`audio, w`render, w`popped)
    ensures w.Valid()
  {
    ReadKeepsWorkerOk(old(w.State()), w.reader, w.queue, w.frameIndex, w.enqueued);
    assert w.State() == old(w.State()).(reader := w.reader, queue := w.queue, frameIndex := w.frameIndex,
                                          enqueued := w.enqueued);
  }

  twostate lemma PlayedValid(w: AVWorker)
    requires old(w.Valid())
    requires !old(w.audio).AudioReadBlocked? ==> w.audio == old(w.audio) && w.bytesPlayed == old(w.bytesPlayed)
    requires old(w.audio).AudioReadBlocked? ==> w.audio.AudioReadBlocked? || w.audio.AudioExited?
    requires unchanged(w`width, w`height, w`fps, w`running, w`stopEvent, w`videoProc, w`audioProc, w`queue)
    requires unchanged(w`audioMode, w`ran, w`shown, w`timeUpdates, w`frameIndex, w`lastTs, w`reader, w`render)
    requires unchanged(w`enqueued, w`popped)
    ensures w.Valid()
  {
    AudioKeepsWorkerOk(old(w.State()), w.audio, w.bytesPlayed);
    assert w.State() == old(w.State()).(audio := w.audio, bytesPlayed := w.bytesPlayed);
  }

  twostate lemma RenderedValid(w: AVWorker)
    requires WorkerOk(old(w.State()).(render := w.render, queue := w.queue, popped := w.popped, shown := w.shown,
                                      timeUpdates := w.timeUpdates, lastTs := w.lastTs))
    requires unchanged(w`width, w`height, w`fps, w`running, w`stopEvent, w`videoProc, w`audioProc, w`bytesPlayed)
    requires unchanged(w`audioMode, w`ran, w`frameIndex, w`reader, w`audio, w`enqueued)
    ensures w.Valid()
  {
    assert w.State() == old(w.State()).(render := w.render, queue := w.queue, popped := w.popped, shown := w.shown,
                                          timeUpdates := w.timeUpdates, lastTs := w.lastTs);
  }

  /**
   * A stop() that lands while _resolve_url runs leaves both decoders of the
   * as-written _run_inner alive after the worker has stopped, whenever the
   * resolution succeeds and both decoders start.
   */
  method StopDuringResolveAsWritten(url: string, startTime: real, probe: ProbeOutput, pyaudioAvailable: bool, deviceOpens: bool)
    returns (running: bool, videoAlive: bool, audioAlive: bool)
    requires ResolveUrl(probe).url.Some?
    ensures !running && videoAlive && audioAlive
  {
    var w := new AVWorker(url, startTime);
    w.Stop();
    w.RunInnerAsWritten(probe, true, true, pyaudioAvailable, deviceOpens);
    running := w.running;
    videoAlive := w.videoProc.Some? && !w.videoProc.value.terminated;
    audioAlive := w.audioProc.Some? && !w.audioProc.value.terminated;
  }

  /** With the check in RunInner, a stop() during resolution spawns nothing, whatever the probe and the spawns. */
  method StopDuringResolve(url: string, startTime: real, probe: ProbeOutput,
                           videoSpawns: bool, audioSpawns: bool, pyaudioAvailable: bool, deviceOpens: bool)
    returns (running: bool, spawned: bool)
    ensures !running && !spawned
  {
    var w := new AVWorker(url, startTime);
    w.Stop();
    w.RunInner(probe, videoSpawns, audioSpawns, pyaudioAvailable, deviceOpens);
    running := w.running;
    spawned := w.videoProc.Some? || w.audioProc.Some?;
  }
}

=== FILE: cache_manager.dfy ===
/**
 * core/cache_manager.py: the thumbnail cache. Each URL is cached in its
 * own file, named by a digest of the URL. A URL has at most one download
 * scheduled, and it is pending exactly while that download is scheduled.
 * The file system is a map from paths to contents. The digest (MD5 in
 * the source) is a parameter. The HTTP client is left out; a download's
 * outcome is a parameter of the step that runs it.
 */
module CacheManagement {
  import opened Text

  /** The request headers _headers_for sets. */
  datatype Header = UserAgent | Referer | Origin | Accept

  const BrowserAgent: string :=
    "Mozilla/5.0 (Windows NT 10.0; Win64; x64) AppleWebKit/537.36 (KHTML, like Gecko) Chrome/122.0.0.0 Safari/537.36"
  const YouTube: string := "https://www.youtube.com"

  /** Whether a URL names one of Google's image hosts. */
  predicate GoogleImageHost(url: string)
  {
    Contains(url, "googleusercontent.com") || Contains(url, "ggpht.com")
  }

  /**
   * _headers_for: Google's image hosts get a browser User-Agent, a
   * YouTube Referer and Origin and an image Accept list; every other URL
   * only the plain User-Agent.
   */
  function HeadersFor(url: string): (r: map<Header, string>)
    ensures UserAgent in r
    ensures Referer in r <==> GoogleImageHost(url)
    ensures GoogleImageHost(url) ==>
              r.Keys == {UserAgent, Referer, Origin, Accept} && r[UserAgent] == BrowserAgent
              && r[Referer] == YouTube + "/" && r[Origin] == YouTube
    ensures !GoogleImageHost(url) ==> r == map[UserAgent := "Mozilla/5.0"]
  {
    if GoogleImageHost(url) then
      map[UserAgent := BrowserAgent,
          Referer := YouTube + "/",
          Origin := YouTube,
          Accept := "image/avif,image/webp,image/apng,image/*,*/*;q=0.8"]
    else
      map[UserAgent := "Mozilla/5.0"]
  }

  /** Any URL with a Google image host somewhere in it gets the YouTube Referer. */
  lemma GoogleHostsGetReferer(before: string, after: string)
    ensures Referer in HeadersFor(before + "googleusercontent.com" + after)
    ensures Referer in HeadersFor(before + "ggpht.com" + after)
  {
    var host1, host2 := "googleusercontent.com", "ggpht.com";
    var u1, u2 := before + host1 + after, before + host2 + after;
    assert u1[|before|..|before| + |host1|] == host1;
    ContainsAt(u1, host1, |before|);
    assert u2[|before|..|before| + |host2|] == host2;
    ContainsAt(u2, host2, |before|);
  }

  /** How a download ended: the GET failed (network or HTTP status), writing the temporary file failed part way, replacing the cache file with it failed, or it completed. */
  datatype DownloadOutcome = FetchFailed | WriteFailed(partial: seq<bv8>) | ReplaceFailed(content: seq<bv8>) | Fetched(content: seq<bv8>)

  class CacheManager {
    const cacheDir: string
    /** The file name a URL is cached under (the hex MD5 digest of its bytes in the source). */
    const nameOf: string -> string

    // Files in the cache directory, by path.
    var files: map<string, seq<bv8>>
    // URLs being downloaded.
    var pending: set<string>
    // The download tasks created and not yet finished, by URL.
    var scheduled: multiset<string>
    // image_ready emissions, in order.
    var imageReady: seq<string>

    /** _path */
    function PathOf(url: string): string
    {
      PathJoin(cacheDir, nameOf(url) + ".jpg")
    }

    /** The temporary file a download writes before moving it into place. */
    function TmpOf(url: string): string
    {
      PathOf(url) + ".tmp"
    }

    /** A URL is pending exactly while its one download task is scheduled; the empty URL never is. */
    ghost predicate Valid()
      reads this`pending, this`scheduled
    {
      && (forall u :: scheduled[u] == if u in pending then 1 else 0)
      && "" !in pending
    }

    /** CacheManager.__init__: the cache directory is removed and created again, empty. */
    constructor (cacheDir: string, nameOf: string -> string)
      ensures Valid()
      ensures this.cacheDir == cacheDir && this.nameOf == nameOf
      ensures files == map[] && pending == {} && scheduled == multiset{} && imageReady == []
    {
      this.cacheDir, this.nameOf := cacheDir, nameOf;
      files, pending, scheduled, imageReady := map[], {}, multiset{}, [];
    }

    /**
     * request_download: nothing for the empty URL, a URL already pending
     * or one whose file is cached; otherwise the URL becomes pending and a
     * download task is created, unless no event loop runs, in which case
     * the URL is dropped from pending again.
     */
    method RequestDownload(url: string, loopRunning: bool)
      requires Valid()
      modifies this`pending, this`scheduled
      ensures Valid() && scheduled[url] <= 1
      ensures url == "" || url in old(pending) || PathOf(url) in files || !loopRunning ==>
                pending == old(pending) && scheduled == old(scheduled)
      ensures url != "" && url !in old(pending) && PathOf(url) !in files && loopRunning ==>
                pending == old(pending) + {url} && scheduled == old(scheduled) + multiset{url}
    {
      if url == "" || url in pending {
        return;
      }
      if PathOf(url) in files {
        return;
      }
      pending := pending + {url};
      if loopRunning {
        scheduled := scheduled + multiset{url};
      } else {
        pending := pending - {url};
      }
    }

    /**
     * The event loop runs the download task of `url` (_download): the
     * file is written to a temporary path and moved into place, and only
     * then is image_ready emitted; whatever happens, the URL stops being
     * pending.
     */
    method RunDownload(url: string, outcome: DownloadOutcome)
      requires Valid() && url in scheduled
      modifies this`pending, this`scheduled, this`files, this`imageReady
      ensures Valid()
      ensures pending == old(pending) - {url} && scheduled == old(scheduled) - multiset{url}
      ensures outcome.FetchFailed? ==> files == old(files)
      ensures outcome.WriteFailed? ==> files == old(files)[TmpOf(url) := outcome.partial]
      ensures outcome.ReplaceFailed? ==> files == old(files)[TmpOf(url) := outcome.content]
      ensures outcome.Fetched? ==>
                && PathOf(url) in files && files[PathOf(url)] == outcome.content && TmpOf(url) !in files
                && files == (old(files) - {TmpOf(url)})[PathOf(url) := outcome.content]
      ensures imageReady == old(imageReady) + (if outcome.Fetched? then [url] else [])
    {
      Download(url, outcome);
      Finish(url);
    }

    /** The body of _download's try block: the temporary file is written, moved into place, and image_ready emitted. */
    method Download(url: string, outcome: DownloadOutcome)
      modifies this`files, this`imageReady
      ensures outcome.FetchFailed? ==> files == old(files)
      ensures outcome.WriteFailed? ==> files == old(files)[TmpOf(url) := outcome.partial]
      ensures outcome.ReplaceFailed? ==> files == old(files)[TmpOf(url) := outcome.content]
      ensures outcome.Fetched? ==>
                && PathOf(url) in files && files[PathOf(url)] == outcome.content && TmpOf(url) !in files
                && files == (old(files) - {TmpOf(url)})[PathOf(url) := outcome.content]
      ensures imageReady == old(imageReady) + (if outcome.Fetched? then [url] else [])
    {
      var path, tmp := PathOf(url), TmpOf(url);
      match outcome {
        case FetchFailed =>
        case WriteFailed(partial) =>
          files := files[tmp := partial];
        case ReplaceFailed(content) =>
          files := files[tmp := content];
        case Fetched(content) =>
          TmpIsNotCacheFile(this, url, url);
          MoveIntoPlace(files, tmp, path, content);
          files := files[tmp := content];
          files := (files - {tmp})[path := files[tmp]];
          imageReady := imageReady + [url];
      }
    }

    /** _download's finally clause: the URL stops being pending, and its task ends. */
    method Finish(url: string)
      requires Valid() && url in scheduled
      modifies this`pending, this`scheduled
      ensures Valid()
      ensures pending == old(pending) - {url} && scheduled == old(scheduled) - multiset{url}
    {
      pending := pending - {url};
      scheduled := scheduled - multiset{url};
    }

    /**
     * get_image_sync: no image for the empty URL; otherwise the cached
     * file's contents when it exists and decodes as an image.
     */
    function GetImageSync(url: string, decodes: seq<bv8> -> bool): (r: Option<seq<bv8>>)
      reads this
      ensures url == "" ==> r.None?
      ensures r.Some? <==> url != "" && PathOf(url) in files && decodes(files[PathOf(url)])
      ensures r.Some? ==> r.value == files[PathOf(url)]
    {
      if url == "" then None
      else if PathOf(url) in files && decodes(files[PathOf(url)]) then Some(files[PathOf(url)])
      else None
    }
  }

  /**
   * A URL's cache file is its digest name with `.jpg`, inside the cache
   * directory unless that name is absolute; its temporary file is the
   * same path with `.tmp` added.
   */
  lemma CacheFileNames(c: CacheManager, url: string)
    ensures EndsWith(c.PathOf(url), c.nameOf(url) + ".jpg")
    ensures !StartsWith(c.nameOf(url) + ".jpg", "/") ==>
              StartsWith(c.PathOf(url), c.cacheDir) && InDir(c.PathOf(url), c.cacheDir, c.nameOf(url) + ".jpg")
    ensures EndsWith(c.TmpOf(url), ".jpg.tmp") && c.TmpOf(url)[..|c.TmpOf(url)| - 4] == c.PathOf(url)
  {
    CacheNameParts(c.cacheDir, c.nameOf(url) + ".jpg");
  }

  /** The same, for a directory and a file name ending in `.jpg`. */
  lemma CacheNameParts(dir: string, n: string)
    requires EndsWith(n, ".jpg")
    ensures var p := PathJoin(dir, n);
            && EndsWith(p, n)
            && (!StartsWith(n, "/") ==> StartsWith(p, dir) && InDir(p, dir, n))
            && EndsWith(p + ".tmp", ".jpg.tmp") && (p + ".tmp")[..|p + ".tmp"| - 4] == p
  {
    var p := PathJoin(dir, n);
    assert EndsWith(p, ".jpg") by {
      assert p[|p| - |n|..] == n;
      assert p[|p| - 4..] == n[|n| - 4..];
    }
    TmpSuffix(p);
  }

  /** Adding `.tmp` to a `.jpg` path ends it in `.jpg.tmp`, and taking it off again gives the path back. */
  lemma TmpSuffix(p: string)
    requires EndsWith(p, ".jpg")
    ensures EndsWith(p + ".tmp", ".jpg.tmp") && (p + ".tmp")[..|p + ".tmp"| - 4] == p
  {
    var t := p + ".tmp";
    assert t[|t| - 8..] == p[|p| - 4..] + ".tmp";
    assert t[..|t| - 4] == p;
  }

  /** Writing a file and then moving it to another path leaves only the moved file, with the contents written. */
  lemma MoveIntoPlace(files: map<string, seq<bv8>>, tmp: string, path: string, content: seq<bv8>)
    requires tmp != path
    ensures var after := (files[tmp := content] - {tmp})[path := files[tmp := content][tmp]];
            && after == (files - {tmp})[path := content]
            && path in after && after[path] == content && tmp !in after
  {
    var after := (files[tmp := content] - {tmp})[path := content];
    assert after == (files - {tmp})[path := content];
  }

  /** A temporary file never has the name of a cache file, so moving one into place cannot clobber another URL's image. */
  lemma TmpIsNotCacheFile(c: CacheManager, u: string, v: string)
    ensures c.TmpOf(u) != c.PathOf(v)
  {
    var t, p, n := c.TmpOf(u), c.PathOf(v), c.nameOf(v) + ".jpg";
    assert t[|t| - 4..] == ".tmp";
    assert p[|p| - |n|..] == n;
    assert p[|p| - 4..] == n[|n| - 4..] == ".jpg";
  }
}

=== FILE: invidious.dfy ===
/**
 * The result handling of plugins/invidious_plugin.py: what _run_flat
 * returns for each outcome of the yt-dlp run, how _parse_entry turns a
 * flat-playlist entry into a result dictionary, and the channel filter of
 * search. The yt-dlp process itself is not part of this model: its
 * outcome is a parameter.
 */
module InvidiousSearch {
  import opened Text

  /** The keys of a flat-playlist entry that _parse_entry reads. */
  datatype RawEntry = RawEntry(id: Field<string>, title: Field<string>, uploader: Field<string>,
                               channel: Field<string>, duration: Field<real>, thumbnail: Field<string>)

  /** The dictionary _parse_entry builds; a key present with null gives None. */
  datatype VideoItem = VideoItem(id: Option<string>, title: Option<string>, channel: string,
                                 duration: string, thumbnail: Option<string>)

  /** `int(e.get("duration") or 0)`: a missing or null duration counts as 0. */
  function DurationSeconds(d: Field<real>): int
  {
    if d.Val? then Trunc(d.value) else 0
  }

  /** The duration text: `h:mm:ss` when the hour count is not zero, else `m:ss`. */
  function DurationText(t: int): string
  {
    var r := Hms(t);
    ClockText(r.0, r.1, r.2)
  }

  /** The text of an hours, minutes, seconds split. */
  function ClockText(h: int, m: int, s: int): string
  {
    if h != 0 then IntToString(h) + ":" + Pad2(m) + ":" + Pad2(s) else IntToString(m) + ":" + Pad2(s)
  }

  /** Reads a duration text back as seconds: what comes before the last colon in minutes, then two seconds digits. */
  function ParseDuration(text: string): Option<int>
  {
    if |text| < 4 || text[|text| - 3] != ':' || !AllDigits(text[|text| - 2..]) then None
    else
      match ParseMinutes(text[..|text| - 3])
      case None => None
      case Some(mins) => Some(mins * 60 + ParseNat(text[|text| - 2..]))
  }

  /** The part before the seconds, in minutes: a number of minutes, or hours and two minutes digits. */
  function ParseMinutes(head: string): Option<int>
  {
    if head != [] && AllDigits(head) then Some(ParseNat(head))
    else if |head| >= 4 && head[|head| - 3] == ':' && AllDigits(head[|head| - 2..])
            && head[..|head| - 3] != [] && AllDigits(head[..|head| - 3]) then
      Some(ParseNat(head[..|head| - 3]) * 60 + ParseNat(head[|head| - 2..]))
    else None
  }

  /** A non-empty run of digits is not a run of digits once a colon is in it. */
  lemma NotAllDigitsWithColon(a: string, b: string)
    ensures !AllDigits(a + ":" + b)
  {
    assert (a + ":" + b)[|a|] == ':';
  }

  /** The two sides of a colon put between two strings. */
  lemma ColonSplit(a: string, b: string)
    ensures |a + ":" + b| == |a| + 1 + |b|
    ensures (a + ":" + b)[..|a|] == a && (a + ":" + b)[|a|] == ':' && (a + ":" + b)[|a| + 1..] == b
  {
  }

  /** The last colon splits off the seconds. */
  lemma ParseLastColon(head: string, ss: string)
    requires head != [] && |ss| == 2 && AllDigits(ss)
    ensures ParseDuration(head + ":" + ss)
            == match ParseMinutes(head) case None => None case Some(mins) => Some(mins * 60 + ParseNat(ss))
  {
    ColonSplit(head, ss);
  }

  /** Hours, a colon and two minutes digits, in minutes. */
  lemma ParseHoursColon(hs: string, ms: string)
    requires hs != [] && AllDigits(hs) && |ms| == 2 && AllDigits(ms)
    ensures ParseMinutes(hs + ":" + ms) == Some(ParseNat(hs) * 60 + ParseNat(ms))
  {
    ColonSplit(hs, ms);
    NotAllDigitsWithColon(hs, ms);
  }

  /**
   * Every non-negative duration text reads back as its number of seconds;
   * it is `m:ss`, with no colon before the seconds' one, exactly below an
   * hour, and no duration is `0:00` but zero.
   */
  lemma {:induction false} DurationRoundTrip(t: nat)
    ensures ParseDuration(DurationText(t)) == Some(t)
    ensures |DurationText(t)| >= 4
    ensures t < 3600 <==> AllDigits(DurationText(t)[..|DurationText(t)| - 3])
    ensures DurationText(t) == "0:00" <==> t == 0
  {
    DurationReadsBack(t);
    DurationForm(t);
    ZeroDuration();
  }

  /** The seconds a duration text stands for. */
  lemma {:induction false} DurationReadsBack(t: nat)
    ensures ParseDuration(DurationText(t)) == Some(t)
  {
    var r := Hms(t);
    assert DurationText(t) == ClockText(r.0, r.1, r.2);
    ClockTextRoundTrip(r.0, r.1, r.2);
  }

  /** A duration text has a colon before its seconds' one exactly from an hour on. */
  lemma {:induction false} DurationForm(t: nat)
    ensures |DurationText(t)| >= 4 && (t < 3600 <==> AllDigits(DurationText(t)[..|DurationText(t)| - 3]))
  {
    var r := Hms(t);
    ClockTextForm(r.0, r.1, r.2);
    assert 0 <= r.1 * 60 + r.2 < 3600;
  }

  /** Zero seconds is written `0:00`, and `0:00` reads back as zero. */
  lemma ZeroDuration()
    ensures DurationText(0) == "0:00" && ParseDuration("0:00") == Some(0)
  {
    assert Hms(0) == (0, 0, 0);
    assert NatToString(0) == "0";
    var z := "0:00";
    assert z[..|z| - 3] == "0" && z[|z| - 2..] == "00";
    assert ParseNat("0") == 0 && ParseNat("00") == 0;
  }

  /** The seconds follow the last colon; what precedes it is a run of digits exactly when there are no hours. */
  lemma ClockTextForm(h: nat, m: int, s: int)
    requires 0 <= m < 60 && 0 <= s < 60
    ensures var c := ClockText(h, m, s);
            |c| >= 4 && (h == 0 <==> AllDigits(c[..|c| - 3]))
  {
    var head := if h != 0 then NatToString(h) + ":" + Pad2(m) else NatToString(m);
    assert ClockText(h, m, s) == head + ":" + Pad2(s);
    SecondsSplit(head, Pad2(s));
    if h != 0 {
      NotAllDigitsWithColon(NatToString(h), Pad2(m));
    }
  }

  /** Dropping a colon and two seconds digits leaves what came before them. */
  lemma SecondsSplit(head: string, ss: string)
    requires |ss| == 2
    ensures var c := head + ":" + ss;
            |c| == |head| + 3 && c[..|c| - 3] == head
  {
    ColonSplit(head, ss);
  }

  /** A split with minutes and seconds below 60 reads back as its seconds. */
  lemma {:induction false} ClockTextRoundTrip(h: nat, m: int, s: int)
    requires 0 <= m < 60 && 0 <= s < 60
    ensures ParseDuration(ClockText(h, m, s)) == Some(h * 3600 + m * 60 + s)
  {
    if h != 0 {
      HoursRoundTrip(h, m, s);
    } else {
      MinutesRoundTrip(m, s);
    }
  }

  /** The `h:mm:ss` shape reads back. */
  lemma {:induction false} HoursRoundTrip(h: nat, m: int, s: int)
    requires 0 <= m < 60 && 0 <= s < 60
    ensures ParseDuration(NatToString(h) + ":" + Pad2(m) + ":" + Pad2(s)) == Some(h * 3600 + m * 60 + s)
  {
    ParseNatToString(h);
    ParseHms(NatToString(h), Pad2(m), Pad2(s));
    assert (h * 60 + m) * 60 + s == h * 3600 + m * 60 + s;
  }

  /** Three runs of digits joined by colons, the last two of two digits each, read as hours, minutes and seconds. */
  lemma {:induction false} ParseHms(hs: string, ms: string, ss: string)
    requires hs != [] && AllDigits(hs) && |ms| == 2 && AllDigits(ms) && |ss| == 2 && AllDigits(ss)
    ensures ParseDuration(hs + ":" + ms + ":" + ss) == Some((ParseNat(hs) * 60 + ParseNat(ms)) * 60 + ParseNat(ss))
  {
    ParseHoursColon(hs, ms);
    ParseLastColon(hs + ":" + ms, ss);
  }

  /** The `m:ss` shape reads back. */
  lemma {:induction false} MinutesRoundTrip(m: nat, s: int)
    requires 0 <= s < 60
    ensures ParseDuration(NatToString(m) + ":" + Pad2(s)) == Some(m * 60 + s)
  {
    var ms, ss := NatToString(m), Pad2(s);
    ParseNatToString(m);
    assert ParseMinutes(ms) == Some(m) && ParseNat(ss) == s;
    ParseLastColon(ms, ss);
  }

  /** `uploader or channel or "Unknown"`. */
  function ChannelOf(e: RawEntry): (r: string)
    ensures r != ""
    ensures Truthy(e.uploader) ==> r == e.uploader.value
    ensures !Truthy(e.uploader) && Truthy(e.channel) ==> r == e.channel.value
    ensures !Truthy(e.uploader) && !Truthy(e.channel) ==> r == "Unknown"
  {
    if Truthy(e.uploader) then e.uploader.value else if Truthy(e.channel) then e.channel.value else "Unknown"
  }

  /** _parse_entry */
  function ParseEntry(e: RawEntry): (r: VideoItem)
    ensures r.channel != ""
    ensures Truthy(e.uploader) ==> r.channel == e.uploader.value
    ensures !Truthy(e.uploader) && Truthy(e.channel) ==> r.channel == e.channel.value
  {
    VideoItem(GetOr(e.id, ""), GetOr(e.title, "No Title"), ChannelOf(e),
              DurationText(DurationSeconds(e.duration)), GetOr(e.thumbnail, ""))
  }

  /** The duration text of a parsed entry reads back as the entry's whole seconds. */
  lemma ParseEntryDuration(e: RawEntry)
    requires e.duration.Val? ==> e.duration.value >= 0.0
    ensures ParseDuration(ParseEntry(e).duration) == Some(DurationSeconds(e.duration))
  {
    DurationRoundTrip(DurationSeconds(e.duration));
  }

  /** The defaults _parse_entry falls back on. */
  lemma ParseEntryDefaults(e: RawEntry)
    ensures e.id.Missing? ==> ParseEntry(e).id == Some("")
    ensures e.title.Missing? ==> ParseEntry(e).title == Some("No Title")
    ensures e.thumbnail.Missing? ==> ParseEntry(e).thumbnail == Some("")
    ensures !e.duration.Val? ==> ParseEntry(e).duration == "0:00"
    ensures !Truthy(e.uploader) && !Truthy(e.channel) ==> ParseEntry(e).channel == "Unknown"
    ensures e.id.Val? ==> ParseEntry(e).id == Some(e.id.value)
  {
  }

  /**
   * What the yt-dlp run gave _run_flat: the executable could not be
   * started (create_subprocess_exec raises, uncaught), nothing within 30
   * seconds, output that is not JSON, JSON whose top level is not an
   * object (so `.get` raises AttributeError), or an object.
   */
  datatype FlatRun = SpawnFailed | TimedOut | NotJson | NotObject | Object(entries: Field<seq<RawEntry>>)

  /** The entry list _run_flat returns, or the exception it lets through. */
  function FlatEntries(run: FlatRun): (r: Result<seq<RawEntry>>)
    ensures r.Failure? <==> run.SpawnFailed?
    ensures r.Ok? && r.value != [] ==> run.Object? && run.entries == Val(r.value)
    ensures run.Object? && run.entries.Val? ==> r == Ok(run.entries.value)
  {
    if run.SpawnFailed? then Failure("FileNotFoundError")
    else if run.Object? && run.entries.Val? then Ok(run.entries.value)
    else Ok([])
  }

  /** The argument list _run_flat passes to yt-dlp for a target. */
  function FlatCommand(target: string): (cmd: seq<string>)
    ensures |cmd| == 6 && cmd[0] == "yt-dlp" && cmd[5] == target
  {
    ["yt-dlp", "--dump-single-json", "--flat-playlist", "--no-warnings", "--quiet", target]
  }

  const SearchPrefix: string := "ytsearch20:"

  /** The yt-dlp target of a search: the first twenty search results for the query. */
  function SearchTarget(query: string): (r: string)
    ensures StartsWith(r, SearchPrefix) && r[|SearchPrefix|..] == query
  {
    SearchPrefix + query
  }

  /** An entry that is a channel, not a video: its id starts with "UC". */
  predicate IsChannel(e: RawEntry)
  {
    e.id.Val? && StartsWith(e.id.value, "UC")
  }

  /**
   * The comprehension of search, in order: an entry whose id is null makes
   * `.startswith` raise AttributeError, which search does not catch;
   * otherwise channel entries are skipped and the others parsed.
   */
  function KeepVideos(entries: seq<RawEntry>): (r: Result<seq<VideoItem>>)
    ensures r.Ok? <==> forall i :: 0 <= i < |entries| ==> !entries[i].id.Null?
    ensures r.Ok? ==> |r.value| <= |entries|
    ensures r.Ok? ==> forall k :: 0 <= k < |r.value| ==> r.value[k].id.Some? && !StartsWith(r.value[k].id.value, "UC")
    decreases |entries|
  {
    if entries == [] then Ok([])
    else if entries[0].id.Null? then Failure("AttributeError")
    else
      var rest := KeepVideos(entries[1..]);
      if rest.Failure? then rest
      else if IsChannel(entries[0]) then rest
      else Ok([ParseEntry(entries[0])] + rest.value)
  }

  /** The filter works entry by entry: filtering a concatenation concatenates the results. */
  lemma {:induction false} KeepVideosAppend(a: seq<RawEntry>, b: seq<RawEntry>)
    ensures KeepVideos(a + b).Ok? <==> KeepVideos(a).Ok? && KeepVideos(b).Ok?
    ensures KeepVideos(a + b).Ok? ==> KeepVideos(a + b).value == KeepVideos(a).value + KeepVideos(b).value
    decreases |a|
  {
    if a == [] {
      assert a + b == b;
    } else {
      assert (a + b)[1..] == a[1..] + b;
      KeepVideosAppend(a[1..], b);
      if KeepVideos(a + b).Ok? {
        var x, y := KeepVideos(a[1..]).value, KeepVideos(b).value;
        if !IsChannel(a[0]) {
          assert [ParseEntry(a[0])] + (x + y) == ([ParseEntry(a[0])] + x) + y;
        }
      }
    }
  }

  /** One entry on its own: a video is parsed, a channel is skipped, a null id raises. */
  lemma KeepVideosSingle(e: RawEntry)
    ensures e.id.Null? ==> KeepVideos([e]).Failure?
    ensures !e.id.Null? && IsChannel(e) ==> KeepVideos([e]) == Ok([])
    ensures !e.id.Null? && !IsChannel(e) ==> KeepVideos([e]) == Ok([ParseEntry(e)])
  {
    assert [e][1..] == [];
    assert [ParseEntry(e)] + [] == [ParseEntry(e)];
  }

  /** Every entry parsed, in order. */
  function ParseAll(entries: seq<RawEntry>): (r: seq<VideoItem>)
    ensures |r| == |entries| && forall i :: 0 <= i < |entries| ==> r[i] == ParseEntry(entries[i])
  {
    seq(|entries|, i requires 0 <= i < |entries| => ParseEntry(entries[i]))
  }

  /** Without channels, every entry is parsed, in order. */
  lemma {:induction false} KeepVideosNoChannels(entries: seq<RawEntry>)
    requires forall i :: 0 <= i < |entries| ==> !entries[i].id.Null? && !IsChannel(entries[i])
    ensures KeepVideos(entries) == Ok(ParseAll(entries))
    decreases |entries|
  {
    if entries != [] {
      var rest := entries[1..];
      assert forall i :: 0 <= i < |rest| ==> rest[i] == entries[i + 1];
      KeepVideosNoChannels(rest);
      assert [ParseEntry(entries[0])] + ParseAll(rest) == ParseAll(entries);
    }
  }

  /** What a search asked yt-dlp for, and what it returned or raised. */
  datatype SearchOutcome = SearchOutcome(command: seq<string>, results: Result<seq<VideoItem>>)

  /**
   * search: the flat entries of `ytsearch20:<query>`, channels filtered
   * out; an exception from _run_flat or from the filter propagates.
   */
  function Search(query: string, run: FlatRun): (r: SearchOutcome)
    ensures |r.command| == 6 && StartsWith(r.command[5], SearchPrefix) && r.command[5][|SearchPrefix|..] == query
    ensures run.SpawnFailed? ==> r.results.Failure?
    ensures !run.SpawnFailed? ==> r.results == KeepVideos(FlatEntries(run).value)
    ensures run.TimedOut? || run.NotJson? || run.NotObject? ==> r.results == Ok([])
    ensures r.results.Ok? && r.results.value != [] ==> run.Object? && run.entries.Val?
  {
    var results := match FlatEntries(run)
      case Failure(e) => Failure(e)
      case Ok(entries) => KeepVideos(entries);
    SearchOutcome(FlatCommand(SearchTarget(query)), results)
  }

  /** get_trending: the search for "trending today". */
  function GetTrending(run: FlatRun): (r: SearchOutcome)
    ensures |r.command| == 6 && r.command[5] == "ytsearch20:trending today"
    ensures run.SpawnFailed? ==> r.results.Failure?
    ensures !run.SpawnFailed? ==> r.results == KeepVideos(FlatEntries(run).value)
  {
    Search("trending today", run)
  }
}

=== FILE: plugin_manager.dfy ===
/**
 * core/plugin_manager.py: plugins are the classes, other than BasePlugin
 * itself, that derive from BasePlugin in the Python files of the plugin
 * folder. One instance of each is registered under the name it reports,
 * and one registered plugin can be made the active one.
 *
 * The folder listing and what importing a file yields (the members of
 * the module, in `inspect.getmembers` order, or an exception) are
 * parameters.
 */
module Plugins {
  import opened Text

  /** What `inspect.getmembers` finds under a name in an imported module. */
  datatype Kind = NotAClass | BaseClass | OtherClass | PluginClass(pluginName: string)
  datatype Member = Member(memberName: string, kind: Kind)

  /** An instance of a plugin class: the module and class it came from and the name it reports. */
  datatype Plugin = Plugin(moduleName: string, className: string, name: string)

  /** load_plugins' filter: Python files whose names do not start with two underscores. */
  predicate IsPluginFile(filename: string)
    ensures IsPluginFile(filename) ==> |filename| >= 3 && ModuleName(filename) + ".py" == filename
  {
    EndsWith(filename, ".py") && !StartsWith(filename, "__")
  }

  /** `filename[:-3]`: the file name without its last three characters. */
  function ModuleName(filename: string): (r: string)
    ensures EndsWith(filename, ".py") ==> r + ".py" == filename
    ensures |filename| < 3 ==> r == ""
  {
    if |filename| >= 3 then filename[..|filename| - 3] else ""
  }

  /** A file named after a module gives that module's name back. */
  lemma ModuleNameRoundTrip(m: string)
    ensures IsPluginFile(m + ".py") <==> !StartsWith(m + ".py", "__")
    ensures ModuleName(m + ".py") == m
  {
    assert (m + ".py")[|m + ".py"| - 3..] == ".py";
    assert (m + ".py")[..|m|] == m;
  }

  /** The registry after `_load_file`'s loop over `members`: each plugin class's instance is stored under its name, later ones overwriting earlier ones. */
  function Register(registry: map<string, Plugin>, moduleName: string, members: seq<Member>): (r: map<string, Plugin>)
    ensures registry.Keys <= r.Keys
    ensures forall k :: k in registry && Unreported(members, k) ==> k in r && r[k] == registry[k]
  {
    if members == [] then registry
    else
      var before := Register(registry, moduleName, members[..|members| - 1]);
      var m := members[|members| - 1];
      if m.kind.PluginClass? then before[m.kind.pluginName := Plugin(moduleName, m.memberName, m.kind.pluginName)] else before
  }

  /** No member of the module is a plugin class reporting `k`. */
  predicate Unreported(members: seq<Member>, k: string)
  {
    forall i :: 0 <= i < |members| ==> members[i].kind != PluginClass(k)
  }

  /** A name is registered by a module only if one of its members is a plugin class reporting that name; nothing is removed. */
  lemma {:induction false} RegisterOnlyPlugins(registry: map<string, Plugin>, moduleName: string, members: seq<Member>, k: string)
    ensures registry.Keys <= Register(registry, moduleName, members).Keys
    ensures k in Register(registry, moduleName, members) && k !in registry ==>
              exists i :: 0 <= i < |members| && members[i].kind == PluginClass(k)
  {
    if members != [] {
      var init := members[..|members| - 1];
      RegisterOnlyPlugins(registry, moduleName, init, k);
      if k in Register(registry, moduleName, init) && k !in registry {
        var i :| 0 <= i < |init| && init[i].kind == PluginClass(k);
        assert members[i] == init[i];
      }
    }
  }

  /** The last plugin class of a module reporting a name is the one registered under it. */
  lemma {:induction false} RegisterLastWins(registry: map<string, Plugin>, moduleName: string, members: seq<Member>, i: nat)
    requires i < |members| && members[i].kind.PluginClass?
    requires forall j :: i < j < |members| ==> members[j].kind != members[i].kind
    ensures var k := members[i].kind.pluginName;
            k in Register(registry, moduleName, members)
            && Register(registry, moduleName, members)[k] == Plugin(moduleName, members[i].memberName, k)
  {
    if i < |members| - 1 {
      var init := members[..|members| - 1];
      assert init[i] == members[i];
      assert forall j :: i < j < |init| ==> init[j] == members[j];
      RegisterLastWins(registry, moduleName, init, i);
    }
  }

  /** What a load has done: the registry it left, and whether an import raised, which ends the load there. */
  datatype Loading = Loading(registry: map<string, Plugin>, raised: bool)

  /** Some plugin file of the listing raises when imported. */
  predicate SomeImportRaises(files: seq<string>, modules: string -> Option<seq<Member>>)
  {
    exists i :: 0 <= i < |files| && IsPluginFile(files[i]) && modules(files[i]).None?
  }

  /** A listing has a plugin file that raises exactly when its first file is one or the rest has one. */
  lemma SomeImportRaisesCons(files: seq<string>, modules: string -> Option<seq<Member>>)
    requires files != []
    ensures SomeImportRaises(files, modules)
            <==> (IsPluginFile(files[0]) && modules(files[0]).None?) || SomeImportRaises(files[1..], modules)
  {
    if SomeImportRaises(files, modules) && !(IsPluginFile(files[0]) && modules(files[0]).None?) {
      var i :| 0 <= i < |files| && IsPluginFile(files[i]) && modules(files[i]).None?;
      assert files[1..][i - 1] == files[i];
    }
    if SomeImportRaises(files[1..], modules) {
      var i :| 0 <= i < |files[1..]| && IsPluginFile(files[1..][i]) && modules(files[1..][i]).None?;
      assert files[i + 1] == files[1..][i];
    }
  }

  /** load_plugins over a folder listing: only plugin files are imported, in listing order, until one raises. */
  function LoadAll(registry: map<string, Plugin>, files: seq<string>, modules: string -> Option<seq<Member>>): (r: Loading)
    ensures registry.Keys <= r.registry.Keys
    ensures r.raised <==> SomeImportRaises(files, modules)
    decreases |files|
  {
    if files == [] then Loading(registry, false)
    else
      SomeImportRaisesCons(files, modules);
      if !IsPluginFile(files[0]) then LoadAll(registry, files[1..], modules)
      else match modules(files[0])
        case None => Loading(registry, true)
        case Some(members) => LoadAll(Register(registry, ModuleName(files[0]), members), files[1..], modules)
  }

  /** What the other files of the folder would yield when imported does not matter: they are never imported. */
  lemma {:induction false} LoadIgnoresOtherFiles(registry: map<string, Plugin>, files: seq<string>,
                                                 modules: string -> Option<seq<Member>>, modules': string -> Option<seq<Member>>)
    requires forall f :: IsPluginFile(f) ==> modules(f) == modules'(f)
    ensures LoadAll(registry, files, modules) == LoadAll(registry, files, modules')
    decreases |files|
  {
    if files != [] {
      if !IsPluginFile(files[0]) {
        LoadIgnoresOtherFiles(registry, files[1..], modules, modules');
      } else if modules(files[0]).Some? {
        LoadIgnoresOtherFiles(Register(registry, ModuleName(files[0]), modules(files[0]).value), files[1..], modules, modules');
      }
    }
  }

  /** A load with no plugin files in the folder registers nothing. */
  lemma {:induction false} LoadWithoutPluginFiles(registry: map<string, Plugin>, files: seq<string>, modules: string -> Option<seq<Member>>)
    requires forall i :: 0 <= i < |files| ==> !IsPluginFile(files[i])
    ensures LoadAll(registry, files, modules) == Loading(registry, false)
  {
    if files != [] {
      LoadWithoutPluginFiles(registry, files[1..], modules);
    }
  }

  class PluginManager {
    const pluginFolder: string
    var plugins: map<string, Plugin>
    var activePlugin: Option<Plugin>

    /** PluginManager.__init__: no plugins and none active. */
    constructor (pluginFolder: string)
      ensures this.pluginFolder == pluginFolder && plugins == map[] && activePlugin == None
    {
      this.pluginFolder := pluginFolder;
      plugins := map[];
      activePlugin := None;
    }

    /**
     * load_plugins: a missing folder is created, and so holds no files;
     * otherwise every plugin file of the listing is imported in turn and
     * its plugins registered. An import that raises ends the load with
     * an error, keeping what earlier files registered.
     */
    method LoadPlugins(listing: Option<seq<string>>, modules: string -> Option<seq<Member>>) returns (r: Result<()>)
      modifies this`plugins
      ensures listing.None? ==> r.Ok? && plugins == old(plugins)
      ensures listing.Some? ==>
                var outcome := LoadAll(old(plugins), listing.value, modules);
                plugins == outcome.registry && (r.Failure? <==> outcome.raised)
    {
      if listing.None? {
        return Ok(());
      }
      var files := listing.value;
      var i := 0;
      while i < |files|
        invariant 0 <= i <= |files|
        invariant LoadAll(old(plugins), files, modules) == LoadAll(plugins, files[i..], modules)
      {
        assert files[i..][1..] == files[i + 1..];
        if IsPluginFile(files[i]) {
          var imported := modules(files[i]);
          if imported.None? {
            return Failure("import of " + files[i] + " raised");
          }
          LoadFile(ModuleName(files[i]), imported.value);
        }
        i := i + 1;
      }
      return Ok(());
    }

    /** _load_file once the module is imported: an instance of each plugin class, registered under its name. */
    method LoadFile(moduleName: string, members: seq<Member>)
      modifies this`plugins
      ensures plugins == Register(old(plugins), moduleName, members)
    {
      var j := 0;
      while j < |members|
        invariant 0 <= j <= |members|
        invariant plugins == Register(old(plugins), moduleName, members[..j])
      {
        var m := members[j];
        if m.kind.PluginClass? {
          plugins := plugins[m.kind.pluginName := Plugin(moduleName, m.memberName, m.kind.pluginName)];
        }
        assert members[..j + 1][..j] == members[..j];
        j := j + 1;
      }
      assert members[..j] == members;
    }

    /**
     * set_active_plugin: a registered plugin becomes the active one;
     * for any other name ValueError is raised and the active plugin stays.
     */
    method SetActivePlugin(name: string) returns (r: Result<Plugin>)
      modifies this`activePlugin
      ensures name in plugins ==> r == Ok(plugins[name]) && activePlugin == Some(plugins[name])
      ensures name !in plugins ==> r == Failure("Plugin " + name + " not found") && activePlugin == old(activePlugin)
    {
      if name in plugins {
        activePlugin := Some(plugins[name]);
        return Ok(plugins[name]);
      }
      return Failure("Plugin " + name + " not found");
    }
  }
}

=== FILE: resources.dfy ===
/**
 * utils/resources.py: where a bundled resource lives. The base directory
 * is the bundle's unpack directory when the program runs frozen
 * (`sys._MEIPASS`), otherwise the absolute path of the working
 * directory. A resource missing from its own path is looked for in the
 * `fonts` directory under its bare file name. The file system is an
 * existence predicate, `pathExists`, and paths follow POSIX rules.
 */
module Resources {
  import opened Text

  /** os.path.basename, POSIX rules: what follows the last slash. */
  function Basename(p: string): (r: string)
    ensures '/' !in r && EndsWith(p, r)
    ensures r == p || p[|p| - |r| - 1] == '/'
    decreases |p|
  {
    if p == [] || p[|p| - 1] == '/' then []
    else Basename(p[..|p| - 1]) + [p[|p| - 1]]
  }

  /** A path's base name is its last component. */
  lemma {:induction false} BasenameLast(dir: string, name: string)
    requires '/' !in name
    ensures Basename(dir + "/" + name) == name
    ensures Basename(name) == name
    decreases |name|
  {
    if name != [] {
      var init := name[..|name| - 1];
      assert (dir + "/" + name)[..|dir + "/" + name| - 1] == dir + "/" + init;
      assert name[..|name| - 1] == init;
      assert init + [name[|name| - 1]] == name;
      BasenameLast(dir, init);
    } else {
      assert (dir + "/" + name) == dir + "/";
    }
  }

  /** The base directory: the unpack directory if the program is frozen, else the working directory. */
  function BasePath(meipass: Option<string>, cwd: string): (r: string)
    ensures meipass.Some? ==> r == meipass.value
    ensures meipass.None? ==> r == cwd
  {
    if meipass.Some? then meipass.value else cwd
  }

  /** The resource under its own relative path. */
  function FullPath(base: string, rel: string): (r: string)
    ensures EndsWith(r, rel)
    ensures !StartsWith(rel, "/") ==> StartsWith(r, base) && InDir(r, base, rel)
  {
    PathJoin(base, rel)
  }

  /** The resource's file name in the fonts directory. */
  function FontsPath(base: string, rel: string): (r: string)
    ensures EndsWith(r, Basename(rel)) && StartsWith(r, PathJoin(base, "fonts"))
    ensures InDir(r, PathJoin(base, "fonts"), Basename(rel)) && InDir(PathJoin(base, "fonts"), base, "fonts")
  {
    var fonts, name := PathJoin(base, "fonts"), Basename(rel);
    assert "fonts"[..1] == "f";
    assert !StartsWith(name, "/") by {
      if name != [] {
        assert name[0] in name;
      }
    }
    PathJoin(fonts, name)
  }

  /**
   * resource_path: the path under the base directory, unless nothing
   * exists there, the relative path is not already under `fonts/`, and
   * the same file name exists in the fonts directory.
   */
  function ResourcePath(meipass: Option<string>, cwd: string, rel: string, pathExists: string -> bool): (r: string)
    ensures var base := BasePath(meipass, cwd);
            r == FullPath(base, rel) || r == FontsPath(base, rel)
    ensures var base := BasePath(meipass, cwd);
            pathExists(FullPath(base, rel)) || StartsWith(rel, "fonts/") ==> r == FullPath(base, rel)
    ensures var base := BasePath(meipass, cwd);
            r != FullPath(base, rel) ==>
              !pathExists(FullPath(base, rel)) && !StartsWith(rel, "fonts/") && pathExists(FontsPath(base, rel))
  {
    var base := BasePath(meipass, cwd);
    var full := FullPath(base, rel);
    if !pathExists(full) && !StartsWith(rel, "fonts/") && pathExists(FontsPath(base, rel)) then FontsPath(base, rel)
    else full
  }

  /** The path given back names an existing file whenever either candidate is one the function may use. */
  lemma ResourcePathFound(meipass: Option<string>, cwd: string, rel: string, pathExists: string -> bool)
    requires var base := BasePath(meipass, cwd);
             pathExists(FullPath(base, rel)) || (!StartsWith(rel, "fonts/") && pathExists(FontsPath(base, rel)))
    ensures pathExists(ResourcePath(meipass, cwd, rel, pathExists))
  {
  }

  /**
   * A font asked for under another directory, say `assets/x.ttf`, and
   * missing there, resolves to `fonts/x.ttf` under the base directory
   * when that file exists.
   */
  lemma FontFallback(meipass: Option<string>, cwd: string, dir: string, name: string, pathExists: string -> bool)
    requires '/' !in name && !StartsWith(dir + "/" + name, "fonts/")
    requires var base := BasePath(meipass, cwd);
             !pathExists(PathJoin(base, dir + "/" + name)) && pathExists(PathJoin(PathJoin(base, "fonts"), name))
    ensures ResourcePath(meipass, cwd, dir + "/" + name, pathExists) == PathJoin(PathJoin(BasePath(meipass, cwd), "fonts"), name)
  {
    BasenameLast(dir, name);
  }
}

=== FILE: sidebar.dfy ===
/**
 * ui/sidebar.py: the navigation sidebar. Its buttons are built from the
 * section table, at most one of them, the one under the active key, is
 * highlighted, and the sidebar folds between 220 and 72 pixels, showing
 * or hiding button texts and section headers. Painting, the width
 * animation and tooltips are not part of this model; a widget's look is
 * the colours and weight it is given.
 */
module SidebarNav {
  import opened Text

  datatype Item = Item(icon: string, caption: string, key: string)
  datatype Section = Section(title: Option<string>, items: seq<Item>)

  /** SIDEBAR_SECTIONS */
  const Sections: seq<Section> := [
    Section(None, [
      Item("\U{e88a}", "Главная", "home"),
      Item("\U{e8f4}", "Тренды", "trending"),
      Item("\U{e553}", "Shorts", "shorts")]),
    Section(Some("Вы"), [
      Item("\U{e0be}", "Подписки", "subscriptions"),
      Item("\U{e916}", "История", "history"),
      Item("\U{e065}", "Плейлисты", "playlists")]),
    Section(Some("Интересное"), [
      Item("\U{e02c}", "Фильмы", "movies"),
      Item("\U{e627}", "Игры", "gaming"),
      Item("\U{e030}", "Музыка", "music"),
      Item("\U{e63a}", "Новости", "news")])
  ]

  const WidthExpanded: int := 220
  const WidthCollapsed: int := 72

  /** The background, text weight and icon colour _refresh gives a button. */
  datatype ButtonStyle = ButtonStyle(background: string, weight: string, iconColor: string)

  /** _refresh: an active button is highlighted whether hovered or not; a hovered one is shaded; others are transparent. */
  function StyleOf(active: bool, hovered: bool): (r: ButtonStyle)
    ensures active ==> r.background == "#272727" && r.weight == "bold" && r.iconColor == "#ffffff"
    ensures !active && hovered ==> r.background == "#1f1f1f" && r.weight == "normal"
    ensures !active && !hovered ==> r.background == "transparent" && r.weight == "normal"
    ensures !active ==> r.iconColor == "#f1f1f1"
  {
    if active then ButtonStyle("#272727", "bold", "#ffffff")
    else if hovered then ButtonStyle("#1f1f1f", "normal", "#f1f1f1")
    else ButtonStyle("transparent", "normal", "#f1f1f1")
  }

  /** The three looks are told apart, and hovering changes nothing on the active button. */
  lemma StylesDistinct(hovered: bool)
    ensures StyleOf(true, hovered) == StyleOf(true, !hovered)
    ensures StyleOf(false, true) != StyleOf(false, false)
    ensures StyleOf(true, hovered) != StyleOf(false, true) && StyleOf(true, hovered) != StyleOf(false, false)
  {
    assert StyleOf(false, true).background[1] != StyleOf(false, false).background[1];
    assert StyleOf(true, hovered).weight[0] != StyleOf(false, hovered).weight[0];
  }

  class SidebarButton {
    const key: string
    const caption: string
    var active: bool
    var hovered: bool
    var expanded: bool
    // What the widgets show: the text label's visibility, the horizontal margins, the look.
    var textVisible: bool
    var margin: int
    var style: ButtonStyle

    /** The look follows the flags, and the text and margins follow the fold. */
    ghost predicate Valid()
      reads this
    {
      style == StyleOf(active, hovered) && textVisible == expanded && margin == (if expanded then 12 else 0)
    }

    /** SidebarButton.__init__: inactive, not hovered, unfolded with 12-pixel margins. */
    constructor (icon: string, caption: string, key: string)
      ensures Valid()
      ensures this.key == key && this.caption == caption && !active && !hovered && expanded
    {
      this.key, this.caption := key, caption;
      active, hovered, expanded := false, false, true;
      textVisible, margin := true, 12;
      style := StyleOf(false, false);
    }

    /** SidebarButton.set_active */
    method SetActive(a: bool)
      requires Valid()
      modifies this`active, this`style
      ensures Valid() && active == a
    {
      active := a;
      style := StyleOf(active, hovered);
    }

    /** SidebarButton.set_expanded: folded, the text is hidden and the margins drop to 0 so the icon centres. */
    method SetExpanded(e: bool)
      requires Valid()
      modifies this`expanded, this`textVisible, this`margin, this`style
      ensures Valid() && expanded == e && style == old(style)
      ensures textVisible == e && margin == (if e then 12 else 0)
    {
      expanded := e;
      textVisible := e;
      margin := if e then 12 else 0;
      style := StyleOf(active, hovered);
    }

    /** enterEvent and leaveEvent: the pointer enters or leaves the button. */
    method SetHovered(h: bool)
      requires Valid()
      modifies this`hovered, this`style
      ensures Valid() && hovered == h
      ensures active ==> style == old(style)
    {
      hovered := h;
      style := StyleOf(active, hovered);
    }
  }

  /** The keys of a list of items, in order. */
  function Keys(items: seq<Item>): (r: seq<string>)
    ensures |r| == |items| && forall i :: 0 <= i < |items| ==> r[i] == items[i].key
  {
    seq(|items|, i requires 0 <= i < |items| => items[i].key)
  }

  /** The keys of every section's items, in order. */
  function AllKeys(sections: seq<Section>): seq<string>
  {
    if sections == [] then [] else AllKeys(sections[..|sections| - 1]) + Keys(sections[|sections| - 1].items)
  }

  /** A section with a title label: `if section_title:` is false for None and for the empty string. */
  predicate Titled(section: Section)
  {
    section.title.Some? && section.title.value != ""
  }

  /** The widgets hidden when the sidebar folds: a divider before every section but the first, and each section's title. */
  function LabelCount(sections: seq<Section>, first: bool): nat
  {
    if sections == [] then 0
    else (if first then 0 else 1) + (if Titled(sections[0]) then 1 else 0) + LabelCount(sections[1..], false)
  }

  /** The section table: ten keys, "home" first, none empty, and four dividers and titles. */
  lemma SectionsShape()
    ensures AllKeys(Sections) == ["home", "trending", "shorts", "subscriptions", "history", "playlists",
                                  "movies", "gaming", "music", "news"]
    ensures LabelCount(Sections, true) == 4
  {
    assert Sections[..3][..2] == Sections[..2];
    assert Sections[..2][..1] == Sections[..1];
    assert Sections[..1][..0] == [];
    assert Sections[..3] == Sections;
    var k0, k1, k2 := Keys(Sections[0].items), Keys(Sections[1].items), Keys(Sections[2].items);
    assert k0 == ["home", "trending", "shorts"];
    assert k1 == ["subscriptions", "history", "playlists"];
    assert k2 == ["movies", "gaming", "music", "news"];
    assert AllKeys(Sections[..1]) == k0;
    assert AllKeys(Sections[..2]) == k0 + k1;
    assert AllKeys(Sections) == k0 + k1 + k2;
  }

  /** Built from the section table, the buttons include "home" and none has the empty key. */
  lemma BuiltKeys<B>(buttons: map<string, B>, order: seq<string>)
    requires (forall k :: k in buttons <==> k in order) && order == AllKeys(Sections)
    ensures "" !in buttons && "home" in buttons
  {
    SectionsShape();
    assert order[0] == "home";
  }

  /** A button under its own key, consistent in itself, highlighted exactly when its key is the active one. */
  ghost predicate Placed(k: string, b: SidebarButton, activeKey: Option<string>)
    reads b
  {
    b.key == k && b.Valid() && (b.active <==> activeKey == Some(k))
  }

  class Sidebar {
    var expanded: bool
    var buttons: map<string, SidebarButton>
    // The keys in the order the buttons were added, which is the order toggle visits them in.
    var order: seq<string>
    // Visibility of the dividers and section titles.
    var labelsVisible: seq<bool>
    var activeKey: Option<string>
    // The width the sidebar is set to, or animates to.
    var targetWidth: int
    // nav_changed emissions, in order.
    var navChanged: seq<string>

    /**
     * Every button sits under its own key, is highlighted exactly when
     * its key is the active one, and follows the fold, as do the labels;
     * `order` lists the keys.
     */
    ghost predicate Valid()
      reads this, buttons.Values
    {
      && (forall k :: k in buttons ==> Placed(k, buttons[k], activeKey) && buttons[k].expanded == expanded)
      && "" !in buttons
      && (forall k :: k in buttons <==> k in order)
      && (forall i :: 0 <= i < |labelsVisible| ==> labelsVisible[i] == expanded)
      && targetWidth == (if expanded then WidthExpanded else WidthCollapsed)
    }

    /** At most one button is highlighted: the one under the active key. */
    lemma ActiveIsUnique(k: string, k': string)
      requires Valid() && k in buttons && k' in buttons && buttons[k].active && buttons[k'].active
      ensures k == k' && activeKey == Some(k)
    {
      assert Placed(k, buttons[k], activeKey) && Placed(k', buttons[k'], activeKey);
    }

    /** Sidebar.__init__ with _build: a button per item of the section table, unfolded, and the first item active. */
    constructor ()
      ensures Valid() && expanded && targetWidth == WidthExpanded
      ensures order == AllKeys(Sections) && |labelsVisible| == 4
      ensures activeKey == Some("home") && "home" in buttons && buttons["home"].active
      ensures navChanged == []
    {
      expanded := true;
      buttons := map[];
      order := [];
      labelsVisible := [];
      activeKey := None;
      targetWidth := WidthExpanded;
      navChanged := [];
      new;
      var firstKey := Build();
      SetActive(firstKey);
    }

    /** _build without its final set_active: the dividers, titles and buttons of every section. */
    method Build() returns (firstKey: string)
      requires buttons == map[] && order == [] && labelsVisible == [] && activeKey == None && expanded
      modifies this`buttons, this`order, this`labelsVisible
      ensures forall k :: k in buttons ==> Placed(k, buttons[k], activeKey) && buttons[k].expanded
      ensures forall b :: b in buttons.Values ==> fresh(b)
      ensures (forall k :: k in buttons <==> k in order) && order == AllKeys(Sections)
      ensures "" !in buttons && firstKey == Sections[0].items[0].key == "home" && firstKey in buttons
      ensures |labelsVisible| == 4
      ensures forall i :: 0 <= i < |labelsVisible| ==> labelsVisible[i]
    {
      SectionsShape();
      var s := 0;
      while s < |Sections|
        invariant 0 <= s <= |Sections|
        invariant order == AllKeys(Sections[..s]) && forall k :: k in buttons <==> k in order
        invariant forall k :: k in buttons ==> Placed(k, buttons[k], activeKey) && buttons[k].expanded
        invariant forall b :: b in buttons.Values ==> fresh(b)
        invariant |labelsVisible| + LabelCount(Sections[s..], s == 0) == LabelCount(Sections, true)
        invariant forall i :: 0 <= i < |labelsVisible| ==> labelsVisible[i]
      {
        AddSection(Sections[s], s == 0);
        assert Sections[..s + 1][..s] == Sections[..s];
        assert Sections[s..][1..] == Sections[s + 1..];
        s := s + 1;
      }
      assert Sections[..s] == Sections;
      BuiltKeys(buttons, order);
      firstKey := Sections[0].items[0].key;
    }

    /** One pass of _build's outer loop: a divider unless first, the title if any, then a button per item. */
    method AddSection(section: Section, first: bool)
      requires activeKey == None
      requires forall k :: k in buttons ==> Placed(k, buttons[k], activeKey) && buttons[k].expanded
      modifies this`buttons, this`order, this`labelsVisible
      ensures order == old(order) + Keys(section.items) && forall k :: k in buttons <==> k in old(buttons) || k in Keys(section.items)
      ensures forall k :: k in buttons ==> Placed(k, buttons[k], activeKey) && buttons[k].expanded
      ensures forall b :: b in buttons.Values ==> b in old(buttons.Values) || fresh(b)
      ensures labelsVisible == old(labelsVisible) + (if first then [] else [true]) + (if Titled(section) then [true] else [])
    {
      if !first {
        labelsVisible := labelsVisible + [true];
      }
      if Titled(section) {
        labelsVisible := labelsVisible + [true];
      }
      AddButtons(section.items);
    }

    /** _build's inner loop: a button per item, inactive and unfolded, under the item's key. */
    method AddButtons(items: seq<Item>)
      requires activeKey == None
      requires forall k :: k in buttons ==> Placed(k, buttons[k], activeKey) && buttons[k].expanded
      modifies this`buttons, this`order
      ensures order == old(order) + Keys(items) && forall k :: k in buttons <==> k in old(buttons) || k in Keys(items)
      ensures forall k :: k in buttons ==> Placed(k, buttons[k], activeKey) && buttons[k].expanded
      ensures forall b :: b in buttons.Values ==> b in old(buttons.Values) || fresh(b)
    {
      var i := 0;
      while i < |items|
        invariant 0 <= i <= |items|
        invariant order == old(order) + Keys(items[..i])
        invariant forall k :: k in buttons <==> k in old(buttons) || k in Keys(items[..i])
        invariant forall k :: k in buttons ==> Placed(k, buttons[k], activeKey) && buttons[k].expanded
        invariant forall b :: b in buttons.Values ==> b in old(buttons.Values) || fresh(b)
      {
        var item := items[i];
        var btn := new SidebarButton(item.icon, item.caption, item.key);
        buttons := buttons[item.key := btn];
        order := order + [item.key];
        assert Keys(items[..i + 1]) == Keys(items[..i]) + [item.key];
        i := i + 1;
      }
      assert items[..i] == items;
    }

    /**
     * set_active: the previously active button is switched off unless the
     * active key is unset or empty, then the button under `key`, if any,
     * is switched on. `key` becomes the active key even without a button.
     */
    method SetActive(key: string)
      requires "" !in buttons && forall k :: k in buttons ==> Placed(k, buttons[k], activeKey)
      modifies this`activeKey, buttons.Values
      ensures activeKey == Some(key)
      ensures forall k :: k in buttons ==> Placed(k, buttons[k], activeKey)
      ensures forall k :: k in buttons ==> buttons[k].expanded == old(buttons[k].expanded)
      ensures forall k :: k in buttons ==> buttons[k].hovered == old(buttons[k].hovered)
    {
      Deactivate();
      activeKey := Some(key);
      if key in buttons {
        buttons[key].SetActive(true);
      }
    }

    /** The first half of set_active: afterwards no button is highlighted. */
    method Deactivate()
      requires "" !in buttons && forall k :: k in buttons ==> Placed(k, buttons[k], activeKey)
      modifies buttons.Values
      ensures forall k :: k in buttons ==> Placed(k, buttons[k], None)
      ensures forall k :: k in buttons ==> buttons[k].expanded == old(buttons[k].expanded)
      ensures forall k :: k in buttons ==> buttons[k].hovered == old(buttons[k].hovered)
    {
      if activeKey.Some? && activeKey.value != "" && activeKey.value in buttons {
        buttons[activeKey.value].SetActive(false);
      }
    }

    /** _on_click: the clicked key becomes active and is announced. */
    method OnClick(key: string)
      requires Valid()
      modifies this`activeKey, this`navChanged, buttons.Values
      ensures Valid() && activeKey == Some(key) && navChanged == old(navChanged) + [key]
      ensures forall k :: k in buttons ==> buttons[k].hovered == old(buttons[k].hovered)
    {
      SetActive(key);
      navChanged := navChanged + [key];
    }

    /** toggle: fold or unfold, aim the width at 220 or 72, and make every button and label follow. */
    method Toggle()
      requires Valid()
      modifies this`expanded, this`targetWidth, this`labelsVisible, buttons.Values
      ensures Valid()
      ensures expanded == !old(expanded) && targetWidth == (if expanded then WidthExpanded else WidthCollapsed)
      ensures |labelsVisible| == |old(labelsVisible)| && activeKey == old(activeKey)
      ensures forall k :: k in buttons ==> buttons[k].hovered == old(buttons[k].hovered)
    {
      expanded := !expanded;
      targetWidth := if expanded then WidthExpanded else WidthCollapsed;
      ExpandButtons(expanded);
      labelsVisible := ShowAll(|labelsVisible|, expanded);
    }

    /** toggle's loop over the buttons: each is folded or unfolded; the highlight stays. */
    method ExpandButtons(e: bool)
      requires forall k :: k in buttons ==> Placed(k, buttons[k], activeKey)
      requires forall k :: k in buttons <==> k in order
      modifies buttons.Values
      ensures forall k :: k in buttons ==> Placed(k, buttons[k], activeKey) && buttons[k].expanded == e
      ensures forall k :: k in buttons ==> buttons[k].hovered == old(buttons[k].hovered)
    {
      var i := 0;
      while i < |order|
        invariant 0 <= i <= |order|
        invariant forall k :: k in buttons ==> Placed(k, buttons[k], activeKey)
        invariant forall j :: 0 <= j < i ==> buttons[order[j]].expanded == e
        invariant forall k :: k in buttons ==> buttons[k].hovered == old(buttons[k].hovered)
      {
        var b := buttons[order[i]];
        b.SetExpanded(e);
        i := i + 1;
      }
    }

    /** is_expanded */
    function IsExpanded(): (r: bool)
      reads this, buttons.Values
      requires Valid()
      ensures r <==> targetWidth == WidthExpanded
    {
      expanded
    }
  }

  /** toggle's loop over the labels: every one of `n` labels shown or hidden. */
  method ShowAll(n: nat, visible: bool) returns (r: seq<bool>)
    ensures |r| == n && forall i :: 0 <= i < n ==> r[i] == visible
  {
    r := [];
    while |r| < n
      invariant |r| <= n && forall i :: 0 <= i < |r| ==> r[i] == visible
    {
      r := r + [visible];
    }
  }

  /** Toggling twice gives back the fold and the width it started from. */
  method ToggleTwice(s: Sidebar)
    requires s.Valid()
    modifies s`expanded, s`targetWidth, s`labelsVisible, s.buttons.Values
    ensures s.Valid() && s.expanded == old(s.expanded) && s.targetWidth == old(s.targetWidth)
  {
    s.Toggle();
    s.Toggle();
  }
}

=== FILE: text.dfy ===
/**
 * Small value-level helpers shared by the other modules: Option and Result types,
 * JSON field presence, Python's `int()` on floats, decimal rendering of
 * integers the way `str()` and the `02d` format spec do it, the
 * hours/minutes/seconds split of a number of seconds, and a few
 * string predicates (`startswith`, `endswith`, `in`).
 */
module Text {

  datatype Option<T> = None | Some(value: T)

  /** The outcome of a call that can raise: its value, or the exception it raised. */
  datatype Result<T> = Ok(value: T) | Failure(error: string)

  /** A key of a decoded JSON object: absent, present with `null`, or present with a value. */
  datatype Field<T> = Missing | Null | Val(value: T)

  /** Python's `dict.get(key, default)`: the default only when the key is absent; `null` reads as `None`. */
  function GetOr<T>(f: Field<T>, default: T): (r: Option<T>)
    ensures f.Missing? ==> r == Some(default)
    ensures f.Null? <==> r.None?
    ensures f.Val? ==> r == Some(f.value)
  {
    match f
    case Missing => Some(default)
    case Null => None
    case Val(v) => Some(v)
  }

  /** Python truthiness of a string-valued field: present, not `null`, not empty. */
  predicate Truthy(f: Field<string>)
  {
    f.Val? && f.value != ""
  }

  /** Python's `int(x)` on a float: truncation toward zero. */
  function Trunc(x: real): (r: int)
    ensures x >= 0.0 ==> 0 <= r && r as real <= x < r as real + 1.0
    ensures x < 0.0 ==> r <= 0 && r as real - 1.0 < x <= r as real
  {
    if x >= 0.0 then x.Floor else -((-x).Floor)
  }

  /** Python's `m, s = divmod(t, 60); h, m = divmod(m, 60)`: floor division, so minutes and seconds are never negative. */
  function Hms(t: int): (r: (int, int, int))
    ensures r.0 * 3600 + r.1 * 60 + r.2 == t
    ensures 0 <= r.1 < 60 && 0 <= r.2 < 60
    ensures t >= 0 ==> r.0 >= 0
  {
    ((t / 60) / 60, (t / 60) % 60, t % 60)
  }

  predicate IsDigit(c: char)
  {
    '0' <= c <= '9'
  }

  predicate AllDigits(s: string)
  {
    forall i :: 0 <= i < |s| ==> IsDigit(s[i])
  }

  function DigitChar(d: nat): (c: char)
    requires d < 10
    ensures IsDigit(c) && c as int - '0' as int == d
  {
    (d + '0' as int) as char
  }

  function DigitValue(c: char): (d: nat)
    requires IsDigit(c)
    ensures d < 10
  {
    c as int - '0' as int
  }

  /** `str(n)` for a non-negative integer: decimal digits, most significant first, no leading zeros. */
  function NatToString(n: nat): (s: string)
    ensures |s| >= 1 && AllDigits(s)
    ensures |s| == 1 <==> n < 10
    ensures n >= 10 ==> s[0] != '0'
    decreases n
  {
    if n < 10 then [DigitChar(n)] else NatToString(n / 10) + [DigitChar(n % 10)]
  }

  /** Reads a string of decimal digits back as a number. */
  function ParseNat(s: string): nat
    requires AllDigits(s)
  {
    if s == [] then 0 else ParseNat(s[..|s| - 1]) * 10 + DigitValue(s[|s| - 1])
  }

  lemma {:induction false} ParseNatToString(n: nat)
    ensures ParseNat(NatToString(n)) == n
    decreases n
  {
    if n >= 10 {
      var s := NatToString(n);
      assert s[..|s| - 1] == NatToString(n / 10);
      ParseNatToString(n / 10);
    }
  }

  /** `str(n)` for any integer: a leading minus sign for negative values. */
  function IntToString(n: int): (s: string)
    ensures n >= 0 ==> s == NatToString(n)
    ensures n < 0 ==> s == "-" + NatToString(-n)
  {
    if n < 0 then "-" + NatToString(-n) else NatToString(n)
  }

  /** `format(n, "02d")`: zero-padded to two characters; the sign counts toward the width. */
  function Pad2(n: int): (s: string)
    ensures 0 <= n < 100 ==> |s| == 2 && AllDigits(s) && ParseNat(s) == n
    ensures n >= 10 ==> s == NatToString(n)
  {
    if 0 <= n < 10 then
      ParseNatToString(n);
      "0" + NatToString(n)
    else if 10 <= n then
      ParseNatToString(n);
      NatToString(n)
    else
      IntToString(n)
  }

  predicate StartsWith(s: string, prefix: string)
  {
    |prefix| <= |s| && s[..|prefix|] == prefix
  }

  predicate EndsWith(s: string, suffix: string)
  {
    |suffix| <= |s| && s[|s| - |suffix|..] == suffix
  }

  /**
   * os.path.join of two parts, POSIX rules: an absolute second part
   * replaces the first; otherwise a single slash separates them unless
   * the first is empty or already ends in one.
   */
  function PathJoin(a: string, b: string): (r: string)
    ensures EndsWith(r, b)
    ensures StartsWith(b, "/") ==> r == b
    ensures !StartsWith(b, "/") ==> StartsWith(r, a) && InDir(r, a, b)
  {
    if StartsWith(b, "/") then b
    else if a == [] || a[|a| - 1] == '/' then a + b
    else a + "/" + b
  }

  /**
   * `p` names `name` inside the directory `dir`: the directory, then one
   * slash unless the directory is empty or already ends in one, then the name.
   */
  predicate InDir(p: string, dir: string, name: string)
  {
    if dir == [] || EndsWith(dir, "/") then p == dir + name else p == dir + "/" + name
  }

  /** Joining in two steps is joining once with the inner part spelled out: `join(join(a, b), c) == join(a, b + "/" + c)`. */
  lemma PathJoinNested(a: string, b: string, c: string)
    requires b != [] && b[0] != '/' && b[|b| - 1] != '/' && !StartsWith(c, "/")
    ensures PathJoin(PathJoin(a, b), c) == PathJoin(a, b + "/" + c)
  {
    var bc := b + "/" + c;
    assert a + b + "/" + c == a + bc && a + "/" + b + "/" + c == a + "/" + bc;
    assert !StartsWith(bc, "/") && !StartsWith(b, "/") by {
      assert bc[0] == b[0] && b[..1][0] == b[0];
    }
    var ab := PathJoin(a, b);
    assert PathJoin(ab, c) == ab + "/" + c by {
      assert ab[|ab| - |b|..] == b;
      assert ab[|ab| - 1] == b[|b| - 1];
    }
  }

  predicate Contains(s: string, sub: string)
    decreases |s|
  {
    StartsWith(s, sub) || (s != [] && Contains(s[1..], sub))
  }

  lemma {:induction false} ContainsAt(s: string, sub: string, i: nat)
    requires i + |sub| <= |s| && s[i..i + |sub|] == sub
    ensures Contains(s, sub)
    decreases i
  {
    if i > 0 {
      assert s[1..][i - 1..i - 1 + |sub|] == s[i..i + |sub|];
      ContainsAt(s[1..], sub, i - 1);
    }
  }
}

=== FILE: video_player.dfy ===
/**
 * The session side of test.py's VideoPlayer: the clock text (_fmt), the
 * seek slider, the play/pause toggle, and replacing the worker when
 * playback restarts from a new offset. Widgets, pixmaps and the
 * controls' fade timer are not part of this model.
 */
module PlayerSession {
  import opened Text
  import opened AvWorker
  import AvPipeline

  /** _fmt: seconds, truncated, as `MM:SS`, or `HH:MM:SS` when the hour count is not zero. */
  function Fmt(x: real): string
  {
    var (h, m, s) := Hms(Trunc(x));
    if h != 0 then Pad2(h) + ":" + Pad2(m) + ":" + Pad2(s) else Pad2(m) + ":" + Pad2(s)
  }

  /** Whatever the time, the clock text ends with `:SS`, the seconds within the minute. */
  lemma FmtSeconds(x: real)
    ensures var r := Fmt(x);
            |r| >= 5 && r[|r| - 3] == ':' && r[|r| - 2..] == Pad2(Trunc(x) % 60)
  {
  }

  /** Reads a clock text of either shape back as whole seconds. */
  function ParseClock(text: string): Option<int>
  {
    if |text| == 5 && text[2] == ':' && AllDigits(text[..2]) && AllDigits(text[3..]) then
      Some(ParseNat(text[..2]) * 60 + ParseNat(text[3..]))
    else if |text| == 8 && text[2] == ':' && text[5] == ':'
            && AllDigits(text[..2]) && AllDigits(text[3..5]) && AllDigits(text[6..]) then
      Some(ParseNat(text[..2]) * 3600 + ParseNat(text[3..5]) * 60 + ParseNat(text[6..]))
    else
      None
  }

  /**
   * Below a hundred hours, the clock text is five characters under an
   * hour and eight from an hour on, and it reads back as the truncated
   * number of seconds.
   */
  lemma FmtRoundTrip(x: real)
    requires 0.0 <= x < 360000.0
    ensures |Fmt(x)| == (if Trunc(x) < 3600 then 5 else 8)
    ensures ParseClock(Fmt(x)) == Some(Trunc(x))
  {
    var (h, m, s) := Hms(Trunc(x));
    var hs, ms, ss := Pad2(h), Pad2(m), Pad2(s);
    if h != 0 {
      var text := hs + ":" + ms + ":" + ss;
      assert text[..2] == hs && text[3..5] == ms && text[6..] == ss;
    } else {
      var text := ms + ":" + ss;
      assert text[..2] == ms && text[3..] == ss;
    }
  }

  /** The text of the time label: the position, then the duration. */
  function TimeLabel(currentSec: real, duration: real): string
  {
    Fmt(currentSec) + " / " + Fmt(duration)
  }

  /** At zero seconds of zero, the label reads `00:00 / 00:00`. */
  lemma TimeLabelAtStart()
    ensures TimeLabel(0.0, 0.0) == "00:00 / 00:00"
  {
    assert Hms(Trunc(0.0)) == (0, 0, 0);
    assert NatToString(0) == "0";
  }

  /** Reads a time label back as whole seconds of position and of duration. */
  function ParseLabel(text: string): Option<(int, int)>
  {
    var k := if |text| >= 8 && text[5..8] == " / " then 5 else 8;
    if |text| >= k + 3 && text[k..k + 3] == " / " then
      match (ParseClock(text[..k]), ParseClock(text[k + 3..]))
      case (Some(a), Some(b)) => Some((a, b))
      case _ => None
    else
      None
  }

  /** Below a hundred hours, the time label reads back as the truncated position and duration. */
  lemma {:induction false} TimeLabelRoundTrip(currentSec: real, duration: real)
    requires 0.0 <= currentSec < 360000.0 && 0.0 <= duration < 360000.0
    ensures ParseLabel(TimeLabel(currentSec, duration)) == Some((Trunc(currentSec), Trunc(duration)))
  {
    FmtRoundTrip(currentSec);
    FmtRoundTrip(duration);
    ParseLabelJoin(Fmt(currentSec), Fmt(duration));
  }

  /** Two clock texts joined by ` / ` read back as the two clocks. */
  lemma ParseLabelJoin(a: string, b: string)
    requires (|a| == 5 || |a| == 8) && ParseClock(a).Some? && ParseClock(b).Some?
    ensures ParseLabel(a + " / " + b) == Some((ParseClock(a).value, ParseClock(b).value))
  {
    var text := a + " / " + b;
    assert text[..|a|] == a && text[|a|..|a| + 3] == " / " && text[|a| + 3..] == b;
    if |a| == 8 {
      assert text[5..8] == a[5..8];
    }
  }

  /** The play button shows pause while playing and play while paused. */
  function PlayGlyph(isPlaying: bool): (r: string)
    ensures r == "\U{23F8}" <==> isPlaying
    ensures r == "\U{25B6}" <==> !isPlaying
  {
    if isPlaying then "\U{23F8}" else "\U{25B6}"
  }

  /**
   * The seek slider, as a QSlider keeps it: range from 0 to `maximum`
   * (99 until a duration arrives), a value kept inside the range, and
   * whether the user holds the handle.
   */
  datatype Slider = Slider(maximum: int, value: int, down: bool)

  ghost predicate SliderOk(s: Slider)
  {
    0 <= s.value <= s.maximum
  }

  /** QSlider.setValue: the value is bounded to the range. */
  function SetValue(s: Slider, v: int): (r: Slider)
    requires SliderOk(s)
    ensures SliderOk(r) && r.maximum == s.maximum && r.down == s.down
    ensures 0 <= v <= s.maximum ==> r.value == v
    ensures v < 0 ==> r.value == 0
    ensures v > s.maximum ==> r.value == s.maximum
  {
    s.(value := if v < 0 then 0 else if v > s.maximum then s.maximum else v)
  }

  /** QSlider.setRange(0, m): a maximum below 0 collapses the range to 0, and the value is bounded again. */
  function SetRange(s: Slider, m: int): (r: Slider)
    requires SliderOk(s)
    ensures SliderOk(r) && r.down == s.down
    ensures r.maximum == if m < 0 then 0 else m
    ensures s.value <= r.maximum ==> r.value == s.value
    ensures s.value > r.maximum ==> r.value == r.maximum
  {
    var top := if m < 0 then 0 else m;
    Slider(top, if s.value > top then top else s.value, s.down)
  }

  /** Setting a value twice is setting it once: the bounded value is inside the range. */
  lemma SetValueIdempotent(s: Slider, v: int)
    requires SliderOk(s)
    ensures SetValue(SetValue(s, v), SetValue(s, v).value) == SetValue(s, v)
  {
  }

  class VideoPlayer {
    const url: string
    var duration: real
    var currentSec: real
    var isPlaying: bool
    var worker: AVWorker
    var slider: Slider
    var timeLabel: string
    var playGlyph: string

    // The workers replaced so far, oldest first.
    ghost var retired: seq<AVWorker>

    ghost predicate Valid()
      reads this, worker
    {
      worker.Valid() && SliderOk(slider) && playGlyph == PlayGlyph(isPlaying) && worker !in retired
    }

    /** VideoPlayer.__init__ and its first _start_worker(0): no worker to replace yet. */
    constructor (url: string)
      ensures Valid()
      ensures this.url == url && duration == 0.0 && currentSec == 0.0 && isPlaying
      ensures slider == Slider(99, 0, false) && timeLabel == TimeLabel(0.0, 0.0) == "00:00 / 00:00"
      ensures fresh(worker) && worker.url == url && worker.startTime == 0.0 && worker.running && !worker.ran
      ensures retired == []
    {
      this.url := url;
      duration, currentSec, isPlaying := 0.0, 0.0, true;
      slider := Slider(99, 0, false);
      timeLabel := TimeLabel(0.0, 0.0);
      TimeLabelAtStart();
      playGlyph := PlayGlyph(true);
      retired := [];
      worker := new AVWorker(url, 0.0);
    }

    /**
     * _start_worker: the position jumps to the start offset, the current
     * worker is stopped and retired, and a new worker for the same URL
     * starts at that offset. Its signals reach this player; those of the
     * retired worker no longer do.
     */
    method StartWorker(start: int)
      requires Valid()
      modifies this, worker
      ensures Valid()
      ensures currentSec == start as real
      ensures fresh(worker) && worker.url == url && worker.startTime == start as real && worker.running && !worker.ran
      ensures !old(worker).running && old(worker).stopEvent && old(worker).queue == []
      ensures old(worker).videoProc == AvPipeline.Terminated(old(worker.videoProc))
              && old(worker).audioProc == AvPipeline.Terminated(old(worker.audioProc))
      ensures retired == old(retired) + [old(worker)]
      ensures duration == old(duration) && isPlaying == old(isPlaying) && slider == old(slider)
      ensures timeLabel == old(timeLabel) && playGlyph == old(playGlyph)
    {
      Retire();
      Replace(start);
    }

    /** The old worker's signals are disconnected and it is stopped. */
    method Retire()
      requires Valid()
      modifies worker
      ensures Valid() && worker == old(worker)
      ensures !worker.running && worker.stopEvent && worker.queue == []
      ensures worker.videoProc == AvPipeline.Terminated(old(worker.videoProc))
              && worker.audioProc == AvPipeline.Terminated(old(worker.audioProc))
    {
      worker.Stop();
    }

    /** A new worker takes its place, and the position jumps to the start offset. */
    method Replace(start: int)
      requires Valid()
      modifies this
      ensures Valid()
      ensures currentSec == start as real
      ensures fresh(worker) && worker.url == url && worker.startTime == start as real && worker.running && !worker.ran
      ensures retired == old(retired) + [old(worker)]
      ensures duration == old(duration) && isPlaying == old(isPlaying) && slider == old(slider)
      ensures timeLabel == old(timeLabel) && playGlyph == old(playGlyph)
    {
      var next := new AVWorker(url, start as real);
      retired, worker, currentSec := retired + [worker], next, start as real;
    }

    /** _set_duration: the slider's range becomes 0 to the whole seconds of the duration, and the label is redrawn. */
    method SetDuration(d: real)
      requires Valid()
      modifies this`duration, this`slider, this`timeLabel
      ensures Valid()
      ensures duration == d && slider == SetRange(old(slider), Trunc(d))
      ensures timeLabel == TimeLabel(currentSec, d)
    {
      duration := d;
      slider := SetRange(slider, Trunc(d));
      timeLabel := TimeLabel(currentSec, duration);
    }

    /** _sync_time: ignored while the user holds the slider; otherwise the position, slider and label follow the worker. */
    method SyncTime(t: real)
      requires Valid()
      modifies this`currentSec, this`slider, this`timeLabel
      ensures Valid()
      ensures old(slider).down ==> currentSec == old(currentSec) && slider == old(slider) && timeLabel == old(timeLabel)
      ensures !old(slider).down ==>
                currentSec == t && slider == SetValue(old(slider), Trunc(t)) && timeLabel == TimeLabel(t, duration)
    {
      if !slider.down {
        currentSec := t;
        slider := SetValue(slider, Trunc(t));
        timeLabel := TimeLabel(currentSec, duration);
      }
    }

    /** time_update from a worker: only the current worker's signal is still connected. */
    method OnTimeUpdate(from: AVWorker, t: real)
      requires Valid()
      modifies this`currentSec, this`slider, this`timeLabel
      ensures Valid()
      ensures from != worker || old(slider).down ==>
                currentSec == old(currentSec) && slider == old(slider) && timeLabel == old(timeLabel)
      ensures from == worker && !old(slider).down ==>
                currentSec == t && slider == SetValue(old(slider), Trunc(t)) && timeLabel == TimeLabel(t, duration)
    {
      if from == worker {
        SyncTime(t);
      }
    }

    /** duration_found from a worker: only the current worker's signal is still connected. */
    method OnDurationFound(from: AVWorker, d: real)
      requires Valid()
      modifies this`duration, this`slider, this`timeLabel
      ensures Valid()
      ensures from != worker ==> duration == old(duration) && slider == old(slider) && timeLabel == old(timeLabel)
      ensures from == worker ==>
                duration == d && slider == SetRange(old(slider), Trunc(d)) && timeLabel == TimeLabel(currentSec, d)
                && slider.maximum == (if Trunc(d) < 0 then 0 else Trunc(d))
    {
      if from == worker {
        SetDuration(d);
      }
    }

    /** The user grabs the slider's handle (sliderPressed). */
    method PressSlider()
      requires Valid()
      modifies this`slider
      ensures Valid() && slider == old(slider).(down := true)
    {
      slider := slider.(down := true);
    }

    /** The user drags the handle; the value stays inside the range. */
    method DragSlider(v: int)
      requires Valid()
      modifies this`slider
      ensures Valid() && slider == SetValue(old(slider), v)
    {
      slider := SetValue(slider, v);
    }

    /** sliderReleased, then _seek_video: playback restarts from the slider's value. */
    method ReleaseSlider()
      requires Valid()
      modifies this, worker
      ensures Valid()
      ensures slider == old(slider).(down := false)
      ensures fresh(worker) && worker.url == url && worker.startTime == old(slider).value as real && worker.running
              && !worker.ran
      ensures !old(worker).running && old(worker).stopEvent && old(worker).queue == []
      ensures old(worker).videoProc == AvPipeline.Terminated(old(worker.videoProc))
              && old(worker).audioProc == AvPipeline.Terminated(old(worker.audioProc))
      ensures retired == old(retired) + [old(worker)] && currentSec == old(slider).value as real
      ensures isPlaying == old(isPlaying) && duration == old(duration)
      ensures timeLabel == old(timeLabel) && playGlyph == old(playGlyph)
    {
      slider := slider.(down := false);
      StartWorker(slider.value);
    }

    /**
     * _toggle_play: pausing stops the worker; resuming starts a new one
     * from the slider's value. The flag and the button flip either way.
     */
    method TogglePlay()
      requires Valid()
      modifies this, worker
      ensures Valid()
      ensures isPlaying == !old(isPlaying) && playGlyph == PlayGlyph(isPlaying)
      ensures old(isPlaying) ==>
                worker == old(worker) && !worker.running && worker.stopEvent && worker.queue == []
                && worker.videoProc == AvPipeline.Terminated(old(worker.videoProc))
                && worker.audioProc == AvPipeline.Terminated(old(worker.audioProc))
                && currentSec == old(currentSec) && retired == old(retired)
      ensures !old(isPlaying) ==>
                fresh(worker) && worker.url == url && worker.startTime == old(slider).value as real && worker.running
                && !worker.ran && currentSec == old(slider).value as real
                && !old(worker).running && old(worker).stopEvent && old(worker).queue == []
                && old(worker).videoProc == AvPipeline.Terminated(old(worker.videoProc))
                && old(worker).audioProc == AvPipeline.Terminated(old(worker.audioProc))
                && retired == old(retired) + [old(worker)]
      ensures slider == old(slider) && duration == old(duration) && timeLabel == old(timeLabel)
    {
      if isPlaying {
        worker.Stop();
        playGlyph := PlayGlyph(false);
      } else {
        StartWorker(slider.value);
        playGlyph := PlayGlyph(true);
      }
      isPlaying := !isPlaying;
    }

    /** closeEvent: the worker is stopped. */
    method Close()
      requires Valid()
      modifies worker
      ensures Valid()
      ensures !worker.running && worker.stopEvent && worker.queue == []
      ensures worker.videoProc == AvPipeline.Terminated(old(worker.videoProc))
              && worker.audioProc == AvPipeline.Terminated(old(worker.audioProc))
    {
      worker.Stop();
    }
  }
}
